=== FILE: README.md ===
# Movie catalog admin UI: a Dafny model of its core

The system is a single-page admin UI for a personal movie catalog. A Flask
server (`app.py`) stores movies, tags and rating dimensions in MySQL, and a
browser script (`static/main.js`) searches, filters and pages the catalog
and edits entries. It also hosts several lookup tools in draggable,
minimizable modal windows. This project models the logic at the heart of
both sides:

- **Modals, ModalScenarios**: the modal window manager (`ModalManager`).
  It has two registries (`activeModals`, `minimizedModals`), stacking
  levels, `is-active` on modals and on their toolbar buttons, the card
  centring, and the toolbar handlers. `open`'s animation frame and the
  300 ms timers of `minimize` and `restoreModal` are queued completions
  that fire in any order, so whole call sequences and their races can be
  stated.
- **DragMove**: the per-modal drag controller (`makeDraggable`). It covers
  the shared `zIndexCounter`, presses on the head versus the controls,
  pointer moves batched into one pending frame, release, and teardown.
- **Uploads**: the pending-upload queue of an image upload area. It covers
  adding a batch (image check, duplicate check, alerts), deleting a preview
  and resetting the area.
- **SearchQuery, Sql**: the query string `searchMovies` sends and the
  statement the `/search` route builds from it, with its `%s` markers
  counted against its parameters.
- **Search, Paging**: the browser's tag and minimum-rating filters, the
  page count, the page change guard, the page slice and the pagination bar.
- **Tags**: tag names to stored ids in the add and edit routes, and stored
  ids back to `tag_names` in the search route.
- **Ratings**: `collectRatings` in the browser, the server's
  `ratings_display` dictionary, and the results table's own decoding of
  the same column.
- **Duplicates**: the duplicate check. It covers the browser's line and
  title extraction, the `/check_duplicates` statement and answer, and the
  lines the browser keeps.
- **Format**: `renderStars`, `formatRuntime`, `formatTime`, and the
  minimum-width rule of the resizable result columns.
- **Text, Seqs, Options**: shared helpers. `trim`/`strip`, `split`/`join`,
  numerals, JavaScript's `parseInt` and Python's `int()`, `filter`,
  `slice` and `splice`, and the optional value.

The database, the viewport and card sizes, the card rectangles and pointer
positions are parameters. Every `fetch` is replaced by the answer the
server's model gives.

## Model

| member | source | states |
|---|---|---|
| Modals.Init | static/main.js:54-57 | On a freshly loaded page both registries are empty, no modal is shown, nothing is pending, and the manager invariant holds. |
| Modals.HighestZ | static/main.js:73-80 | The top level is at least 1000 and at least every modal's readable level, and it is one of those levels or 1000; an unreadable level counts as 0. |
| Modals.NewZ | static/main.js:83 | A raised modal's level is at least ten above every modal on the page and never below 1010. |
| Modals.Centred | static/main.js:100-107 | The card corner never goes above or left of the viewport; a card that fits is exactly centred, and an oversized card sticks to the edge. |
| Modals.Open | static/main.js:59-63 | `open` on a missing element changes nothing; otherwise it only schedules its frame, and the invariant is kept. |
| Modals.FireOpenFrame | static/main.js:63-120 | The frame leaves the queue. It hands a minimized modal that has a toolbar button to `restoreModal`. Any other modal is shown above every modal on the page, centred, has its button lit, and is registered as not minimized with its new level and no rectangle. No other modal's level, visibility or button changes. |
| Modals.Minimize | static/main.js:124-159 | A modal without a toolbar button is left alone. Otherwise the rectangle is saved at once and hiding waits for the timer. Visibility, buttons, card positions, levels and the minimized set are untouched. |
| Modals.RestoreModal | static/main.js:163-211 | Only a modal whose record holds a saved rectangle is restored: it alone is raised and shown at once, and the timer captures the new level and the saved rectangle. The registries, buttons and card positions are untouched until then. Otherwise nothing changes. |
| Modals.Close | static/main.js:215-226 | After `close`, both registries forget the id. When the element exists, that modal alone is hidden and its button alone is unlit. Levels, card positions and pending callbacks are untouched. |
| Modals.OpenFromToolbar | static/main.js:415-667 | The duplicate, Emby, Jackett, Thunder and WTL buttons restore their modal when it is minimized and open it otherwise. The settings button always opens, so it schedules a frame even for a minimized settings modal. The invariant is kept. |
| Modals.FireMinimizeDone | static/main.js:154-158 | The minimize timer leaves the queue, hides that modal alone and marks it minimized. The registry record, levels, buttons and card positions are untouched. |
| Modals.FireRestoreDone | static/main.js:200-210 | The restore timer leaves the queue, clears that modal's minimized mark and registers it as not minimized with the level and rectangle captured when the restore began. No other record, mark, visibility, level or button changes. |
| ModalScenarios.OpenSettled | static/main.js:59-120 | Once `open`'s frame has run, the modal is shown, not minimized, at least at level 1010, and nothing is pending. |
| ModalScenarios.MinimizeSettled | static/main.js:124-159 | Once `minimize`'s timer has run, the modal is hidden, marked minimized and registered with its rectangle and no level. |
| ModalScenarios.ClickSettled | static/main.js:63-211 | On every toolbar modal, a click on a minimized modal with its callbacks run leaves it shown, not minimized, registered with its rectangle, raised, with nothing pending. The settings button gets there through `open`'s hand-off, the others through `restoreModal`. |
| ModalScenarios.MinimizeRestoreRoundTrip | static/main.js:59-211 | Open, minimize, then restore from the toolbar, for any of the six toolbar modals: the modal is shown again, not minimized, keeps its minimized rectangle, and ends above the level it had. |
| ModalScenarios.RestoreSettles | static/main.js:163-211 | `restoreModal` on a settled minimized modal schedules exactly one timer carrying the raised level and saved rectangle; that timer leaves the modal shown and registered with them. |
| ModalScenarios.RestoreFromToolbar | static/main.js:415-421 | A click on any toolbar button but the settings one, on a settled minimized modal, schedules exactly one restore and no frame, and shows the modal raised at once. |
| ModalScenarios.SettingsRestoresThroughOpen | static/main.js:63-71 | The settings button on a minimized settings modal queues only an animation frame and shows nothing. The frame then does exactly what a direct `restoreModal` would. |
| ModalScenarios.RestoreRacesMinimize | static/main.js:154-210 | A restore clicked before the minimize timer fires leaves the modal hidden while the registry calls it restored; the next toolbar click goes through `open`. |
| ModalScenarios.OpenRacesMinimize | static/main.js:63-158 | An `open` whose frame runs before the minimize timer leaves the modal hidden, marked minimized and without a saved rectangle: stuck. |
| ModalScenarios.StuckIsAbsorbing | static/main.js:59-226 | For a stuck modal, `restoreModal` and `open` with its frame change nothing, and so does a toolbar click (the settings one only calls `open`); only `close` frees it. |
| DragMove.Attach | static/main.js:297-307 | On page load the counter is 1000, no level has been written, the cursor is not `move`, and the controllers are exactly those of the listed modals: each attached, not dragging, with no frame scheduled and no corner written. |
| DragMove.MouseDown | static/main.js:310-340 | A press on the head of an attached controller starts a drag, records the pointer offset from the card corner and raises the modal twice. Any other press only raises it once. No other modal's controller changes. |
| DragMove.GripMove | static/main.js:342-364 | A dragging controller moves its pending frame and current corner to the pointer minus the offset; an idle one ignores the move. |
| DragMove.MouseMove | static/main.js:342-364 | A page-wide move reaches every controller and changes neither levels nor the counter. |
| DragMove.FireFrame | static/main.js:359-363 | A pending frame writes its corner to the card and is consumed. Nothing else in that controller, no other controller, and no level changes. |
| DragMove.GripRelease | static/main.js:366-378 | Releasing stops a drag and cancels its pending frame without moving the card. |
| DragMove.MouseUp | static/main.js:366-378 | After a release no attached controller is dragging, and the cursor is reset if one was. |
| DragMove.Teardown | static/main.js:386-393 | The cleanup detaches the controller and cancels its frame, and leaves other modals' controllers unchanged. The page never calls it: static/main.js:410 discards it. |
| DragMove.DragFollowsPointer | static/main.js:316-363 | In a press-move-frame sequence the card moves by exactly the pointer's displacement. |
| DragMove.NoDragOffHead | static/main.js:316-321 | A press off the head never starts a drag, so later moves change nothing, but the modal is still raised. |
| DragMove.ReleaseDropsUnappliedMove | static/main.js:354-377 | A release before the frame runs leaves the card where it was. |
| DragMove.PressCanSinkBelowManager | static/main.js:297-338 | Pressing the head of a modal on a fresh page with two modals open puts it below the other one, because the counter's levels start below the manager's. |
| Uploads.HandleNewFiles | static/main.js:1945-1966 | An alert is raised exactly when no chosen file is a fresh image. It says "no images" exactly when none is an image, and then the queue is unchanged. Otherwise the fresh images are appended in order. |
| Uploads.RemoveClicked | static/main.js:1987-1992 | Deleting any preview removes the last queued file, and nothing from an empty queue. |
| Uploads.Reset | static/main.js:2026-2031 | A reset empties the queue. |
| Uploads.AddKeepsImagesOnly | static/main.js:1947-1966 | The queue holds only images and keeps its earlier files as a prefix. |
| Uploads.DuplicateRefused | static/main.js:1955-1963 | A file equal to a queued one on name, size and type is refused with the "already queued" alert. |
| Uploads.SameBatchDuplicatesKept | static/main.js:1955-1966 | Two identical new images in one batch are both queued. |
| Uploads.AddKeepsQueueDuplicateFree | static/main.js:1955-1966 | If neither the queue nor the batch repeats a file, neither does the queue afterwards. |
| Uploads.RemovalIgnoresClick | static/main.js:1989-1992 | Deleting a preview other than the last keeps the clicked file and drops the last one. |
| Uploads.ResetThenAdd | static/main.js:2026-2031 | After a reset, an addition queues exactly the batch's images. |
| Search.FilterResults | static/main.js:1093-1116 | The shown movies are exactly those of the answer that carry every selected tag and meet the minimum. |
| Search.FilterResultsKeepsOrder | static/main.js:1093-1116 | Applying the two filters in turn is one order-preserving filter by the combined test. |
| Search.NoCriteriaKeepsAll | static/main.js:1093-1101 | With no tag and no minimum, every movie is shown. |
| Search.UnreadableMinimumHidesAll | static/main.js:1101-1115 | A minimum `parseInt` cannot read hides every movie. |
| Search.FilterResultsIdempotent | static/main.js:1093-1116 | Filtering the shown movies again with the same controls changes nothing. |
| Search.MoreTagsNarrow | static/main.js:1093-1097 | Selecting one more tag, the first one included, shows exactly the previously shown movies that also carry it, in their order. |
| Search.SavedTagsFilter | static/main.js:1094-1097 | A saved movie passes the tag filter exactly when every selected tag was one of the names it was saved with. |
| Search.SavedRatingFilter | static/main.js:1103-1108 | A saved movie passes a named dimension's minimum exactly when that dimension was rated at least that much. |
| Search.SavedMovieFound | static/main.js:1093-1116 | A movie saved from the form is found exactly when it has every selected tag and the chosen dimension got at least the minimum. |
| Paging.TotalPages | static/main.js:1119 | There are just enough ten-movie pages for the results, and none for no results. |
| Paging.ChangePage | static/main.js:1174-1178 | A page request takes effect exactly when it is between 1 and the page count; otherwise the current page stays. |
| Paging.PageRows | static/main.js:1685-1687 | A page in range shows one to ten consecutive results starting at its first row; a page past the end shows none. |
| Paging.PagesPartitionResults | static/main.js:1685-1687 | Read one after another, the pages give every result once, in order. |
| Paging.StalePageShowsNothing | static/main.js:1685-1687 | A current page kept from a longer search shows no rows. |
| Paging.PreviousTarget | static/main.js:1874-1875 | The previous button is enabled exactly above page 1 and asks for the page before. |
| Paging.NextTarget | static/main.js:1882-1883 | The next button is enabled exactly before the last page and asks for the page after. |
| Paging.Window | static/main.js:1903-1909 | The window lists consecutive pages, and only the current one is marked. |
| Paging.PageLinksEnds | static/main.js:1892-1917 | For a page in range, the bar starts at page 1 and ends at the last page. |
| Paging.PageLinksMarkCurrent | static/main.js:1903-1909 | Exactly the current page is marked current, and it is on the bar. |
| Paging.PageLinksShowNearPages | static/main.js:1892-1917 | The bar shows the first and last pages and every page within two of the current one, and no other page. |
| Paging.PageLinksWellSpaced | static/main.js:1892-1917 | Pages increase along the bar, neighbours are consecutive unless an ellipsis stands between them, and an ellipsis always hides at least one page. |
| Paging.StepButtonsStayInRange | static/main.js:1874-1886 | On a page in range, the step buttons move exactly one page, and they are disabled exactly on the first and last page. |
| Paging.StalePreviousIgnored | static/main.js:1874-1875 | Two or more pages past the end, the enabled previous button asks for a page that is still out of range, so it does nothing. |
| SearchQuery.ClientArgs | static/main.js:1047-1068 | The query carries the trimmed title exactly when the box is not blank to JavaScript, and each other control exactly when it has a value. |
| SearchQuery.SearchStatement | app.py:212-229 | The statement has parameters exactly when the term is not blank to Python, and then both are the stripped term wrapped in `%`. |
| SearchQuery.StatementMarkersMatch | app.py:217-230 | The statement holds exactly as many `%s` markers as it has parameters. |
| SearchQuery.SearchTermFromTitleBox | static/main.js:1048-1058 | The database matches the title box's text trimmed by the browser and stripped by the server. That is the trimmed text itself unless it starts or ends with a character only Python counts as whitespace. A blank box searches everything. |
| SearchQuery.SeparatorTitleSearchesAll | app.py:212 | A box holding only U+001F sends a title, yet the server strips it to nothing and searches every movie. |
| SearchQuery.FiltersNotInStatement | app.py:212-229 | The rating and tag controls do not change the statement. |
| Tags.IdOf | app.py:132-135 | A name looks up the id of the first row with that name, and nothing when no row has it. |
| Tags.IdNumerals | app.py:129-135 | At most one id per piece, each the numeral of some tag's id. |
| Tags.IdNumeralsOfFoundPieces | app.py:129-138 | The stored ids are exactly the ids of the non-blank pieces whose stripped name is a tag, one per piece, in the order the pieces came in. |
| Tags.IdNumeralsAppend | app.py:129-138 | The ids stored for two runs of pieces are those of the first run followed by those of the second. |
| Tags.StoredTags | app.py:163-172 | The stored column holds only digits and commas. |
| Tags.TagTable | app.py:205 | The table has a key for exactly every row's id numeral; with distinct ids, each key maps to its row's name. |
| Tags.NamesOf | app.py:236-237 | Each stored id becomes its tag's name, or `''` for an id no tag has. |
| Tags.TagNames | app.py:236-237 | An empty or NULL column gives empty `tag_names`. |
| Tags.KnownNamesAllStored | app.py:129-138 | When every name is known, each one is stored as its own id, in order. |
| Tags.UnknownNameDropped | app.py:131-135 | A blank piece or an unknown name, at any position, is dropped silently. The stored ids are those of the other pieces. |
| Tags.NoTagsStoresNothing | app.py:163-172 | An empty tag list stores an empty column. |
| Tags.TagsRoundTrip | app.py:236-237 | The names a movie is saved with come back from the search route, joined by `", "`. |
| Ratings.Scores | static/main.js:1353-1358 | The dimensions with a checked star are collected with that star's value, and only those. |
| Ratings.ScoresInDimensionOrder | static/main.js:1353-1358 | The scores are those of the dimensions with a checked star, one each, in dimension order. |
| Ratings.Encode | static/main.js:1356 | A pair holds a colon, no comma, and otherwise only digits. |
| Ratings.CollectRatings | static/main.js:1349-1361 | The collected string is empty exactly when no star is checked, and holds only digits, colons and commas. |
| Ratings.SplitCollected | static/main.js:1360 | The stored string splits back into the encoded pairs. |
| Ratings.ServerPair | app.py:242-243 | The server reads a pair only when it splits into exactly two parts and the second is an integer. |
| Ratings.Display | app.py:241-245 | The comprehension fails exactly when one of the pieces fails to decode. |
| Ratings.DisplayHasEveryKey | app.py:241-245 | Every key a piece writes is in the dictionary. |
| Ratings.DisplayLaterWins | app.py:241-245 | Every key holds the value of the last piece that writes it. |
| Ratings.DisplayKeysAreNames | app.py:242 | Every key is a dimension name or `''`. |
| Ratings.RatingsDisplay | app.py:240-247 | An empty or NULL column gives `{}`, and every key is a dimension name or `''`. |
| Ratings.ServerReadsEncoded | app.py:242-244 | The server decodes a collected pair into its dimension's name and stars. |
| Ratings.ServerRoundTrip | app.py:240-247 | The search route decodes collected stars without error into exactly the checked dimensions' names, each with its stars. |
| Ratings.Positive | static/main.js:1728 | Exactly the pairs with a positive value are kept. |
| Ratings.PositiveKeepsOrder | static/main.js:1728 | The kept pairs are the positive ones, one each, in their order, with their repeats. |
| Ratings.ClientRatings | static/main.js:1722-1728 | An empty column shows nothing, and every value shown is positive. |
| Ratings.ClientReadsEncoded | static/main.js:1723-1726 | The browser reads a collected pair back as its id text and stars. |
| Ratings.ClientRoundTrip | static/main.js:1722-1728 | The results table shows every collected star as its dimension's id text and value, in dimension order. |
| Ratings.CollectedStarsRender | static/main.js:1859-1863 | Every star value the table reads from a saved form renders as stars. |
| Ratings.DecodersDisagreeOnZero | static/main.js:1722-1728 | The search route reports a stored zero rating, and the results table hides it. |
| Ratings.DecodersDisagreeOnExtraColon | app.py:241-245 | A pair with a second colon fails the whole search on the server, while the browser reads its first two fields. |
| Duplicates.Lines | static/main.js:430 | The lines kept are non-blank and contain no line break. |
| Duplicates.Titles | static/main.js:443 | Each line gives one title: the trimmed line up to its first space. |
| Duplicates.TitleShape | static/main.js:443 | A non-blank line's title is non-empty, has no space, and starts the trimmed line. |
| Duplicates.Duplicates | app.py:289-296 | The answer lists exactly the catalogue rows whose title was sent. With the title as primary key, each catalogued title sent is answered once, so the answer's length is the number of distinct catalogued titles sent. |
| Duplicates.DuplicatesRoute | app.py:280-306 | The route fails exactly when no title is sent; otherwise a title is answered exactly when it was sent and is catalogued. |
| Duplicates.PlaceholdersMatchTitles | app.py:289 | For one title or more, the placeholder list is one `%s` per title, separated by commas. |
| Duplicates.DuplicateQueryMarkers | app.py:289-295 | The statement holds one marker per title. |
| Duplicates.NothingCatalogued | app.py:295-296 | When no title sent is catalogued, the answer is empty. |
| Duplicates.Remaining | static/main.js:456-458 | A line is kept exactly when its title was not answered. |
| Duplicates.RemainingIsFilter | static/main.js:456-458 | The lines kept are the order-preserving filter of the lines by "title not answered", repeats included. |
| Duplicates.Check | static/main.js:427-459 | With no line there is nothing to check. Otherwise the reported count is the length of the server's answer: with distinct catalogue titles, the number of distinct catalogued titles sent. The box keeps the lines whose title is not catalogued, in their order and with their repeats, joined by line breaks. |
| Duplicates.LinesOfJoin | static/main.js:430 | The text left in the box reads back line for line. |
| Duplicates.CheckCleanLines | static/main.js:427-459 | Lines with no catalogued title check clean and stay as they are. |
| Duplicates.RecheckFindsNothing | static/main.js:427-459 | Checking again what the check left finds no duplicate and leaves the text unchanged. |
| Duplicates.CountIsNotLinesRemoved | static/main.js:455-458 | The reported count is the number of rows answered, not the number of lines removed. |
| Format.RenderStars | static/main.js:1859-1863 | Stars render exactly for ratings 0 to 5: five stars, the first `rating` of them full. |
| Format.StarsReadBack | static/main.js:1859-1863 | Counting the full stars gives the rating back. |
| Format.JsRem | static/main.js:556 | JavaScript's remainder has the sign of the dividend, is smaller than the divisor in size, and completes a division. |
| Format.FormatRuntime | static/main.js:552-560 | The label is empty exactly for a missing or zero runtime. |
| Format.RuntimeReadsBack | static/main.js:552-560 | A positive runtime's label reads back as its whole minutes. |
| Format.HoursLabelReadsBack | static/main.js:558 | An hours-and-minutes label reads back as its total minutes. |
| Format.MinutesLabelReadsBack | static/main.js:559 | A minutes-only label reads back as its minutes. |
| Format.NegativeRuntimeShowsRemainder | static/main.js:554-559 | A runtime of minus 61 minutes shows only minus one minute. |
| Format.PadStart | static/main.js:659 | Padding keeps the text at its end and fills the front with zeros up to the width. |
| Format.FormatTime | static/main.js:656-660 | A clock text always has a colon. |
| Format.ClockHasTwoFields | static/main.js:656-660 | A time that is not negative has exactly one colon and two second digits. |
| Format.ClockRoundTrip | static/main.js:656-660 | A time that is not negative reads back as itself. |
| Format.NegativeTimeGarbled | static/main.js:656-660 | Five seconds below zero prints `-1:-5`. |
| Format.ResizeMove | static/main.js:1215-1218 | A resize move takes the dragged width exactly when it is more than 50 pixels. |
| Format.DragKeepsOrWidens | static/main.js:1212-1219 | After a resize drag the column keeps its width or takes a move's width above 50 pixels. |
| Format.DragEndsAtLastWideMove | static/main.js:1212-1219 | After a resize drag the column has the width of the last move that was wide enough, or keeps its width when no move was; so it has the width of a move no earlier than any wide move. |
| Text.Trim | static/main.js:1048 | Trimming, with JavaScript's or Python's whitespace, cuts only whitespace from the two ends. It gives an empty text exactly for blank input, leaves no whitespace at either end, and keeps already trimmed text. |
| Text.TrimIdempotent | app.py:131-132 | Trimming twice in the same language is trimming once. |
| Text.StripAfterTrim | app.py:212 | The server's strip leaves text the browser trimmed unchanged exactly when that text does not start or end with a character only Python counts as whitespace. |
| Text.WhitespaceDiffers | app.py:212 | The browser's `trim` keeps U+001F, which the server's `strip` removes. The server keeps U+FEFF, which the browser removes. |
| Text.JsParseIntOfNumeral | static/main.js:1726 | `parseInt` reads back every numeral a template literal writes. |
| Text.PyIntOfNumeral | app.py:242 | `int()` reads back every numeral a template literal writes. |
| Seqs.Slice | static/main.js:1687 | A slice in range is that subsequence, and a slice starting past the end is empty. |
| Seqs.SpliceOne | static/main.js:1992 | `splice(i, 1)` removes one element, counting a negative index back from the end. |

## Left out

- DOM rendering, CSS classes that only drive visuals, and the minimize and restore animation transforms are not modelled. The animation timing is replaced by completions that may fire in any order.
- `fetch`, the HTTP layer and MySQL are not modelled. The tables the routes read are parameters: catalogue titles, tag rows, and dimension names.
- `localStorage` (the saved column widths), `FileReader` previews, `IntersectionObserver`, `formatFileSize`, `formatDate`, `src/config/events.js` and the image drag-reorder are not part of this model.
- `displayPagination` and `generatePaginationItems` (static/main.js:1144-1172) are an older pagination renderer; only `updatePagination` is modelled.
- Text.PyInt: underscores between digits and non-ASCII digits, which Python's `int()` accepts, are not modelled.
- Tags.IdOf: MySQL's collation, which compares names case-insensitively and ignores trailing spaces, is treated as exact equality. So Tags.UnknownNameDropped calls a name unknown even when a row differs from it only in case.
- Duplicates.Duplicates: MySQL's collation, which compares titles case-insensitively and ignores trailing spaces, is treated as exact equality.
- SearchQuery.SearchStatement: how MySQL's `LIKE` matches is not modelled. The movies the route returns are a parameter of Search.FilterResults. As in the source, `%` and `_` in the term are not escaped.
- Tags.IdNumerals: a request whose `tags` is JSON `null` makes `split` raise in the source. This is not modelled.
- Format.FormatTime: only whole seconds are modelled. Fractional seconds and `NaN` are not.
- Format.RenderStars: only integer ratings are modelled.
- SearchQuery.ClientArgs: `URLSearchParams` encoding and Flask's decoding are assumed to give back the same strings.
- Modals.Minimize: on a missing element the source throws before changing anything. The model treats that as a call that changes nothing.
- Modals.FireOpenFrame: the card sizes are read after the card is made visible; here they are parameters.

## Intended behaviour and code

Where the intended behaviour of the admin UI and its code disagree, the
model follows the code:

- A dragged window is meant to always end on top, sharing the manager's
  z-index ceiling. In the code the drag counter starts at 1000 and only
  counts presses, while the manager hands out 1010 and up
  (DragMove.PressCanSinkBelowManager).
- Deleting a preview is meant to remove that item. The code looks the
  item up after detaching it, gets -1, and `splice(-1, 1)` removes the
  last file (Uploads.RemoveClicked, Uploads.RemovalIgnoresClick).
- Re-entrant minimize and restore calls are meant to be ignored or
  queued. The code has no guard (ModalScenarios.RestoreRacesMinimize,
  ModalScenarios.OpenRacesMinimize).
- Minimizing a minimized window is meant to do nothing. The code saves
  the rectangle again and schedules another timer whenever the modal has
  a toolbar button (Modals.Minimize).
- `open` is meant to centre a window only when it has no saved geometry.
  The code centres it on every open (Modals.FireOpenFrame).
- Uploads are meant to carry order fields, renumbered after every
  insertion and removal. The upload queue in the code keeps no order
  field, so none is modelled.

=== FILE: drag_move.dfy ===
/** The window-drag controller `makeDraggable` attaches to every modal.

    Each modal's controller keeps a dragging flag, the pointer's offset from
    the card's corner, the card's last computed corner, and at most one
    scheduled animation frame that will move the card.  All controllers share
    one counter, `zIndexCounter`, from which a pressed modal takes its new
    stacking level.  A mouse press reaches only the modal under the pointer;
    mouse moves and releases are listened for on the whole document, so they
    reach every controller. */
module DragMove {
  import opened Options
  import Modals
  import ModalScenarios

  type ModalId = Modals.ModalId
  type Point = Modals.Point

  /** The counter's value when the page loads. */
  const InitialCounter: int := 1000

  /** Where inside a modal a press lands. */
  datatype Target =
    | Controls    // inside `.modal-card-controls`
    | Head        // inside `.modal-card-head`, outside the controls
    | Elsewhere   // anywhere else in the modal

  /** The closure state of one modal's controller. */
  datatype Grip = Grip(
    attached: bool,          // the head/document listeners are still installed
    dragging: bool,          // `isDragging`
    offset: Point,           // `initialX`, `initialY`
    current: Point,          // `currentX`, `currentY`
    frame: Option<Point>,    // a scheduled frame and the corner it will write
    cardPos: Option<Point>)  // the corner the last frame wrote to the card

  datatype Drags = Drags(
    counter: int,                  // `zIndexCounter`
    grips: map<ModalId, Grip>,
    level: map<ModalId, int>,      // the level last written to a modal and its card
    moveCursor: bool)              // the page cursor is `move`

  function Sub(a: Point, b: Point): Point {
    Modals.Point(a.x - b.x, a.y - b.y)
  }

  /** `makeDraggable` run for each of `ids` on page load. */
  function Attach(ids: seq<ModalId>): (d: Drags)
    ensures d.counter == InitialCounter && !d.moveCursor && d.level == map[]
    ensures d.grips.Keys == set id | id in ids
    ensures forall id :: id in ids ==> id in d.grips && d.grips[id].attached && !d.grips[id].dragging
    ensures forall id :: id in d.grips ==> d.grips[id].frame.None? && d.grips[id].cardPos.None?
  {
    var origin := Modals.Point(0.0, 0.0);
    Drags(InitialCounter, map id | id in ids :: Grip(true, false, origin, origin, None, None), map[], false)
  }

  /** A press at `pointer` inside modal `id`, whose card's corner is at
      `corner`.  The head listener runs first: unless the press is on the
      controls, a press on the head starts a drag and raises the modal.  The
      modal's own listener runs next and raises it again, whatever was
      pressed. */
  function MouseDown(d: Drags, id: ModalId, target: Target, pointer: Point, corner: Point): (r: Drags)
    requires id in d.grips
    ensures r.grips.Keys == d.grips.Keys
    ensures var starts := d.grips[id].attached && target == Head;
      && r.counter == d.counter + (if starts then 2 else 1)
      && r.level == d.level[id := r.counter]
      && (starts ==> r.grips[id].dragging && Sub(pointer, r.grips[id].offset) == corner && r.moveCursor)
      && (starts ==> r.grips[id] == d.grips[id].(dragging := true, current := corner, offset := r.grips[id].offset))
      && (!starts ==> r.grips == d.grips && r.moveCursor == d.moveCursor)
    // the other controllers are untouched
    ensures forall other :: other in d.grips && other != id ==> r.grips[other] == d.grips[other]
  {
    var g := d.grips[id];
    var started :=
      if g.attached && target != Controls && target == Head then
        var c := d.counter + 1;
        d.(grips := d.grips[id := g.(dragging := true, current := corner, offset := Sub(pointer, corner))],
           moveCursor := true, counter := c, level := d.level[id := c])
      else d;
    var c := started.counter + 1;
    started.(counter := c, level := started.level[id := c])
  }

  /** One controller's `drag` handler. */
  function GripMove(g: Grip, pointer: Point): (r: Grip)
    ensures !(g.attached && g.dragging) ==> r == g
    ensures g.attached && g.dragging ==> r.frame == Some(Sub(pointer, g.offset)) && r.current == Sub(pointer, g.offset)
    ensures r.dragging == g.dragging && r.offset == g.offset && r.cardPos == g.cardPos
  {
    if g.attached && g.dragging then
      var corner := Sub(pointer, g.offset);
      g.(current := corner, frame := Some(corner))
    else g
  }

  /** A mouse move anywhere on the page.  Controllers that are not dragging
      ignore it; a dragging one replaces its scheduled frame (if any) by one
      that puts the card's corner at the pointer minus the offset. */
  function MouseMove(d: Drags, pointer: Point): (r: Drags)
    ensures r.grips.Keys == d.grips.Keys
    ensures forall id :: id in d.grips ==> r.grips[id] == GripMove(d.grips[id], pointer)
    ensures r.counter == d.counter && r.level == d.level && r.moveCursor == d.moveCursor
  {
    d.(grips := map id | id in d.grips :: GripMove(d.grips[id], pointer))
  }

  /** The scheduled frame of modal `id` runs: the card moves. */
  function FireFrame(d: Drags, id: ModalId): (r: Drags)
    requires id in d.grips && d.grips[id].frame.Some?
    ensures id in r.grips && r.grips[id].cardPos == d.grips[id].frame
    ensures r.grips[id] == d.grips[id].(cardPos := r.grips[id].cardPos, frame := None)
    ensures r.grips.Keys == d.grips.Keys
    ensures forall other :: other in d.grips && other != id ==> r.grips[other] == d.grips[other]
    ensures r.counter == d.counter && r.level == d.level && r.moveCursor == d.moveCursor
  {
    var g := d.grips[id];
    d.(grips := d.grips[id := g.(cardPos := g.frame, frame := None)])
  }

  /** One controller's `dragEnd` handler. */
  function GripRelease(g: Grip): (r: Grip)
    ensures !(g.attached && g.dragging) ==> r == g
    ensures g.attached && g.dragging ==> !r.dragging && r.frame.None?
    ensures r.cardPos == g.cardPos
  {
    if g.attached && g.dragging then g.(dragging := false, frame := None) else g
  }

  /** A mouse release anywhere on the page: every dragging controller stops,
      restores the cursor and cancels its scheduled frame. */
  function MouseUp(d: Drags): (r: Drags)
    ensures r.grips.Keys == d.grips.Keys
    ensures forall id :: id in d.grips ==> r.grips[id] == GripRelease(d.grips[id])
    ensures forall id :: id in r.grips && r.grips[id].attached ==> !r.grips[id].dragging
    ensures (exists id :: id in d.grips && d.grips[id].attached && d.grips[id].dragging) ==> !r.moveCursor
    ensures r.counter == d.counter && r.level == d.level
  {
    var anyDragging := exists id :: id in d.grips && d.grips[id].attached && d.grips[id].dragging;
    d.(grips := map id | id in d.grips :: GripRelease(d.grips[id]),
       moveCursor := if anyDragging then false else d.moveCursor)
  }

  /** The cleanup function `makeDraggable` returns: the head and document
      listeners go and the scheduled frame is cancelled.  The modal's own
      press listener stays, so presses still raise it.  The page discards
      the returned function when it attaches the controllers, so nothing in
      the program ever calls it. */
  function Teardown(d: Drags, id: ModalId): (r: Drags)
    requires id in d.grips
    ensures r.grips.Keys == d.grips.Keys
    ensures !r.grips[id].attached && r.grips[id].frame.None?
    ensures forall other :: other in d.grips && other != id ==> r.grips[other] == d.grips[other]
  {
    d.(grips := d.grips[id := d.grips[id].(attached := false, frame := None)])
  }

  // ---------------------------------------------------------------------------
  // Properties of whole gestures
  // ---------------------------------------------------------------------------

  /** Press on the head, move, let the frame run: the card's corner moves by
      exactly as much as the pointer did. */
  lemma DragFollowsPointer(d: Drags, id: ModalId, corner: Point, from: Point, to: Point)
    requires id in d.grips && d.grips[id].attached
    ensures
      var moved := MouseMove(MouseDown(d, id, Head, from, corner), to);
      && moved.grips[id].frame.Some?
      && FireFrame(moved, id).grips[id].cardPos
         == Some(Modals.Point(corner.x + (to.x - from.x), corner.y + (to.y - from.y)))
  {
  }

  /** A press on the controls or outside the head never starts a drag, so
      later moves change nothing but leave the level raised. */
  lemma NoDragOffHead(d: Drags, id: ModalId, target: Target, pointer: Point, corner: Point, to: Point)
    requires id in d.grips && target != Head
    requires forall other :: other in d.grips ==> !d.grips[other].dragging
    ensures
      var pressed := MouseDown(d, id, target, pointer, corner);
      && MouseMove(pressed, to).grips == d.grips
      && pressed.level[id] == d.counter + 1
  {
    var pressed := MouseDown(d, id, target, pointer, corner);
    assert pressed.grips == d.grips;
    forall other | other in d.grips
      ensures MouseMove(pressed, to).grips[other] == d.grips[other]
    {
    }
  }

  /** A release cancels a move whose frame has not run yet, so the card
      stays where the last frame put it. */
  lemma ReleaseDropsUnappliedMove(d: Drags, id: ModalId, corner: Point, from: Point, to: Point)
    requires id in d.grips && d.grips[id].attached
    ensures
      var released := MouseUp(MouseMove(MouseDown(d, id, Head, from, corner), to));
      && released.grips[id].cardPos == d.grips[id].cardPos
      && released.grips[id].frame.None?
      && !released.grips[id].dragging
  {
  }

  /** The drag counter and the modal manager hand out levels from different
      floors (from 1000 here, from 1010 there), and pressing a modal writes
      the counter's level into the same style the manager reads.  On a fresh
      page, open two modals and press the head of the first: it ends below
      the second instead of on top. */
  lemma {:induction false} PressCanSinkBelowManager(m: Modals.Manager, a: ModalId, b: ModalId, d: Drags,
                                                    viewWidth: int, viewHeight: int, cardWidth: int, cardHeight: int,
                                                    pointer: Point, corner: Point)
    requires Modals.Valid(m) && m.pending == []
    requires a != b && a in m.z && b in m.z && a !in m.minimizedModals && b !in m.minimizedModals
    requires d.counter == InitialCounter && a in d.grips && d.grips[a].attached
    ensures
      var m1 := ModalScenarios.OpenSettled(m, a, viewWidth, viewHeight, cardWidth, cardHeight);
      var m2 := ModalScenarios.OpenSettled(m1, b, viewWidth, viewHeight, cardWidth, cardHeight);
      var pressed := MouseDown(d, a, Head, pointer, corner);
      var m3 := m2.(z := m2.z[a := Modals.Level(pressed.level[a])]);
      && a in m3.shown && b in m3.shown
      && Modals.ZOf(m3, a) < Modals.ZOf(m3, b)
  {
    var m1 := ModalScenarios.OpenSettled(m, a, viewWidth, viewHeight, cardWidth, cardHeight);
    var m2 := ModalScenarios.OpenSettled(m1, b, viewWidth, viewHeight, cardWidth, cardHeight);
    PressBelow(m2, a, b, d, pointer, corner);
  }

  /** Pressing the head on a fresh page writes level 1002 over `a`, below
      any modal the manager has raised. */
  lemma PressBelow(m: Modals.Manager, a: ModalId, b: ModalId, d: Drags, pointer: Point, corner: Point)
    requires a != b && a in m.shown && b in m.shown
    requires Modals.ZOf(m, b) >= Modals.BaseZIndex + Modals.ZStep
    requires d.counter == InitialCounter && a in d.grips && d.grips[a].attached
    ensures
      var pressed := MouseDown(d, a, Head, pointer, corner);
      var m3 := m.(z := m.z[a := Modals.Level(pressed.level[a])]);
      && a in m3.shown && b in m3.shown
      && Modals.ZOf(m3, a) < Modals.ZOf(m3, b)
  {
    var pressed := MouseDown(d, a, Head, pointer, corner);
    assert pressed.level[a] == InitialCounter + 2;
  }
}

=== FILE: duplicates.dfy ===
/** The duplicate check: the user pastes a list of movies, one per line;
    the browser sends the first word of every non-blank line as a title,
    the server answers with the catalogued titles among them, and the
    browser keeps only the lines whose title was not answered.  The movies
    table is a parameter: the titles of its rows, in the order the query
    returns them. */
module Duplicates {
  import opened Options
  import opened Text
  import opened Seqs
  import Sql

  /** `input.value.split('\n').filter(line => line.trim())`. */
  function Lines(input: string): (r: seq<string>)
    ensures forall i :: 0 <= i < |r| ==> !IsBlank(Js, r[i]) && '\n' !in r[i]
  {
    SplitAvoids(input, '\n');
    Filter(Split(input, "\n"), l => !IsBlank(Js, l))
  }

  /** `line.trim().split(' ')[0]`: the text before the first space. */
  function TitleOf(line: string): string {
    Split(Trim(Js, line), " ")[0]
  }

  function Titles(lines: seq<string>): (r: seq<string>)
    ensures |r| == |lines|
    ensures forall i :: 0 <= i < |r| ==> r[i] == TitleOf(lines[i])
  {
    seq(|lines|, i requires 0 <= i < |lines| => TitleOf(lines[i]))
  }

  /** `','.join(['%s'] * len(titles))`. */
  function Placeholders(n: nat): string {
    Join(seq(n, _ => "%s"), ",")
  }

  /** The statement the server runs for `n` titles. */
  function DuplicateQuery(n: nat): string {
    QueryPrefix + Placeholders(n) + ")"
  }

  const QueryPrefix: string := "SELECT title FROM movies WHERE title IN ("

  /** The `duplicates` the server answers: every row of the movies table
      whose title is one of the titles sent.  The title column is the
      table's primary key, so each such title is answered once, however
      often it was sent. */
  function Duplicates(titles: seq<string>, catalog: seq<string>): (r: seq<string>)
    ensures forall i :: 0 <= i < |r| ==> r[i] in titles && r[i] in catalog
    ensures forall i :: 0 <= i < |catalog| && catalog[i] in titles ==> catalog[i] in r
    ensures NoDuplicates(catalog) ==> NoDuplicates(r) && |r| == |set t | t in titles && t in catalog|
  {
    var r := Filter(catalog, t => t in titles);
    if NoDuplicates(catalog) then AnsweredOnce(titles, catalog); r else r
  }

  /** With distinct catalogue titles, each catalogued title sent is
      answered exactly once. */
  lemma AnsweredOnce(titles: seq<string>, catalog: seq<string>)
    requires NoDuplicates(catalog)
    ensures var r := Filter(catalog, t => t in titles);
      NoDuplicates(r) && |r| == |set t | t in titles && t in catalog|
  {
    var r := Filter(catalog, t => t in titles);
    FilterNoDuplicates(catalog, t => t in titles);
    DistinctCount(r);
    assert (set t | t in r) == (set t | t in titles && t in catalog);
  }

  /** The `/check_duplicates` route: with no title the statement ends in
      `IN ()`, which the database rejects, and the route answers an error;
      otherwise it answers the catalogued titles among those sent. */
  function DuplicatesRoute(titles: seq<string>, catalog: seq<string>): (r: Option<seq<string>>)
    ensures r.None? <==> titles == []
    ensures r.Some? ==> forall t :: t in r.value <==> t in titles && t in catalog
  {
    if titles == [] then None else Some(Duplicates(titles, catalog))
  }

  /** `movies.filter((line, index) => !duplicates.includes(movieTitles[index]))`. */
  function Remaining(lines: seq<string>, titles: seq<string>, duplicates: seq<string>): (r: seq<string>)
    requires |titles| == |lines|
    ensures |r| <= |lines|
    ensures forall k :: 0 <= k < |r| ==> exists i :: 0 <= i < |lines| && r[k] == lines[i] && titles[i] !in duplicates
    ensures forall i :: 0 <= i < |lines| && titles[i] !in duplicates ==> lines[i] in r
  {
    if lines == [] then []
    else
      var rest := Remaining(lines[1..], titles[1..], duplicates);
      assert forall k :: 0 <= k < |rest| ==> exists i :: 1 <= i < |lines| && rest[k] == lines[i] && titles[i] !in duplicates by {
        forall k | 0 <= k < |rest|
          ensures exists i :: 1 <= i < |lines| && rest[k] == lines[i] && titles[i] !in duplicates
        {
          var i :| 0 <= i < |lines| - 1 && rest[k] == lines[1..][i] && titles[1..][i] !in duplicates;
          assert rest[k] == lines[i + 1] && titles[i + 1] !in duplicates;
        }
      }
      if titles[0] in duplicates then rest else [lines[0]] + rest
  }

  /** What the check shows. */
  datatype Report =
    | NothingToCheck                                   // "please enter a list"
    | Checked(duplicateCount: nat, remaining: seq<string>, newInput: string)

  /** `checkDuplicates` with the server's answer for `catalog` filled in. */
  function Check(input: string, catalog: seq<string>): (r: Report)
    ensures r.NothingToCheck? <==> Lines(input) == []
    ensures r.Checked? ==> r.newInput == Join(r.remaining, "\n")
    ensures r.Checked? ==> r.duplicateCount == |Duplicates(Titles(Lines(input)), catalog)|
    ensures r.Checked? && NoDuplicates(catalog) ==>
      r.duplicateCount == |set t | t in Titles(Lines(input)) && t in catalog|
    ensures r.Checked? ==> r.remaining == Filter(Lines(input), l => TitleOf(l) !in catalog)
    ensures r.Checked? ==> forall k :: 0 <= k < |r.remaining| ==>
      r.remaining[k] in Lines(input) && TitleOf(r.remaining[k]) !in catalog
    ensures r.Checked? ==> forall i :: 0 <= i < |Lines(input)| && TitleOf(Lines(input)[i]) !in catalog ==>
      Lines(input)[i] in r.remaining
  {
    var lines := Lines(input);
    if lines == [] then NothingToCheck
    else
      var titles := Titles(lines);
      var duplicates := DuplicatesRoute(titles, catalog).value;
      assert forall i :: 0 <= i < |lines| ==> (titles[i] in duplicates <==> titles[i] in catalog) by {
        forall i | 0 <= i < |lines| && titles[i] in catalog
          ensures titles[i] in duplicates
        {
          var j :| 0 <= j < |catalog| && catalog[j] == titles[i];
        }
      }
      var remaining := Remaining(lines, titles, duplicates);
      assert remaining == Filter(lines, l => TitleOf(l) !in catalog) by {
        RemainingIsFilter(lines, duplicates);
        KeptTitlesAgree(lines, duplicates, catalog);
      }
      Checked(|duplicates|, remaining, Join(remaining, "\n"))
  }

  /** The browser's filter keeps, in their order and with their repeats,
      exactly the lines whose title is not in the answer. */
  lemma {:induction false} RemainingIsFilter(lines: seq<string>, duplicates: seq<string>)
    ensures Remaining(lines, Titles(lines), duplicates) == Filter(lines, l => TitleOf(l) !in duplicates)
  {
    if lines != [] {
      assert Titles(lines)[1..] == Titles(lines[1..]);
      RemainingIsFilter(lines[1..], duplicates);
    }
  }

  /** Filtering lines against the answer is filtering them against the
      catalogue, when the answer holds exactly the lines' catalogued
      titles. */
  lemma KeptTitlesAgree(lines: seq<string>, duplicates: seq<string>, catalog: seq<string>)
    requires forall i :: 0 <= i < |lines| ==> (TitleOf(lines[i]) in duplicates <==> TitleOf(lines[i]) in catalog)
    ensures Filter(lines, l => TitleOf(l) !in duplicates) == Filter(lines, l => TitleOf(l) !in catalog)
  {
    FilterAgree(lines, l => TitleOf(l) !in duplicates, l => TitleOf(l) !in catalog);
  }

  // ---------------------------------------------------------------------------
  // Properties
  // ---------------------------------------------------------------------------

  /** The first word of a line that is not blank is not empty, holds no
      space, and starts the trimmed line. */
  lemma TitleShape(line: string)
    requires !IsBlank(Js, line)
    ensures var title := TitleOf(line);
      && |title| > 0 && ' ' !in title && title <= Trim(Js, line)
  {
    var t := Trim(Js, line);
    var pieces := Split(t, " ");
    SplitAvoids(t, ' ');
    JoinStartsWithFirst(pieces, " ");
  }

  /** A join starts with its first piece. */
  lemma JoinStartsWithFirst(xs: seq<string>, sep: string)
    requires |xs| >= 1
    ensures xs[0] <= Join(xs, sep)
  {
    if |xs| > 1 {
      assert Join(xs, sep) == xs[0] + (sep + Join(xs[1..], sep));
    }
  }

  /** For one title or more, the statement has exactly one placeholder per
      title, separated by commas. */
  lemma PlaceholdersMatchTitles(n: nat)
    requires n >= 1
    ensures Split(Placeholders(n), ",") == seq(n, _ => "%s")
  {
    var xs := seq(n, _ => "%s");
    assert Separable(xs, ",") by {
      forall k | 0 <= k < n
        ensures ',' !in xs[k]
      {
        assert xs[k] == ['%', 's'];
      }
    }
    SplitJoin(xs, ",");
  }

  /** The statement holds one marker per title, so the driver can fill
      it with the titles. */
  lemma DuplicateQueryMarkers(n: nat)
    ensures Sql.Markers(DuplicateQuery(n)) == n
  {
    var rest := Placeholders(n) + ")";
    assert DuplicateQuery(n) == QueryPrefix + rest;
    assert '%' !in QueryPrefix;
    Sql.MarkersAfterPlain(QueryPrefix, rest);
    PlaceholderMarkers(n);
  }

  lemma {:induction false} PlaceholderMarkers(n: nat)
    ensures Sql.Markers(Placeholders(n) + ")") == n
  {
    var xs := seq(n, _ => "%s");
    if n == 0 {
      Sql.NoPercentNoMarkers(")");
    } else if n == 1 {
      Sql.MarkerIsOne();
      Sql.MarkersAppend("%s", ")");
      Sql.NoPercentNoMarkers(")");
    } else {
      PlaceholderMarkers(n - 1);
      assert xs[1..] == seq(n - 1, _ => "%s");
      var rest := Placeholders(n - 1) + ")";
      assert Placeholders(n) + ")" == "%s" + ("," + rest);
      Sql.MarkerIsOne();
      Sql.MarkersAppend("%s", "," + rest);
      Sql.MarkersAppend(",", rest);
      Sql.NoPercentNoMarkers(",");
    }
  }

  /** The text the check leaves in the box is read back line for line. */
  lemma {:induction false} LinesOfJoin(lines: seq<string>)
    requires forall i :: 0 <= i < |lines| ==> !IsBlank(Js, lines[i]) && '\n' !in lines[i]
    ensures Lines(Join(lines, "\n")) == lines
  {
    if lines == [] {
      SplitWithout("", '\n');
      assert Split("", "\n") == [""];
    } else {
      assert Separable(lines, "\n");
      SplitJoin(lines, "\n");
      FilterAll(lines, l => !IsBlank(Js, l));
    }
  }

  /** Checking the list the check left behind reports no duplicate and
      leaves the text as it is; when every line was a duplicate, there is
      nothing left to check. */
  lemma RecheckFindsNothing(input: string, catalog: seq<string>)
    requires Check(input, catalog).Checked?
    ensures var first := Check(input, catalog);
      var second := Check(first.newInput, catalog);
      && (first.remaining == [] ==> second.NothingToCheck?)
      && (first.remaining != [] ==> second == Checked(0, first.remaining, first.newInput))
  {
    var first := Check(input, catalog);
    var rest := first.remaining;
    var lines := Lines(input);
    assert forall i :: 0 <= i < |rest| ==> rest[i] in lines && TitleOf(rest[i]) !in catalog;
    CheckCleanLines(rest, catalog);
  }

  /** Lines that are all kept check clean. */
  lemma CheckCleanLines(lines: seq<string>, catalog: seq<string>)
    requires forall i :: 0 <= i < |lines| ==> !IsBlank(Js, lines[i]) && '\n' !in lines[i]
    requires forall i :: 0 <= i < |lines| ==> TitleOf(lines[i]) !in catalog
    ensures lines == [] ==> Check(Join(lines, "\n"), catalog).NothingToCheck?
    ensures lines != [] ==> Check(Join(lines, "\n"), catalog) == Checked(0, lines, Join(lines, "\n"))
  {
    LinesOfJoin(lines);
    if lines != [] {
      var titles := Titles(lines);
      NothingCatalogued(titles, catalog);
      RemainingWithoutDuplicates(lines, titles);
    }
  }

  /** When no title sent is catalogued, the server answers nothing. */
  lemma NothingCatalogued(titles: seq<string>, catalog: seq<string>)
    requires forall i :: 0 <= i < |titles| ==> titles[i] !in catalog
    ensures Duplicates(titles, catalog) == []
  {
    FilterNone(catalog, t => t in titles);
  }

  /** With nothing to drop, every line remains. */
  lemma {:induction false} RemainingWithoutDuplicates(lines: seq<string>, titles: seq<string>)
    requires |titles| == |lines|
    ensures Remaining(lines, titles, []) == lines
  {
    if lines != [] {
      RemainingWithoutDuplicates(lines[1..], titles[1..]);
    }
  }

  /** The reported count is the number of catalogue rows answered, not the
      number of lines removed: a movie listed twice and catalogued once is
      reported once and removed twice. */
  lemma CountIsNotLinesRemoved(line: string)
    requires !IsBlank(Js, line) && '\n' !in line
    ensures Check(line + "\n" + line, [TitleOf(line)]) == Checked(1, [], "")
  {
    var input := line + "\n" + line;
    var t := TitleOf(line);
    assert Join([line, line], "\n") == input;
    LinesOfJoin([line, line]);
    assert Titles([line, line]) == [t, t];
    FilterAll([t], x => x in [t, t]);
    assert Duplicates([t, t], [t]) == [t];
    assert Remaining([line], [t], [t]) == [];
    assert Remaining([line, line], [t, t], [t]) == [];
  }
}

=== FILE: format.dfy ===
/** The small formatters of the browser: star ratings, Emby runtimes,
    player clock times, and the minimum-width rule of the resizable result
    columns.  JavaScript numbers are integers here. */
module Format {
  import opened Options
  import opened Text

  // ---------------------------------------------------------------------------
  // Stars
  // ---------------------------------------------------------------------------

  const FullStar: char := '\U{2605}'
  const EmptyStar: char := '\U{2606}'
  const MaxStars: int := 5

  /** `renderStars(rating)`: `rating` full stars, then empty ones up to five.
      `String.prototype.repeat` throws a `RangeError` on a negative count,
      which is `None` here: below zero or above five there is no result. */
  function RenderStars(rating: int): (r: Option<string>)
    ensures r.Some? <==> 0 <= rating <= MaxStars
    ensures r.Some? ==> |r.value| == MaxStars
    ensures r.Some? ==> forall k :: 0 <= k < MaxStars ==> (r.value[k] == FullStar <==> k < rating)
  {
    if 0 <= rating <= MaxStars then Some(RepeatChar(FullStar, rating) + RepeatChar(EmptyStar, MaxStars - rating))
    else None
  }

  /** The number of times `c` occurs in `s`. */
  function CountChar(s: string, c: char): (n: nat)
    ensures n <= |s|
  {
    if s == [] then 0 else (if s[0] == c then 1 else 0) + CountChar(s[1..], c)
  }

  /** Counting the full stars reads the rating back. */
  lemma StarsReadBack(rating: int)
    requires 0 <= rating <= MaxStars
    ensures CountChar(RenderStars(rating).value, FullStar) == rating
  {
    var full, empty := RepeatChar(FullStar, rating), RepeatChar(EmptyStar, MaxStars - rating);
    CountCharAppend(full, empty, FullStar);
    CountRepeat(FullStar, rating, FullStar);
    CountRepeat(EmptyStar, MaxStars - rating, FullStar);
  }

  lemma {:induction false} CountCharAppend(a: string, b: string, c: char)
    ensures CountChar(a + b, c) == CountChar(a, c) + CountChar(b, c)
  {
    if a == [] {
      assert a + b == b;
    } else {
      assert (a + b)[1..] == a[1..] + b;
      CountCharAppend(a[1..], b, c);
    }
  }

  lemma {:induction false} CountRepeat(d: char, n: nat, c: char)
    ensures CountChar(RepeatChar(d, n), c) == if d == c then n else 0
  {
    if n > 0 {
      assert RepeatChar(d, n)[1..] == RepeatChar(d, n - 1);
      CountRepeat(d, n - 1, c);
    }
  }

  // ---------------------------------------------------------------------------
  // Runtimes
  // ---------------------------------------------------------------------------

  /** Emby counts runtimes in ticks of 100 nanoseconds. */
  const TicksPerMinute: int := 10000000 * 60

  const Hour: char := '\U{65F6}'
  const Minute: char := '\U{5206}'
  const Clock: char := '\U{949F}'

  /** JavaScript's `%`: the remainder takes the sign of the dividend. */
  function JsRem(a: int, b: int): (r: int)
    requires b > 0
    ensures a >= 0 ==> 0 <= r < b && r == a % b
    ensures a < 0 ==> -b < r <= 0
    ensures exists q :: a == q * b + r
  {
    if a >= 0 then
      assert a == (a / b) * b + a % b;
      a % b
    else
      var r := -((-a) % b);
      assert a == -((-a) / b) * b + r;
      r
  }

  /** `formatRuntime(ticks)`: empty for a missing or zero runtime; whole
      hours and the minutes left over when there is at least an hour,
      otherwise the minutes alone.  `Math.floor` of a division by a positive
      number is Dafny's `/`. */
  function FormatRuntime(ticks: Option<int>): (r: string)
    ensures r == "" <==> ticks.None? || ticks.value == 0
  {
    if ticks.None? || ticks.value == 0 then ""
    else
      var minutes := ticks.value / TicksPerMinute;
      var hours := minutes / 60;
      var remaining := JsRem(minutes, 60);
      if hours > 0 then IntToString(hours) + [Hour] + IntToString(remaining) + [Minute]
      else IntToString(remaining) + [Minute, Clock]
  }

  /** The digits of `s` read as a decimal number. */
  function ReadNat(s: string): (r: Option<nat>)
    ensures r.Some? ==> |s| > 0 && AllDigits(s)
  {
    if |s| > 0 && AllDigits(s) then
      assert AllDigitsIn(s, 10);
      Some(RadixValue(s, 10))
    else None
  }

  /** The number of whole minutes a runtime label stands for: `M分钟`, or
      `H时M分` read as `60 * H + M`. */
  function ReadRuntime(text: string): Option<int> {
    if |text| >= 2 && text[|text| - 2..] == [Minute, Clock] then
      match ReadNat(text[..|text| - 2])
      case Some(m) => Some(m)
      case None => None
    else if |text| >= 1 && text[|text| - 1] == Minute then ReadPair(text[..|text| - 1], Hour)
    else None
  }

  /** Two numbers separated by `sep`, read as `60 * first + second`. */
  function ReadPair(text: string, sep: char): Option<int> {
    var pieces := Split(text, [sep]);
    if |pieces| == 2 && ReadNat(pieces[0]).Some? && ReadNat(pieces[1]).Some? then
      Some(60 * ReadNat(pieces[0]).value + ReadNat(pieces[1]).value)
    else None
  }

  /** Two numerals joined by a separator that is not a digit read back. */
  lemma ReadPairOfNumerals(a: string, b: string, sep: char, x: nat, y: nat)
    requires ReadNat(a) == Some(x) && ReadNat(b) == Some(y) && !IsDigit(sep)
    ensures ReadPair(a + [sep] + b, sep) == Some(60 * x + y)
  {
    SplitTwoNumerals(a, b, sep);
  }

  /** A positive runtime reads back as its whole minutes: the label loses
      only the seconds. */
  lemma RuntimeReadsBack(ticks: int)
    requires ticks > 0
    ensures ReadRuntime(FormatRuntime(Some(ticks))) == Some(ticks / TicksPerMinute)
  {
    var minutes := ticks / TicksPerMinute;
    var h, m := minutes / 60, minutes % 60;
    assert 60 * h + m == minutes;
    RuntimeLabel(ticks, h, m);
    LabelReadsBack(h, m);
  }

  /** The label of a positive runtime of `h` hours and `m` minutes. */
  lemma RuntimeLabel(ticks: int, h: nat, m: nat)
    requires ticks > 0 && h == (ticks / TicksPerMinute) / 60 && m == (ticks / TicksPerMinute) % 60
    ensures FormatRuntime(Some(ticks)) ==
      if h > 0 then NatToString(h) + [Hour] + NatToString(m) + [Minute]
      else NatToString(m) + [Minute, Clock]
  {
    assert JsRem(ticks / TicksPerMinute, 60) == m;
  }

  /** Either form of label reads back as its minutes. */
  lemma LabelReadsBack(h: nat, m: nat)
    ensures var text :=
      if h > 0 then NatToString(h) + [Hour] + NatToString(m) + [Minute]
      else NatToString(m) + [Minute, Clock];
      ReadRuntime(text) == Some(60 * h + m)
  {
    if h > 0 {
      HoursLabelReadsBack(h, m);
    } else {
      MinutesLabelReadsBack(m);
    }
  }

  lemma MinutesLabelReadsBack(m: nat)
    ensures ReadRuntime(NatToString(m) + [Minute, Clock]) == Some(m)
  {
    var text := NatToString(m) + [Minute, Clock];
    assert text[|text| - 2..] == [Minute, Clock];
    assert text[..|text| - 2] == NatToString(m);
  }

  lemma HoursLabelReadsBack(h: nat, m: nat)
    ensures ReadRuntime(NatToString(h) + [Hour] + NatToString(m) + [Minute]) == Some(60 * h + m)
  {
    var hs, ms := NatToString(h), NatToString(m);
    var body := hs + [Hour] + ms;
    assert body[|body| - 1] == ms[|ms| - 1];
    PairLabelReads(body);
    ReadNatOfNumeral(h);
    ReadNatOfNumeral(m);
    ReadPairOfNumerals(hs, ms, Hour, h, m);
  }

  /** A label ending in a digit and then the minute sign is read as a pair. */
  lemma PairLabelReads(body: string)
    requires |body| >= 1 && IsDigit(body[|body| - 1])
    ensures ReadRuntime(body + [Minute]) == ReadPair(body, Hour)
  {
    var text := body + [Minute];
    assert text[|text| - 2] == body[|body| - 1];
    assert text[|text| - 2..] != [Minute, Clock];
    assert text[..|text| - 1] == body;
  }

  /** A negative runtime of an hour and a minute shows only the minute
      left over, negative: the hours are floored and the remainder is
      truncated, and the label drops the hours when they are not positive. */
  lemma NegativeRuntimeShowsRemainder()
    ensures FormatRuntime(Some(-61 * TicksPerMinute)) == "-1" + [Minute, Clock]
  {
    assert (-61 * TicksPerMinute) / TicksPerMinute == -61;
    assert JsRem(-61, 60) == -1;
    assert IntToString(-1) == "-1";
  }

  // ---------------------------------------------------------------------------
  // Clock times
  // ---------------------------------------------------------------------------

  /** `s.padStart(n, '0')`. */
  function PadStart(s: string, n: nat): (r: string)
    ensures |r| == if |s| >= n then |s| else n
    ensures s <= r[|r| - |s|..] && r[|r| - |s|..] == s
    ensures forall k :: 0 <= k < |r| - |s| ==> r[k] == '0'
  {
    if |s| >= n then s else RepeatChar('0', n - |s|) + s
  }

  /** `formatTime(seconds)`: whole minutes, a colon, and the seconds left
      over padded to two digits. */
  function FormatTime(seconds: int): (r: string)
    ensures ':' in r
  {
    var minutes := seconds / 60;
    var remaining := JsRem(seconds, 60);
    var text := IntToString(minutes) + ":" + PadStart(IntToString(remaining), 2);
    assert text[|IntToString(minutes)|] == ':';
    text
  }

  /** `M:SS` read as `60 * M + SS`. */
  function ReadClock(text: string): Option<int> {
    ReadPair(text, ':')
  }

  /** For a time that is not negative the text splits at its one colon,
      and the seconds always take two digits. */
  lemma ClockHasTwoFields(seconds: nat)
    ensures var fields := Split(FormatTime(seconds), ":");
      |fields| == 2 && |fields[1]| == 2
  {
    ClockText(seconds);
    TwoDigitSeconds(seconds % 60);
    SplitTwoNumerals(NatToString(seconds / 60), PadStart(NatToString(seconds % 60), 2), ':');
  }

  /** A time that is not negative reads back as itself. */
  lemma ClockRoundTrip(seconds: nat)
    ensures ReadClock(FormatTime(seconds)) == Some(seconds)
  {
    var minutes, remaining := seconds / 60, seconds % 60;
    var ms, ss := NatToString(minutes), PadStart(NatToString(remaining), 2);
    TwoDigitSeconds(remaining);
    ReadNatOfNumeral(minutes);
    ReadPairOfNumerals(ms, ss, ':', minutes, remaining);
    assert ReadPair(ms + [':'] + ss, ':') == Some(seconds);
    ClockText(seconds);
  }

  lemma ReadNatOfNumeral(n: nat)
    ensures ReadNat(NatToString(n)) == Some(n)
  {
  }

  lemma ClockText(seconds: nat)
    ensures FormatTime(seconds) == NatToString(seconds / 60) + [':'] + PadStart(NatToString(seconds % 60), 2)
  {
    assert JsRem(seconds, 60) == seconds % 60;
  }

  /** Two digit strings joined by a separator that is not a digit split
      back into them. */
  lemma SplitTwoNumerals(a: string, b: string, sep: char)
    requires AllDigits(a) && AllDigits(b) && !IsDigit(sep)
    ensures Split(a + [sep] + b, [sep]) == [a, b]
  {
    assert a + [sep] + b == Join([a, b], [sep]);
    assert Separable([a, b], [sep]) by {
      assert forall k :: 0 <= k < |a| ==> IsDigit(a[k]);
      assert forall k :: 0 <= k < |b| ==> IsDigit(b[k]);
    }
    SplitJoin([a, b], [sep]);
  }

  /** Seconds below a minute pad to two digits that read back as them. */
  lemma TwoDigitSeconds(s: nat)
    requires s < 60
    ensures var t := PadStart(NatToString(s), 2);
      && |t| == 2 && AllDigits(t) && ReadNat(t) == Some(s)
  {
    var n := NatToString(s);
    var t := PadStart(n, 2);
    if s < 10 {
      assert n == [DigitChar(s)];
      assert t == ['0', DigitChar(s)];
      assert t[..1] == ['0'] && t[..1][..0] == [];
      assert RadixValue(t[..1], 10) == 0;
      assert RadixValue(t, 10) == s;
    } else {
      assert |n| == 2 by {
        assert n == NatToString(s / 10) + [DigitChar(s % 10)];
      }
    }
  }

  /** A negative time prints a negative remainder after the colon: five
      seconds before zero is `-1:-5`. */
  lemma NegativeTimeGarbled()
    ensures FormatTime(-5) == "-1:-5"
  {
    assert JsRem(-5, 60) == -5;
    assert IntToString(-1) == "-1" && IntToString(-5) == "-5";
  }

  // ---------------------------------------------------------------------------
  // Column widths
  // ---------------------------------------------------------------------------

  /** One `mousemove` while a column is being resized: the header takes
      the dragged width only when that is more than 50 pixels. */
  const MinWidth: int := 50

  function ResizeMove(width: int, startWidth: int, startX: int, pageX: int): (r: int)
    ensures r == width || r > MinWidth
    ensures startWidth + (pageX - startX) > MinWidth ==> r == startWidth + (pageX - startX)
    ensures startWidth + (pageX - startX) <= MinWidth ==> r == width
  {
    var dragged := startWidth + (pageX - startX);
    if dragged > MinWidth then dragged else width
  }

  /** A whole drag: the moves' `pageX` values in order. */
  function ResizeDrag(width: int, startWidth: int, startX: int, moves: seq<int>): int
    decreases |moves|
  {
    if moves == [] then width
    else ResizeDrag(ResizeMove(width, startWidth, startX, moves[0]), startWidth, startX, moves[1..])
  }

  /** After a drag the header keeps the width it had or has the width of
      one of the moves, one of more than 50 pixels: a drag never narrows a
      column to 50 pixels or less. */
  lemma {:induction false} DragKeepsOrWidens(width: int, startWidth: int, startX: int, moves: seq<int>)
    ensures var w := ResizeDrag(width, startWidth, startX, moves);
      && (w == width || w > MinWidth)
      && (w != width ==> exists j :: 0 <= j < |moves| && w == startWidth + (moves[j] - startX) > MinWidth)
    decreases |moves|
  {
    if moves != [] {
      var next := ResizeMove(width, startWidth, startX, moves[0]);
      DragKeepsOrWidens(next, startWidth, startX, moves[1..]);
      var w := ResizeDrag(next, startWidth, startX, moves[1..]);
      if w != width && w != next {
        var j :| 0 <= j < |moves| - 1 && w == startWidth + (moves[1..][j] - startX) > MinWidth;
        assert w == startWidth + (moves[j + 1] - startX);
      }
    }
  }

  /** A move whose dragged width `resize` takes. */
  predicate Wide(startWidth: int, startX: int, pageX: int) {
    startWidth + (pageX - startX) > MinWidth
  }

  /** The last wide move wins: after a drag the header has the width of the
      last move that was wide enough, or keeps its width when no move was.
      In particular it has the width of a move no earlier than any wide
      move. */
  lemma DragEndsAtLastWideMove(width: int, startWidth: int, startX: int, moves: seq<int>)
    ensures var w := ResizeDrag(width, startWidth, startX, moves);
      forall k :: 0 <= k < |moves| && Wide(startWidth, startX, moves[k]) ==>
        exists j :: k <= j < |moves| && w == startWidth + (moves[j] - startX)
    ensures var w := ResizeDrag(width, startWidth, startX, moves);
      forall k :: 0 <= k < |moves| && Wide(startWidth, startX, moves[k])
                  && (forall j :: k < j < |moves| ==> !Wide(startWidth, startX, moves[j])) ==>
        w == startWidth + (moves[k] - startX)
    ensures (forall j :: 0 <= j < |moves| ==> !Wide(startWidth, startX, moves[j])) ==>
      ResizeDrag(width, startWidth, startX, moves) == width
  {
    DragEndsAfterWideMove(width, startWidth, startX, moves);
    LastWideMoveWins(width, startWidth, startX, moves);
  }

  /** The header ends with the width of a move no earlier than any wide
      move. */
  lemma {:induction false} DragEndsAfterWideMove(width: int, startWidth: int, startX: int, moves: seq<int>)
    ensures var w := ResizeDrag(width, startWidth, startX, moves);
      forall k :: 0 <= k < |moves| && Wide(startWidth, startX, moves[k]) ==>
        exists j :: k <= j < |moves| && w == startWidth + (moves[j] - startX)
    decreases |moves|
  {
    if moves != [] {
      var next := ResizeMove(width, startWidth, startX, moves[0]);
      DragEndsAfterWideMove(next, startWidth, startX, moves[1..]);
      DragKeepsOrWidens(next, startWidth, startX, moves[1..]);
      var w := ResizeDrag(next, startWidth, startX, moves[1..]);
      forall k | 0 <= k < |moves| && Wide(startWidth, startX, moves[k])
        ensures exists j :: k <= j < |moves| && w == startWidth + (moves[j] - startX)
      {
        if k == 0 {
          if w == next {
            assert w == startWidth + (moves[0] - startX);
          } else {
            var j :| 0 <= j < |moves| - 1 && w == startWidth + (moves[1..][j] - startX) > MinWidth;
            assert w == startWidth + (moves[j + 1] - startX);
          }
        } else {
          assert moves[1..][k - 1] == moves[k];
          var j :| k - 1 <= j < |moves| - 1 && w == startWidth + (moves[1..][j] - startX);
          assert w == startWidth + (moves[j + 1] - startX);
        }
      }
    }
  }

  /** The header ends with the width of the last wide move, or keeps its
      width when no move is wide. */
  lemma {:induction false} LastWideMoveWins(width: int, startWidth: int, startX: int, moves: seq<int>)
    ensures var w := ResizeDrag(width, startWidth, startX, moves);
      forall k :: 0 <= k < |moves| && Wide(startWidth, startX, moves[k])
                  && (forall j :: k < j < |moves| ==> !Wide(startWidth, startX, moves[j])) ==>
        w == startWidth + (moves[k] - startX)
    ensures (forall j :: 0 <= j < |moves| ==> !Wide(startWidth, startX, moves[j])) ==>
      ResizeDrag(width, startWidth, startX, moves) == width
    decreases |moves|
  {
    if moves != [] {
      var next := ResizeMove(width, startWidth, startX, moves[0]);
      var tail := moves[1..];
      LastWideMoveWins(next, startWidth, startX, tail);
      var w := ResizeDrag(next, startWidth, startX, tail);
      assert w == ResizeDrag(width, startWidth, startX, moves);
      forall k | 0 <= k < |moves| && Wide(startWidth, startX, moves[k])
                 && (forall j :: k < j < |moves| ==> !Wide(startWidth, startX, moves[j]))
        ensures w == startWidth + (moves[k] - startX)
      {
        if k == 0 {
          assert forall j :: 0 <= j < |tail| ==> !Wide(startWidth, startX, tail[j]) by {
            assert forall j :: 0 <= j < |tail| ==> tail[j] == moves[j + 1];
          }
        } else {
          assert tail[k - 1] == moves[k];
          assert forall j :: k - 1 < j < |tail| ==> !Wide(startWidth, startX, tail[j]) by {
            assert forall j :: 0 <= j < |tail| ==> tail[j] == moves[j + 1];
          }
        }
      }
      if forall j :: 0 <= j < |moves| ==> !Wide(startWidth, startX, moves[j]) {
        assert !Wide(startWidth, startX, moves[0]);
        assert forall j :: 0 <= j < |tail| ==> !Wide(startWidth, startX, tail[j]) by {
          assert forall j :: 0 <= j < |tail| ==> tail[j] == moves[j + 1];
        }
      }
    }
  }
}

=== FILE: modal_scenarios.dfy ===
/** Whole call sequences of the modal window manager: the ordinary
    open/minimize/restore cycle, and what happens when a 300 ms timer is
    still outstanding while the user clicks again.  Nothing in the manager
    guards against the second kind: `restoreModal` only needs the rectangle
    that `minimize` saves at once, and `open`'s animation frame only looks at
    `minimizedModals`, which the timer has not updated yet. */
module ModalScenarios {
  import opened Options
  import opened Modals

  /** `open` with its animation frame run: the modal is shown and not
      minimized, and nothing is left pending. */
  function OpenSettled(m: Manager, id: ModalId, viewWidth: int, viewHeight: int,
                       cardWidth: int, cardHeight: int): (r: Manager)
    requires Valid(m) && m.pending == [] && id in m.z && id !in m.minimizedModals
    ensures Valid(r) && r.pending == [] && id in r.z
    ensures id in r.shown && id !in r.minimizedModals
    ensures ZOf(r, id) >= BaseZIndex + ZStep
    ensures r.modals == m.modals && m.shown <= r.shown && r.minimizedModals == m.minimizedModals
  {
    var opening := Open(m, id);
    assert opening.pending == [OpenFrame(id)];
    FireOpenFrame(opening, 0, viewWidth, viewHeight, cardWidth, cardHeight)
  }

  /** `minimize` with its timer run: the modal is hidden, marked minimized,
      and registered with its rectangle and no level. */
  function MinimizeSettled(m: Manager, id: ModalId, rect: Rect): (r: Manager)
    requires Valid(m) && m.pending == [] && id in m.z && HasToolbarButton(id)
    ensures Valid(r) && r.pending == [] && r.z == m.z
    ensures id !in r.shown && id in r.minimizedModals
    ensures id in r.activeModals && r.activeModals[id] == Saved(true, None, Some(rect))
  {
    var minimizing := Minimize(m, id, rect);
    assert minimizing.pending == [MinimizeDone(id)];
    FireMinimizeDone(minimizing, 0)
  }

  /** A toolbar click on a settled minimized modal with every callback it
      schedules run.  The settings button goes through `open`, whose frame
      hands the modal to `restoreModal`; the other buttons call
      `restoreModal` directly.  Either way the modal ends shown, registered
      as not minimized with the rectangle it was minimized with, and raised
      above the level it had. */
  function ClickSettled(minimized: Manager, id: ModalId, rect: Rect, viewWidth: int, viewHeight: int,
                        cardWidth: int, cardHeight: int): (r: Manager)
    requires Valid(minimized) && minimized.pending == [] && id in minimized.z
    requires id in minimized.minimizedModals && HasToolbarButton(id)
    requires id in minimized.activeModals && minimized.activeModals[id] == Saved(true, None, Some(rect))
    ensures Valid(r) && r.pending == []
    ensures id in r.shown && id !in r.minimizedModals
    ensures id in r.activeModals && r.activeModals[id] == Saved(false, Some(ZOf(r, id)), Some(rect))
    ensures ZOf(r, id) > ZOf(minimized, id)
  {
    RestoreSettles(minimized, id, rect);
    if id == SettingsModal then
      SettingsRestoresThroughOpen(minimized, rect, viewWidth, viewHeight, cardWidth, cardHeight);
      var clicked := OpenFromToolbar(minimized, id);
      FireRestoreDone(FireOpenFrame(clicked, 0, viewWidth, viewHeight, cardWidth, cardHeight), 0)
    else
      FireRestoreDone(OpenFromToolbar(minimized, id), 0)
  }

  /** Open a modal, minimize it, and bring it back from its toolbar button,
      each callback running before the next click.  The modal ends shown,
      registered as not minimized, with the rectangle it had when it was
      minimized, and above the level it had before. */
  lemma MinimizeRestoreRoundTrip(m: Manager, id: ModalId, viewWidth: int, viewHeight: int,
                                 cardWidth: int, cardHeight: int, rect: Rect)
    requires Valid(m) && m.pending == []
    requires id in m.z && HasToolbarButton(id) && id !in m.minimizedModals
    ensures
      var afterOpen := OpenSettled(m, id, viewWidth, viewHeight, cardWidth, cardHeight);
      var minimized := MinimizeSettled(afterOpen, id, rect);
      var restored := ClickSettled(minimized, id, rect, viewWidth, viewHeight, cardWidth, cardHeight);
      && id in restored.shown && id !in restored.minimizedModals
      && restored.activeModals[id] == Saved(false, Some(ZOf(restored, id)), Some(rect))
      && ZOf(restored, id) > ZOf(afterOpen, id)
      && restored.pending == []
  {
    var afterOpen := OpenSettled(m, id, viewWidth, viewHeight, cardWidth, cardHeight);
    var minimized := MinimizeSettled(afterOpen, id, rect);
    assert ZOf(minimized, id) == ZOf(afterOpen, id);
  }

  /** `restoreModal` on a settled minimized modal schedules exactly one
      timer, which leaves the modal shown and registered with the level it
      was raised to. */
  lemma RestoreSettles(minimized: Manager, id: ModalId, rect: Rect)
    requires Valid(minimized) && minimized.pending == [] && id in minimized.z
    requires id in minimized.minimizedModals && HasToolbarButton(id)
    requires id in minimized.activeModals && minimized.activeModals[id] == Saved(true, None, Some(rect))
    ensures
      var clicked := RestoreModal(minimized, id);
      && clicked.pending == [RestoreDone(id, NewZ(minimized), rect)]
      && (var restored := FireRestoreDone(clicked, 0);
          && id in restored.shown && id !in restored.minimizedModals
          && restored.activeModals[id] == Saved(false, Some(ZOf(restored, id)), Some(rect))
          && ZOf(restored, id) > ZOf(minimized, id)
          && restored.pending == [])
  {
    var clicked := RestoreModal(minimized, id);
    assert clicked.pending == [RestoreDone(id, NewZ(minimized), rect)];
    assert id in minimized.modals;
    assert ZOf(clicked, id) == NewZ(minimized) > ZOf(minimized, id);
  }

  /** A click on any toolbar button but the settings one, on a settled
      minimized modal, schedules exactly one restore and no animation
      frame. */
  lemma RestoreFromToolbar(minimized: Manager, id: ModalId, rect: Rect)
    requires Valid(minimized) && minimized.pending == [] && id in minimized.z
    requires id in minimized.minimizedModals && HasToolbarButton(id) && id != SettingsModal
    requires id in minimized.activeModals && minimized.activeModals[id] == Saved(true, None, Some(rect))
    ensures
      var clicked := OpenFromToolbar(minimized, id);
      && clicked.pending == [RestoreDone(id, NewZ(minimized), rect)]
      && id in clicked.shown && ZOf(clicked, id) > ZOf(minimized, id)
  {
    RestoreSettles(minimized, id, rect);
    assert id in minimized.modals;
  }

  /** The settings button on a settled minimized settings modal schedules an
      animation frame, not a restore; the frame finds the modal minimized and
      hands it to `restoreModal`, exactly as a direct restore would. */
  lemma SettingsRestoresThroughOpen(minimized: Manager, rect: Rect, viewWidth: int, viewHeight: int,
                                    cardWidth: int, cardHeight: int)
    requires Valid(minimized) && minimized.pending == [] && SettingsModal in minimized.z
    requires SettingsModal in minimized.minimizedModals
    ensures
      var clicked := OpenFromToolbar(minimized, SettingsModal);
      && clicked.pending == [OpenFrame(SettingsModal)]
      && clicked.shown == minimized.shown
      && FireOpenFrame(clicked, 0, viewWidth, viewHeight, cardWidth, cardHeight)
         == RestoreModal(minimized, SettingsModal)
  {
    var clicked := OpenFromToolbar(minimized, SettingsModal);
    assert clicked == Open(minimized, SettingsModal);
    assert Drop(clicked.pending, 0) == [];
    assert Fired(clicked, 0) == minimized;
  }

  /** `restoreModal` called while `minimize`'s timer is still outstanding.
      The two timers fire in the order they were scheduled: the first hides
      the modal, the second clears the minimized mark.  The modal is left
      hidden while the registry records it as restored; only another
      toolbar click, which now goes through `open`, shows it again. */
  lemma RestoreRacesMinimize(m: Manager, id: ModalId, rect: Rect)
    requires Valid(m) && id in m.z && HasToolbarButton(id)
    ensures
      var n := |m.pending|;
      var restoring := RestoreModal(Minimize(m, id, rect), id);
      && |restoring.pending| == n + 2
      && restoring.pending[n].MinimizeDone? && restoring.pending[n + 1].RestoreDone?
      && (var hidden := FireMinimizeDone(restoring, n);
          && hidden.pending[n].RestoreDone?
          && (var settled := FireRestoreDone(hidden, n);
              && id !in settled.shown
              && id !in settled.minimizedModals
              && id in settled.activeModals && !settled.activeModals[id].isMinimized
              && settled.activeModals[id].rect == Some(rect)
              && OpenFromToolbar(settled, id) == Open(settled, id)))
  {
    var n := |m.pending|;
    var minimizing := Minimize(m, id, rect);
    assert minimizing.pending == m.pending + [MinimizeDone(id)];
    var restoring := RestoreModal(minimizing, id);
    assert restoring.pending == minimizing.pending + [RestoreDone(id, NewZ(minimizing), rect)];
    var hidden := FireMinimizeDone(restoring, n);
    assert hidden.pending == m.pending + [RestoreDone(id, NewZ(minimizing), rect)];
  }

  /** A modal that the registry calls minimized but that has no saved
      rectangle: `restoreModal` refuses it and `open` hands it to
      `restoreModal`, so it stays hidden. */
  ghost predicate Stuck(m: Manager, id: ModalId) {
    && id in m.z && HasToolbarButton(id)
    && id in m.minimizedModals && id !in m.shown
    && (id !in m.activeModals || m.activeModals[id].rect.None?)
  }

  /** `open` called while `minimize`'s timer is still outstanding (its
      animation frame runs first).  The frame finds the modal not yet
      minimized and re-opens it, registering it without a rectangle; then
      the timer hides it and marks it minimized.  The modal is stuck. */
  lemma OpenRacesMinimize(m: Manager, id: ModalId, rect: Rect, viewWidth: int, viewHeight: int,
                          cardWidth: int, cardHeight: int)
    requires Valid(m) && id in m.z && HasToolbarButton(id) && id !in m.minimizedModals
    ensures
      var n := |m.pending|;
      var reopening := Open(Minimize(m, id, rect), id);
      && |reopening.pending| == n + 2
      && reopening.pending[n].MinimizeDone? && reopening.pending[n + 1].OpenFrame?
      && (var reopened := FireOpenFrame(reopening, n + 1, viewWidth, viewHeight, cardWidth, cardHeight);
          && reopened.pending[n].MinimizeDone?
          && Stuck(FireMinimizeDone(reopened, n), id))
  {
    var n := |m.pending|;
    var minimizing := Minimize(m, id, rect);
    var reopening := Open(minimizing, id);
    assert reopening.pending == m.pending + [MinimizeDone(id), OpenFrame(id)];
    var reopened := FireOpenFrame(reopening, n + 1, viewWidth, viewHeight, cardWidth, cardHeight);
    assert Drop(reopening.pending, n + 1) == m.pending + [MinimizeDone(id)];
    assert reopened.activeModals[id].rect.None?;
  }

  /** Nothing but `close` frees a stuck modal: a toolbar click changes
      nothing (the settings button only calls `open`), and neither does
      `open` once its frame has run. */
  lemma {:induction false} StuckIsAbsorbing(m: Manager, id: ModalId, viewWidth: int, viewHeight: int,
                                            cardWidth: int, cardHeight: int)
    requires Valid(m) && Stuck(m, id)
    ensures id != SettingsModal ==> OpenFromToolbar(m, id) == m
    ensures id == SettingsModal ==> OpenFromToolbar(m, id) == Open(m, id)
    ensures RestoreModal(m, id) == m
    ensures
      var opening := Open(m, id);
      && opening.pending[|m.pending|].OpenFrame?
      && FireOpenFrame(opening, |m.pending|, viewWidth, viewHeight, cardWidth, cardHeight) == m
    ensures !Stuck(Close(m, id), id)
  {
    var opening := Open(m, id);
    assert Drop(opening.pending, |m.pending|) == m.pending;
    assert opening.(pending := m.pending) == m;
  }
}

=== FILE: modals.dfy ===
/** The modal window manager of the browser script (`ModalManager`).

    The manager keeps two registries, `activeModals` (id to a saved record)
    and `minimizedModals` (a set of ids), and drives the page's modal
    elements: their stacking level, the `is-active` class that shows them,
    the `is-active` class of their toolbar buttons, and the position of
    their cards.  Its animations finish in callbacks that run later (one
    animation frame for `open`, a 300 ms timer for `minimize` and
    `restoreModal`); here every such callback is a `Completion` queued in
    `pending` and fired by its own transition, in any order, so that the
    model also covers callbacks interleaving with new calls. */
module Modals {
  import opened Options
  import opened Seqs

  type ModalId = string

  /** The floor of every stacking level the manager hands out. */
  const BaseZIndex: int := 1000
  /** How far a newly raised modal is placed above the current top. */
  const ZStep: int := 10

  /** The toolbar button selector of each modal that has one. */
  const ToolbarSelectors: map<ModalId, string> := map[
    "duplicateModal" := "[onclick*=\"openDuplicateModal\"]",
    "jackettModal" := "[onclick*=\"openJackettModal\"]",
    "wtlModal" := "[onclick*=\"openWtlModal\"]",
    "thunderModal" := "[onclick*=\"openThunderModal\"]",
    "embyModal" := "[onclick*=\"openEmbyModal\"]",
    "settingsModal" := "[onclick*=\"openSettingsModal\"]"
  ]

  /** The one toolbar modal whose handler (`openSettingsModal`) calls `open`
      without first checking `minimizedModals`. */
  const SettingsModal: ModalId := "settingsModal"

  /** `getToolbarButton(id)` finds a button. */
  predicate HasToolbarButton(id: ModalId) {
    id in ToolbarSelectors
  }

  /** What `getComputedStyle(modal).zIndex` reports: a number, or a keyword
      such as `auto` that `parseInt` cannot read. */
  datatype ZValue = Auto | Level(n: int)

  /** `parseInt(zIndex) || 0`: an unreadable stacking level counts as 0. */
  function ParsedZ(v: ZValue): int {
    match v
    case Auto => 0
    case Level(n) => n
  }

  /** A bounding rectangle, as `getBoundingClientRect` returns it. */
  datatype Rect = Rect(left: real, top: real, width: real, height: real)

  datatype Point = Point(x: real, y: real)

  /** The record `activeModals` keeps per modal. */
  datatype Saved = Saved(isMinimized: bool, zIndex: Option<int>, rect: Option<Rect>)

  /** A callback that has been scheduled but has not run yet.  A restore's
      timer carries the level and rectangle its closure captured. */
  datatype Completion =
    | OpenFrame(id: ModalId)
    | MinimizeDone(id: ModalId)
    | RestoreDone(id: ModalId, zIndex: int, rect: Rect)

  datatype Manager = Manager(
    modals: seq<ModalId>,              // every `.modal` element, in document order
    z: map<ModalId, ZValue>,           // the computed stacking level of each of them
    shown: set<ModalId>,               // modals carrying `is-active`
    lit: set<ModalId>,                 // modals whose toolbar button carries `is-active`
    cardPos: map<ModalId, Point>,      // left/top written to a card by centring
    activeModals: map<ModalId, Saved>,
    minimizedModals: set<ModalId>,
    pending: seq<Completion>)

  /** The invariant every reachable manager keeps. */
  ghost predicate Valid(m: Manager) {
    && (forall id :: id in m.z <==> id in m.modals)
    && m.shown <= m.z.Keys
    && m.lit <= ToolbarSelectors.Keys
    && m.minimizedModals <= ToolbarSelectors.Keys
    && (forall id :: id in m.activeModals && m.activeModals[id].rect.Some? ==> HasToolbarButton(id))
    && (forall i :: 0 <= i < |m.pending| ==> m.pending[i].id in m.z)
    && (forall i :: 0 <= i < |m.pending| && !m.pending[i].OpenFrame? ==> HasToolbarButton(m.pending[i].id))
  }

  /** The page before any call: every modal hidden, nothing registered. */
  function Init(modals: seq<ModalId>, styles: map<ModalId, ZValue>): (m: Manager)
    requires forall id :: id in styles <==> id in modals
    ensures Valid(m)
    ensures m.shown == {} && m.activeModals == map[] && m.minimizedModals == {} && m.pending == []
  {
    Manager(modals, styles, {}, {}, map[], map[], {}, [])
  }

  // ---------------------------------------------------------------------------
  // Stacking
  // ---------------------------------------------------------------------------

  /** The stacking level `parseInt` reads for modal `id` (0 when unreadable). */
  function ZOf(m: Manager, id: ModalId): int {
    if id in m.z then ParsedZ(m.z[id]) else 0
  }

  /** `Math.max(baseZIndex, ...levels of ids)`. */
  function HighestZ(ids: seq<ModalId>, z: map<ModalId, ZValue>): (r: int)
    ensures r >= BaseZIndex
    ensures forall id :: id in ids && id in z ==> ParsedZ(z[id]) <= r
    ensures r == BaseZIndex || exists id :: id in ids && id in z && r == ParsedZ(z[id])
  {
    if ids == [] then BaseZIndex
    else
      var last := ids[|ids| - 1];
      assert ids == ids[..|ids| - 1] + [last];
      var level := if last in z then ParsedZ(z[last]) else 0;
      Max(HighestZ(ids[..|ids| - 1], z), level)
  }

  /** The level `open` and `restoreModal` give the modal they raise: ten above
      the highest level of any modal on the page, and never below 1010. */
  function NewZ(m: Manager): (r: int)
    ensures r >= BaseZIndex + ZStep
    ensures forall id :: id in m.modals ==> ZOf(m, id) + ZStep <= r
    ensures r == BaseZIndex + ZStep || exists id :: id in m.modals && r == ZOf(m, id) + ZStep
  {
    HighestZ(m.modals, m.z) + ZStep
  }

  /** The card's top-left corner when it is centred in the viewport, never
      above or left of the viewport's origin. */
  function Centred(viewWidth: int, viewHeight: int, cardWidth: int, cardHeight: int): (p: Point)
    ensures p.x >= 0.0 && p.y >= 0.0
    ensures cardWidth <= viewWidth ==> 2.0 * p.x + cardWidth as real == viewWidth as real
    ensures cardHeight <= viewHeight ==> 2.0 * p.y + cardHeight as real == viewHeight as real
    ensures cardWidth > viewWidth ==> p.x == 0.0
    ensures cardHeight > viewHeight ==> p.y == 0.0
  {
    var left := (viewWidth - cardWidth) as real / 2.0;
    var top := (viewHeight - cardHeight) as real / 2.0;
    Point(if left >= 0.0 then left else 0.0, if top >= 0.0 then top else 0.0)
  }

  function Drop(cs: seq<Completion>, k: nat): (r: seq<Completion>)
    requires k < |cs|
    ensures |r| == |cs| - 1
    ensures forall i :: 0 <= i < k ==> r[i] == cs[i]
    ensures forall i :: k <= i < |r| ==> r[i] == cs[i + 1]
  {
    cs[..k] + cs[k + 1..]
  }

  // ---------------------------------------------------------------------------
  // Calls
  // ---------------------------------------------------------------------------

  /** `open(id)`: with no such element nothing happens; otherwise all the
      work waits for the next animation frame. */
  function Open(m: Manager, id: ModalId): (r: Manager)
    ensures id !in m.z ==> r == m
    ensures id in m.z ==> r.pending == m.pending + [OpenFrame(id)]
    ensures r.(pending := m.pending) == m
    ensures Valid(m) ==> Valid(r)
  {
    if id !in m.z then m else m.(pending := m.pending + [OpenFrame(id)])
  }

  /** `minimize(id)` with the card currently at `rect`.  A modal without a
      toolbar button is left alone (and a missing element throws before
      anything changes).  Otherwise the rectangle is saved at once, the
      registry records the modal as minimized without a level, and hiding
      it waits for the 300 ms timer. */
  function Minimize(m: Manager, id: ModalId, rect: Rect): (r: Manager)
    ensures !(id in m.z && HasToolbarButton(id)) ==> r == m
    ensures id in m.z && HasToolbarButton(id) ==>
      && r.activeModals == m.activeModals[id := Saved(true, None, Some(rect))]
      && r.pending == m.pending + [MinimizeDone(id)]
      && r.shown == m.shown && r.minimizedModals == m.minimizedModals && r.z == m.z
      && r.lit == m.lit && r.cardPos == m.cardPos && r.modals == m.modals
    ensures Valid(m) ==> Valid(r)
  {
    if id in m.z && HasToolbarButton(id) then
      m.(activeModals := m.activeModals[id := Saved(true, None, Some(rect))],
         pending := m.pending + [MinimizeDone(id)])
    else m
  }

  /** `restoreModal(id)`: only a modal whose registry record holds a saved
      rectangle is restored.  It is raised and shown at once; the registry
      is updated by the 300 ms timer, which captures the new level and the
      saved rectangle.  Looking up the toolbar button's rectangle throws for
      a modal without a button, after the level and `is-active` are set and
      before the timer is scheduled; `RestoreNeverThrows` shows that no
      valid manager reaches that path. */
  function RestoreModal(m: Manager, id: ModalId): (r: Manager)
    ensures !(id in m.z && id in m.activeModals && m.activeModals[id].rect.Some?) ==> r == m
    ensures id in m.z && id in m.activeModals && m.activeModals[id].rect.Some? ==>
      && r.z == m.z[id := Level(NewZ(m))]
      && r.shown == m.shown + {id}
      && r.activeModals == m.activeModals && r.minimizedModals == m.minimizedModals
      && r.cardPos == m.cardPos && r.lit == m.lit && r.modals == m.modals
      && (!HasToolbarButton(id) ==> r.pending == m.pending)
    ensures Valid(m) && id in m.z && id in m.activeModals && m.activeModals[id].rect.Some? ==>
      r.pending == m.pending + [RestoreDone(id, NewZ(m), m.activeModals[id].rect.value)]
    ensures Valid(m) ==> Valid(r)
  {
    if id in m.z && id in m.activeModals && m.activeModals[id].rect.Some? then
      var newZ := NewZ(m);
      var raised := m.(z := m.z[id := Level(newZ)], shown := m.shown + {id});
      if HasToolbarButton(id) then
        raised.(pending := raised.pending + [RestoreDone(id, newZ, m.activeModals[id].rect.value)])
      else
        raised
    else m
  }

  /** `close(id)`: hides the modal and unlights its button when the element
      exists, and in every case forgets the id in both registries. */
  function Close(m: Manager, id: ModalId): (r: Manager)
    ensures id !in r.activeModals && id !in r.minimizedModals
    ensures r.activeModals == m.activeModals - {id}
    ensures r.minimizedModals == m.minimizedModals - {id}
    ensures id in m.z ==> r.shown == m.shown - {id}
    ensures id in m.z && HasToolbarButton(id) ==> r.lit == m.lit - {id}
    ensures !(id in m.z && HasToolbarButton(id)) ==> r.lit == m.lit
    ensures id !in m.z ==> r.shown == m.shown
    ensures r.pending == m.pending && r.z == m.z && r.cardPos == m.cardPos && r.modals == m.modals
    ensures Valid(m) ==> Valid(r)
  {
    var hidden :=
      if id in m.z then
        m.(shown := m.shown - {id}, lit := if HasToolbarButton(id) then m.lit - {id} else m.lit)
      else m;
    hidden.(activeModals := hidden.activeModals - {id}, minimizedModals := hidden.minimizedModals - {id})
  }

  /** The toolbar handlers.  `openDuplicateModal`, `openEmbyModal`,
      `openJackettModal`, `openThunderModal` and `openWtlModal` restore their
      modal when it is minimized and open it otherwise; `openSettingsModal`
      always opens, and a minimized settings modal reaches `restoreModal`
      only through `open`'s frame. */
  function OpenFromToolbar(m: Manager, id: ModalId): (r: Manager)
    ensures id != SettingsModal && id in m.minimizedModals ==> r == RestoreModal(m, id)
    ensures id == SettingsModal || id !in m.minimizedModals ==> r == Open(m, id)
    ensures Valid(m) ==> Valid(r)
  {
    if id != SettingsModal && id in m.minimizedModals then RestoreModal(m, id) else Open(m, id)
  }

  // ---------------------------------------------------------------------------
  // Completions
  // ---------------------------------------------------------------------------

  /** The animation frame scheduled by `open`, in a viewport and with a card
      of the given sizes.  A minimized modal with a toolbar button is handed
      to `restoreModal`; any other modal is raised, shown, centred, has its
      button lit, and is registered as not minimized with its new level and
      no rectangle. */
  function FireOpenFrame(m: Manager, k: nat, viewWidth: int, viewHeight: int, cardWidth: int, cardHeight: int): (r: Manager)
    requires k < |m.pending| && m.pending[k].OpenFrame?
    // a minimized modal with a button is handed off: no centring, no registry write here
    ensures var id := m.pending[k].id;
      HasToolbarButton(id) && id in m.minimizedModals ==>
        && r == RestoreModal(m.(pending := Drop(m.pending, k)), id)
        && r.cardPos == m.cardPos && r.activeModals == m.activeModals
    // any other modal is put above every modal on the page and centred
    ensures var id := m.pending[k].id;
      !(HasToolbarButton(id) && id in m.minimizedModals) ==>
        && id in r.shown
        && ZOf(r, id) >= BaseZIndex + ZStep
        && (forall other :: other in m.modals ==> ZOf(m, other) < ZOf(r, id))
        && r.cardPos == m.cardPos[id := Centred(viewWidth, viewHeight, cardWidth, cardHeight)]
        && r.activeModals == m.activeModals[id := Saved(false, Some(ZOf(r, id)), None)]
        && r.minimizedModals == m.minimizedModals
    // and nothing else on the page changes
    ensures var id := m.pending[k].id;
      !(HasToolbarButton(id) && id in m.minimizedModals) ==>
        && r.z == m.z[id := Level(ZOf(r, id))]
        && (forall other :: other in r.modals && other != id ==> ZOf(r, other) < ZOf(r, id))
        && r.shown == m.shown + {id}
        && r.lit == (if HasToolbarButton(id) then m.lit + {id} else m.lit)
        && r.pending == Drop(m.pending, k)
        && r.modals == m.modals
    ensures Valid(m) ==> Valid(r)
  {
    var id := m.pending[k].id;
    var rest := Fired(m, k);
    if HasToolbarButton(id) && id in rest.minimizedModals then
      RestoreModal(rest, id)
    else
      Raise(rest, id, Centred(viewWidth, viewHeight, cardWidth, cardHeight))
  }

  /** The manager once completion `k` has left the queue. */
  function Fired(m: Manager, k: nat): (r: Manager)
    requires k < |m.pending|
    ensures r == m.(pending := Drop(m.pending, k))
    ensures Valid(m) ==> Valid(r) && m.pending[k].id in r.z
  {
    m.(pending := Drop(m.pending, k))
  }

  /** The part of `open`'s frame for a modal it does not hand off: raise
      it above every modal, show it, place its card, light its button and
      register it as not minimized, without a rectangle. */
  function Raise(m: Manager, id: ModalId, pos: Point): (r: Manager)
    ensures ZOf(r, id) == NewZ(m) && r.z == m.z[id := Level(NewZ(m))]
    ensures r.shown == m.shown + {id}
    ensures r.lit == (if HasToolbarButton(id) then m.lit + {id} else m.lit)
    ensures r.modals == m.modals && r.pending == m.pending && r.minimizedModals == m.minimizedModals
    ensures r.cardPos == m.cardPos[id := pos]
    ensures r.activeModals == m.activeModals[id := Saved(false, Some(NewZ(m)), None)]
    ensures Valid(m) && id in m.z ==> Valid(r)
  {
    var newZ := NewZ(m);
    m.(z := m.z[id := Level(newZ)],
       shown := m.shown + {id},
       cardPos := m.cardPos[id := pos],
       lit := if HasToolbarButton(id) then m.lit + {id} else m.lit,
       activeModals := m.activeModals[id := Saved(false, Some(newZ), None)])
  }

  /** The 300 ms timer scheduled by `minimize`: hides the modal and records
      it as minimized. */
  function FireMinimizeDone(m: Manager, k: nat): (r: Manager)
    requires k < |m.pending| && m.pending[k].MinimizeDone?
    ensures r.shown == m.shown - {m.pending[k].id}
    ensures r.minimizedModals == m.minimizedModals + {m.pending[k].id}
    ensures r.pending == Drop(m.pending, k)
    ensures r.activeModals == m.activeModals && r.z == m.z
    ensures r.lit == m.lit && r.cardPos == m.cardPos && r.modals == m.modals
    ensures Valid(m) ==> Valid(r)
  {
    var id := m.pending[k].id;
    m.(pending := Drop(m.pending, k), shown := m.shown - {id}, minimizedModals := m.minimizedModals + {id})
  }

  /** The 300 ms timer scheduled by `restoreModal`: forgets that the modal
      was minimized and registers it as not minimized, with the level and
      rectangle captured when the restore began. */
  function FireRestoreDone(m: Manager, k: nat): (r: Manager)
    requires k < |m.pending| && m.pending[k].RestoreDone?
    ensures r.minimizedModals == m.minimizedModals - {m.pending[k].id}
    ensures r.activeModals == m.activeModals[m.pending[k].id := Saved(false, Some(m.pending[k].zIndex), Some(m.pending[k].rect))]
    ensures r.pending == Drop(m.pending, k)
    ensures r.shown == m.shown && r.z == m.z
    ensures r.lit == m.lit && r.cardPos == m.cardPos && r.modals == m.modals
    ensures Valid(m) ==> Valid(r)
  {
    var c := m.pending[k];
    m.(pending := Drop(m.pending, k),
       minimizedModals := m.minimizedModals - {c.id},
       activeModals := m.activeModals[c.id := Saved(false, Some(c.zIndex), Some(c.rect))])
  }
}

=== FILE: options.dfy ===
/** The optional value used wherever the source reads a value that may be
    missing: `null`/`undefined` in the browser script, `None` or a raised
    `ValueError` in the server. */
module Options {

  datatype Option<+T> = None | Some(value: T) {

    /** The wrapped value, or `default` when there is none. */
    function GetOr(default: T): T {
      match this
      case Some(v) => v
      case None => default
    }
  }
}

=== FILE: paging.dfy ===
/** Paging of the search results in the browser: ten movies a page, the
    page change guard, the slice of the current page, and the pagination
    bar (previous/next buttons and a window of page links).  The current
    page survives a new search, so it can point past the last page. */
module Paging {
  import opened Options
  import opened Seqs

  const ItemsPerPage: nat := 10

  /** Pages shown on each side of the current one. */
  const Delta: int := 2

  /** `Math.ceil(allMovies.length / itemsPerPage)`. */
  function TotalPages(n: nat): (t: nat)
    ensures t * ItemsPerPage >= n
    ensures n > 0 ==> (t - 1) * ItemsPerPage < n
    ensures t == 0 <==> n == 0
  {
    (n + ItemsPerPage - 1) / ItemsPerPage
  }

  /** `changePage(page)`: the new current page; requests outside
      `[1, totalPages]` are ignored. */
  function ChangePage(current: int, page: int, total: nat): (r: int)
    ensures r == page || r == current
    ensures r == page <==> (1 <= page <= total || page == current)
  {
    if 1 <= page <= total then page else current
  }

  /** `allMovies.slice(start, start + itemsPerPage)` with
      `start = (currentPage - 1) * itemsPerPage`. */
  function PageRows<T>(all: seq<T>, page: int): (r: seq<T>)
    ensures 1 <= page <= TotalPages(|all|) ==>
      && 1 <= |r| <= ItemsPerPage
      && r == all[(page - 1) * ItemsPerPage .. Min(page * ItemsPerPage, |all|)]
    ensures page > TotalPages(|all|) ==> r == []
  {
    var start := (page - 1) * ItemsPerPage;
    Slice(all, start, start + ItemsPerPage)
  }

  /** The rows of pages `p` to the last, one page after another. */
  function PagesFrom<T>(all: seq<T>, p: nat): seq<T>
    requires p >= 1
    decreases TotalPages(|all|) + 1 - p
  {
    if p > TotalPages(|all|) then [] else PageRows(all, p) + PagesFrom(all, p + 1)
  }

  /** The pages split the results: read one after another, they give every
      movie once, in order. */
  lemma PagesPartitionResults<T>(all: seq<T>)
    ensures PagesFrom(all, 1) == all
  {
    PagesFromSuffix(all, 1);
  }

  lemma {:induction false} PagesFromSuffix<T>(all: seq<T>, p: nat)
    requires 1 <= p <= TotalPages(|all|) + 1
    ensures PagesFrom(all, p) == all[Min((p - 1) * ItemsPerPage, |all|)..]
    decreases TotalPages(|all|) + 1 - p
  {
    if p <= TotalPages(|all|) {
      PagesFromSuffix(all, p + 1);
      var s := (p - 1) * ItemsPerPage;
      if p * ItemsPerPage <= |all| {
        assert all[s..] == all[s..p * ItemsPerPage] + all[p * ItemsPerPage..];
      } else {
        assert p + 1 == TotalPages(|all|) + 1;
      }
    }
  }

  /** A page left over from an earlier, longer search shows no rows. */
  lemma StalePageShowsNothing<T>(all: seq<T>, current: int)
    requires current > TotalPages(|all|)
    ensures PageRows(all, current) == []
  {
  }

  // ---------------------------------------------------------------------------
  // The pagination bar
  // ---------------------------------------------------------------------------

  /** The previous button's target, when it is enabled. */
  function PreviousTarget(current: int): (r: Option<int>)
    ensures r.Some? <==> current > 1
    ensures r.Some? ==> r.value == current - 1
  {
    if current > 1 then Some(current - 1) else None
  }

  /** The next button's target, when it is enabled. */
  function NextTarget(current: int, total: nat): (r: Option<int>)
    ensures r.Some? <==> current < total
    ensures r.Some? ==> r.value == current + 1
  {
    if current < total then Some(current + 1) else None
  }

  datatype Item =
    | Link(page: int)      // a page link
    | Current(page: int)   // the current page, not a link
    | Ellipsis             // pages left out

  /** The links from `lo` to `hi`, the current page marked. */
  function Window(lo: int, hi: int, current: int): (r: seq<Item>)
    ensures |r| == if lo <= hi then hi - lo + 1 else 0
    ensures forall k :: 0 <= k < |r| ==> !r[k].Ellipsis? && r[k].page == lo + k
    ensures forall k :: 0 <= k < |r| ==> (r[k].Current? <==> lo + k == current)
    decreases hi - lo
  {
    if lo > hi then [] else [if lo == current then Current(lo) else Link(lo)] + Window(lo + 1, hi, current)
  }

  /** Page 1 and, when the window does not reach page 2, an ellipsis. */
  function Head(current: int): seq<Item> {
    if current > Delta + 1 then [Link(1)] + (if current > Delta + 2 then [Ellipsis] else []) else []
  }

  /** The last page and, before it, an ellipsis when the window does not
      reach the page before the last. */
  function Tail(current: int, total: nat): seq<Item> {
    if current < total - Delta then (if current < total - Delta - 1 then [Ellipsis] else []) + [Link(total)] else []
  }

  /** The page list of `updatePagination`: the head, the window of pages
      within `Delta` of the current one, and the tail. */
  function PageLinks(current: int, total: nat): seq<Item> {
    Head(current) + Window(Max(1, current - Delta), Min(total, current + Delta), current) + Tail(current, total)
  }

  /** Page numbers only grow along the bar, and two neighbouring entries
      are either consecutive pages or have an ellipsis between them that
      stands for at least one page. */
  ghost predicate WellSpaced(items: seq<Item>) {
    && (forall k :: 0 <= k < |items| - 1 && !items[k].Ellipsis? && !items[k + 1].Ellipsis? ==>
          items[k + 1].page == items[k].page + 1)
    && (forall k :: 0 <= k < |items| && items[k].Ellipsis? ==>
          && 0 < k < |items| - 1
          && !items[k - 1].Ellipsis? && !items[k + 1].Ellipsis?
          && items[k + 1].page > items[k - 1].page + 1)
  }

  /** For a current page in range, the bar starts with page 1 and ends with
      the last page. */
  lemma PageLinksEnds(current: int, total: nat)
    requires 1 <= current <= total
    ensures var items := PageLinks(current, total);
      && |items| > 0
      && items[0] in {Link(1), Current(1)}
      && items[|items| - 1] in {Link(total), Current(total)}
  {
    var lo, hi := Max(1, current - Delta), Min(total, current + Delta);
    var h, w, t := Head(current), Window(lo, hi, current), Tail(current, total);
    assert PageLinks(current, total) == h + w + t;
    assert |w| > 0;
    if h == [] {
      assert (h + w + t)[0] == w[0];
    }
    if t == [] {
      assert (h + w + t)[|h + w + t| - 1] == w[|w| - 1];
    }
  }

  /** Exactly the current page is marked current. */
  lemma PageLinksMarkCurrent(current: int, total: nat)
    requires 1 <= current <= total
    ensures var items := PageLinks(current, total);
      && (forall k :: 0 <= k < |items| ==> (items[k].Current? <==> items[k] == Current(current)))
      && Current(current) in items
  {
    var lo, hi := Max(1, current - Delta), Min(total, current + Delta);
    var h, w, t := Head(current), Window(lo, hi, current), Tail(current, total);
    var items := h + w + t;
    assert items == PageLinks(current, total);
    assert items[|h| + (current - lo)] == w[current - lo];
    forall k | 0 <= k < |items|
      ensures items[k].Current? <==> items[k] == Current(current)
    {
      if |h| <= k < |h| + |w| {
        assert items[k] == w[k - |h|];
      }
    }
  }

  /** The bar shows a page only when it is the first, the last, or within
      `Delta` of the current one, and it shows every page within `Delta`. */
  lemma PageLinksShowNearPages(current: int, total: nat)
    requires 1 <= current <= total
    ensures var items := PageLinks(current, total);
      && (forall k :: 0 <= k < |items| && !items[k].Ellipsis? ==>
            items[k].page == 1 || items[k].page == total || current - Delta <= items[k].page <= current + Delta)
      && (forall p :: 1 <= p <= total && current - Delta <= p <= current + Delta ==>
            Link(p) in items || Current(p) in items)
  {
    var lo, hi := Max(1, current - Delta), Min(total, current + Delta);
    var h, w, t := Head(current), Window(lo, hi, current), Tail(current, total);
    var items := h + w + t;
    assert items == PageLinks(current, total);
    forall k | 0 <= k < |items| && !items[k].Ellipsis?
      ensures items[k].page == 1 || items[k].page == total || current - Delta <= items[k].page <= current + Delta
    {
      if |h| <= k < |h| + |w| {
        assert items[k] == w[k - |h|];
      } else if k >= |h| + |w| {
        assert items[k] == t[k - |h| - |w|];
      }
    }
    forall p | 1 <= p <= total && current - Delta <= p <= current + Delta
      ensures Link(p) in items || Current(p) in items
    {
      assert items[|h| + (p - lo)] == w[p - lo];
    }
  }

  /** The bar is well spaced: no page is skipped without an ellipsis, and
      no ellipsis stands for nothing. */
  lemma PageLinksWellSpaced(current: int, total: nat)
    requires 1 <= current <= total
    ensures WellSpaced(PageLinks(current, total))
  {
    var lo, hi := Max(1, current - Delta), Min(total, current + Delta);
    var h, w, t := Head(current), Window(lo, hi, current), Tail(current, total);
    var items := h + w + t;
    assert items == PageLinks(current, total);
    var a, b := |h|, |h| + |w|;
    forall k | 0 <= k < |items| - 1 && !items[k].Ellipsis? && !items[k + 1].Ellipsis?
      ensures items[k + 1].page == items[k].page + 1
    {
      if k + 1 == a {
        assert items[k] == Link(1) && items[k + 1] == w[0];
      } else if a < k + 1 < b {
        assert items[k] == w[k - a] && items[k + 1] == w[k + 1 - a];
      } else if k + 1 == b {
        assert items[k] == w[|w| - 1] && items[k + 1] == t[0];
      }
    }
    forall k | 0 <= k < |items| && items[k].Ellipsis?
      ensures 0 < k < |items| - 1
      ensures !items[k - 1].Ellipsis? && !items[k + 1].Ellipsis?
      ensures items[k + 1].page > items[k - 1].page + 1
    {
      if k < a {
        assert k == 1 && items[0] == Link(1) && items[2] == w[0];
      } else if k >= b {
        assert k == b && items[k - 1] == w[|w| - 1] && items[k + 1] == t[1];
      }
    }
  }

  /** The previous and next buttons move one page and stay in range when
      the current page is in range; they are disabled on the first and
      last page. */
  lemma StepButtonsStayInRange(current: int, total: nat)
    requires 1 <= current <= total
    ensures PreviousTarget(current).Some? ==> ChangePage(current, PreviousTarget(current).value, total) == current - 1
    ensures NextTarget(current, total).Some? ==> ChangePage(current, NextTarget(current, total).value, total) == current + 1
    ensures PreviousTarget(current).None? <==> current == 1
    ensures NextTarget(current, total).None? <==> current == total
  {
  }

  /** On a page left over from a longer search, two pages or more past the
      end, the enabled previous button asks for a page that is still out of
      range, so the click is ignored; only the page links lead back. */
  lemma StalePreviousIgnored(current: int, total: nat)
    requires current > total + 1
    ensures PreviousTarget(current).Some?
    ensures ChangePage(current, PreviousTarget(current).value, total) == current
  {
  }
}

=== FILE: ratings.dfy ===
/** How a movie's star ratings travel.  The add and edit forms collect the
    checked star of every rating dimension into `"id:value"` pairs joined by
    commas, which the server stores as they are.  The search route decodes
    the stored string into `ratings_display`, a dictionary from dimension
    name to value; the results table decodes the same stored string again in
    the browser, differently. */
module Ratings {
  import opened Options
  import opened Text
  import opened Seqs
  import Format

  /** A row of `ratings_dimensions` as the browser holds it. */
  datatype Dimension = Dimension(id: nat, name: string)

  /** The checked star of one dimension. */
  datatype Score = Score(dimension: Dimension, stars: nat)

  predicate DistinctIds(dims: seq<Dimension>) {
    forall i, j :: 0 <= i < j < |dims| ==> dims[i].id != dims[j].id
  }

  predicate DistinctNames(dims: seq<Dimension>) {
    forall i, j :: 0 <= i < j < |dims| ==> dims[i].name != dims[j].name
  }

  // ---------------------------------------------------------------------------
  // Collecting (browser)
  // ---------------------------------------------------------------------------

  /** The dimensions that have a checked star, in dimension order, with the
      value of that star.  `checked` maps a dimension id to the value of its
      checked input; a dimension with none checked has no key. */
  function Scores(dims: seq<Dimension>, checked: map<nat, nat>): (r: seq<Score>)
    ensures |r| <= |dims|
    ensures forall k :: 0 <= k < |r| ==>
      r[k].dimension in dims && r[k].dimension.id in checked && r[k].stars == checked[r[k].dimension.id]
    ensures forall i :: 0 <= i < |dims| && dims[i].id in checked ==> Score(dims[i], checked[dims[i].id]) in r
    ensures r == [] <==> forall i :: 0 <= i < |dims| ==> dims[i].id !in checked
  {
    if dims == [] then []
    else
      var rest := Scores(dims[1..], checked);
      assert forall k :: 0 <= k < |rest| ==> rest[k].dimension in dims;
      if dims[0].id in checked then [Score(dims[0], checked[dims[0].id])] + rest else rest
  }

  /** Whether a dimension has a checked star, as the test a filter takes. */
  function HasChecked(checked: map<nat, nat>): Dimension -> bool {
    (d: Dimension) => d.id in checked
  }

  /** The score of a dimension with a checked star, as a function a map
      takes. */
  function ScoreIn(checked: map<nat, nat>): Dimension --> Score {
    (d: Dimension) requires d.id in checked => Score(d, checked[d.id])
  }

  /** The collected scores are those of the dimensions with a checked star,
      one each, in dimension order. */
  lemma {:induction false} ScoresInDimensionOrder(dims: seq<Dimension>, checked: map<nat, nat>)
    ensures Scores(dims, checked) == Map(Filter(dims, HasChecked(checked)), ScoreIn(checked))
  {
    if dims != [] {
      var d, rest := dims[0], dims[1..];
      ScoresInDimensionOrder(rest, checked);
      if d.id in checked {
        var kept := Filter(rest, HasChecked(checked));
        assert ([d] + kept)[1..] == kept;
      }
    }
  }

  /** `` `${dimension.id}:${checkedInput.value}` ``. */
  function Encode(s: Score): (r: string)
    ensures ':' in r && ',' !in r
    ensures forall k :: 0 <= k < |r| ==> IsDigit(r[k]) || r[k] == ':'
  {
    var a := NatToString(s.dimension.id);
    var b := NatToString(s.stars);
    ColonJoinShape(a, b);
    a + ":" + b
  }

  /** Two digit strings joined by a colon hold a colon and otherwise only
      digits. */
  lemma ColonJoinShape(a: string, b: string)
    requires AllDigits(a) && AllDigits(b)
    ensures var r := a + ":" + b;
      && ':' in r && ',' !in r
      && forall k :: 0 <= k < |r| ==> IsDigit(r[k]) || r[k] == ':'
  {
    var r := a + ":" + b;
    assert r[|a|] == ':';
    forall k | 0 <= k < |r|
      ensures IsDigit(r[k]) || r[k] == ':'
    {
      if k < |a| {
        assert r[k] == a[k];
      } else if k > |a| {
        assert r[k] == b[k - |a| - 1];
      }
    }
  }

  function Encodings(scores: seq<Score>): (r: seq<string>)
    ensures |r| == |scores|
    ensures forall k :: 0 <= k < |r| ==> r[k] == Encode(scores[k])
  {
    seq(|scores|, k requires 0 <= k < |scores| => Encode(scores[k]))
  }

  /** `collectRatings`: one pair per dimension with a checked star, joined
      by commas; empty when no star is checked. */
  function CollectRatings(dims: seq<Dimension>, checked: map<nat, nat>): (r: string)
    ensures r == "" <==> forall i :: 0 <= i < |dims| ==> dims[i].id !in checked
    ensures forall k :: 0 <= k < |r| ==> IsDigit(r[k]) || r[k] == ':' || r[k] == ','
  {
    var pieces := Encodings(Scores(dims, checked));
    JoinShape(pieces);
    Join(pieces, ",")
  }

  /** A join of encoded pairs is empty only when there are none, and holds
      only digits, colons and commas. */
  lemma {:induction false} JoinShape(pieces: seq<string>)
    requires forall k :: 0 <= k < |pieces| ==> ':' in pieces[k]
    requires forall k :: 0 <= k < |pieces| ==> forall j :: 0 <= j < |pieces[k]| ==> IsDigit(pieces[k][j]) || pieces[k][j] == ':'
    ensures Join(pieces, ",") == "" <==> pieces == []
    ensures forall j :: 0 <= j < |Join(pieces, ",")| ==>
      IsDigit(Join(pieces, ",")[j]) || Join(pieces, ",")[j] == ':' || Join(pieces, ",")[j] == ','
  {
    if |pieces| == 1 {
      assert ':' in pieces[0];
    } else if |pieces| > 1 {
      JoinShape(pieces[1..]);
      var rest := Join(pieces[1..], ",");
      var s := Join(pieces, ",");
      assert s == pieces[0] + "," + rest;
      forall j | 0 <= j < |s|
        ensures IsDigit(s[j]) || s[j] == ':' || s[j] == ','
      {
        if j < |pieces[0]| {
          assert s[j] == pieces[0][j];
        } else if j > |pieces[0]| {
          assert s[j] == rest[j - |pieces[0]| - 1];
        }
      }
    }
  }

  // ---------------------------------------------------------------------------
  // Decoding on the server (`ratings_display`)
  // ---------------------------------------------------------------------------

  /** `all_dimensions.get(dim_id, '')`. */
  function NameOf(names: map<string, string>, id: string): string {
    if id in names then names[id] else ""
  }

  /** One pair: `pair.split(':')` unpacked into `dim_id, rating`, then
      `int(rating)`.  `None` stands for the `ValueError` raised when the
      pair does not split into exactly two parts or the rating is not an
      integer. */
  function ServerPair(piece: string, names: map<string, string>): (r: Option<(string, int)>)
    ensures r.Some? ==> |Split(piece, ":")| == 2 && PyInt(Split(piece, ":")[1]).Some?
  {
    var parts := Split(piece, ":");
    if |parts| != 2 then None
    else match PyInt(parts[1])
      case None => None
      case Some(v) => Some((NameOf(names, parts[0]), v))
  }

  /** What one comma-separated piece contributes to the dictionary. */
  datatype Outcome =
    | Skipped                         // no `:` in it: the comprehension skips it
    | Fails                           // decoding it raises
    | Sets(key: string, value: int)   // it writes `key: value`

  function PairOutcome(piece: string, names: map<string, string>): Outcome {
    if ':' !in piece then Skipped
    else match ServerPair(piece, names)
      case None => Fails
      case Some(e) => Sets(e.0, e.1)
  }

  function Outcomes(pieces: seq<string>, names: map<string, string>): (r: seq<Outcome>)
    ensures |r| == |pieces|
    ensures forall i :: 0 <= i < |r| ==> r[i] == PairOutcome(pieces[i], names)
  {
    seq(|pieces|, i requires 0 <= i < |pieces| => PairOutcome(pieces[i], names))
  }

  /** The dictionary comprehension run over the outcomes in order: one
      failing piece fails the whole search. */
  function Display(outs: seq<Outcome>): (r: Option<map<string, int>>)
    ensures r.None? <==> exists i :: 0 <= i < |outs| && outs[i].Fails?
  {
    if outs == [] then Some(map[])
    else
      var n := |outs| - 1;
      assert forall i :: 0 <= i < n ==> outs[..n][i] == outs[i];
      match Display(outs[..n])
      case None => None
      case Some(m) =>
        match outs[n]
        case Skipped => Some(m)
        case Fails => None
        case Sets(key, v) => Some(m[key := v])
  }

  /** Outcome `i` writes `key: v`, and no later outcome writes `key`. */
  ghost predicate Wins(outs: seq<Outcome>, i: int, key: string, v: int) {
    && 0 <= i < |outs| && outs[i] == Sets(key, v)
    && forall j :: i < j < |outs| ==> !(outs[j].Sets? && outs[j].key == key)
  }

  /** Every written key is in the dictionary. */
  lemma {:induction false} DisplayHasEveryKey(outs: seq<Outcome>)
    ensures var r := Display(outs);
      r.Some? ==> forall i :: 0 <= i < |outs| && outs[i].Sets? ==> outs[i].key in r.value
  {
    var r := Display(outs);
    if outs != [] && r.Some? {
      var n := |outs| - 1;
      var prefix := outs[..n];
      DisplayHasEveryKey(prefix);
      forall i | 0 <= i < n && outs[i].Sets?
        ensures outs[i].key in r.value
      {
        assert prefix[i] == outs[i];
      }
    }
  }

  /** For each key, the dictionary holds the value of the last piece that
      writes it.  Two unknown dimensions both write the key `''`, so only
      the later one's value survives. */
  lemma {:induction false} DisplayLaterWins(outs: seq<Outcome>)
    ensures var r := Display(outs);
      r.Some? ==> forall key :: key in r.value ==> exists i :: Wins(outs, i, key, r.value[key])
  {
    var r := Display(outs);
    if outs != [] && r.Some? {
      var n := |outs| - 1;
      var prefix := outs[..n];
      DisplayLaterWins(prefix);
      var m := Display(prefix).value;
      forall key | key in r.value
        ensures exists i :: Wins(outs, i, key, r.value[key])
      {
        if outs[n].Sets? && outs[n].key == key {
          assert Wins(outs, n, key, r.value[key]);
        } else {
          var i :| Wins(prefix, i, key, m[key]);
          assert Wins(outs, i, key, r.value[key]) by {
            assert outs[i] == prefix[i];
            forall j | i < j < |outs|
              ensures !(outs[j].Sets? && outs[j].key == key)
            {
              if j < n {
                assert outs[j] == prefix[j];
              }
            }
          }
        }
      }
    }
  }

  /** `ratings_display` for a stored `ratings` column: `{}` when the
      column is empty or NULL, `None` when decoding raises. */
  function RatingsDisplay(stored: Option<string>, names: map<string, string>): (r: Option<map<string, int>>)
    ensures stored.None? || stored == Some("") ==> r == Some(map[])
    ensures r.Some? ==> forall key :: key in r.value ==> key == "" || key in names.Values
  {
    if stored.None? || stored.value == "" then Some(map[])
    else
      var pieces := Split(stored.value, ",");
      DisplayKeysAreNames(pieces, names);
      Display(Outcomes(pieces, names))
  }

  /** Every key of the dictionary is a dimension name or `''`. */
  lemma DisplayKeysAreNames(pieces: seq<string>, names: map<string, string>)
    ensures var r := Display(Outcomes(pieces, names));
      r.Some? ==> forall key :: key in r.value ==> key == "" || key in names.Values
  {
    var outs := Outcomes(pieces, names);
    DisplayLaterWins(outs);
    forall i | 0 <= i < |outs| && outs[i].Sets?
      ensures outs[i].key == "" || outs[i].key in names.Values
    {
      var parts := Split(pieces[i], ":");
      assert outs[i].key == NameOf(names, parts[0]);
    }
  }

  // ---------------------------------------------------------------------------
  // Decoding in the browser (the results table)
  // ---------------------------------------------------------------------------

  /** `const [dimensionId, value] = r.split(':')` and `parseInt(value)`;
      a pair without `:` has no value, which parses to `NaN`. */
  function ClientPair(piece: string): (string, Option<int>) {
    var parts := Split(piece, ":");
    (parts[0], if |parts| >= 2 then JsParseInt(parts[1]) else None)
  }

  function ClientPairs(pieces: seq<string>): (r: seq<(string, Option<int>)>)
    ensures |r| == |pieces|
    ensures forall i :: 0 <= i < |r| ==> r[i] == ClientPair(pieces[i])
  {
    seq(|pieces|, i requires 0 <= i < |pieces| => ClientPair(pieces[i]))
  }

  /** `.filter(r => r.value > 0)`: `NaN` and values up to zero are dropped,
      the rest keep their order. */
  function Positive(read: seq<(string, Option<int>)>): (r: seq<(string, int)>)
    ensures |r| <= |read|
    ensures forall k :: 0 <= k < |r| ==> r[k].1 > 0 && (r[k].0, Some(r[k].1)) in read
    ensures forall i :: 0 <= i < |read| && read[i].1.Some? && read[i].1.value > 0 ==> (read[i].0, read[i].1.value) in r
  {
    if read == [] then []
    else
      var rest := Positive(read[1..]);
      assert forall k :: 0 <= k < |rest| ==> (rest[k].0, Some(rest[k].1)) in read;
      var p := read[0];
      if p.1.Some? && p.1.value > 0 then [(p.0, p.1.value)] + rest else rest
  }

  /** `r.value > 0`, as the test a filter takes. */
  function IsPositive(p: (string, Option<int>)): bool {
    p.1.Some? && p.1.value > 0
  }

  /** A kept pair with its value unwrapped. */
  function Unwrapped(p: (string, Option<int>)): (string, int)
    requires IsPositive(p)
  {
    (p.0, p.1.value)
  }

  /** The pairs `Positive` keeps are the positive ones, one each, in their
      order, repeats included. */
  lemma {:induction false} PositiveKeepsOrder(read: seq<(string, Option<int>)>)
    ensures Positive(read) == Map(Filter(read, IsPositive), Unwrapped)
  {
    if read != [] {
      var p, rest := read[0], read[1..];
      PositiveKeepsOrder(rest);
      if IsPositive(p) {
        var kept := Filter(rest, IsPositive);
        assert ([p] + kept)[1..] == kept;
      }
    }
  }

  /** The `movieRatings` the results table shows for a stored `ratings`
      column: the id text and value of every pair with a positive value. */
  function ClientRatings(stored: Option<string>): (r: seq<(string, int)>)
    ensures stored.None? || stored == Some("") ==> r == []
    ensures forall k :: 0 <= k < |r| ==> r[k].1 > 0
  {
    if stored.None? || stored.value == "" then [] else Positive(ClientPairs(Split(stored.value, ",")))
  }

  // ---------------------------------------------------------------------------
  // Round trips
  // ---------------------------------------------------------------------------

  /** One encoded pair splits back into its two numerals. */
  lemma SplitEncoded(s: Score)
    ensures Split(Encode(s), ":") == [NatToString(s.dimension.id), NatToString(s.stars)]
  {
    var a := NatToString(s.dimension.id);
    var b := NatToString(s.stars);
    assert Join([a, b], ":") == a + ":" + b;
    assert ':' !in a by {
      assert forall k :: 0 <= k < |a| ==> IsDigit(a[k]);
    }
    assert ':' !in b by {
      assert forall k :: 0 <= k < |b| ==> IsDigit(b[k]);
    }
    SplitJoin([a, b], ":");
  }

  /** The server decodes one encoded pair into the dimension's name and the
      star value, provided its table names the dimension's id. */
  lemma ServerReadsEncoded(s: Score, names: map<string, string>)
    requires NatToString(s.dimension.id) in names && names[NatToString(s.dimension.id)] == s.dimension.name
    ensures PairOutcome(Encode(s), names) == Sets(s.dimension.name, s.stars)
  {
    SplitEncoded(s);
    PyIntOfNumeral(s.stars);
  }

  /** The stored string splits back into the encoded pairs. */
  lemma SplitCollected(dims: seq<Dimension>, checked: map<nat, nat>)
    requires Scores(dims, checked) != []
    ensures Split(CollectRatings(dims, checked), ",") == Encodings(Scores(dims, checked))
  {
    var pieces := Encodings(Scores(dims, checked));
    assert Separable(pieces, ",");
    SplitJoin(pieces, ",");
  }

  /** The server and the browser agree on the dimension list. */
  predicate SameDimensions(dims: seq<Dimension>, names: map<string, string>) {
    forall i :: 0 <= i < |dims| ==> NatToString(dims[i].id) in names && names[NatToString(dims[i].id)] == dims[i].name
  }

  /** The outcome the server derives from each collected pair. */
  function ScoreOutcomes(scores: seq<Score>): (r: seq<Outcome>)
    ensures |r| == |scores|
    ensures forall k :: 0 <= k < |r| ==> r[k] == Sets(scores[k].dimension.name, scores[k].stars)
  {
    seq(|scores|, k requires 0 <= k < |scores| => Sets(scores[k].dimension.name, scores[k].stars))
  }

  /** The server reads every collected pair as its dimension's name and
      stars. */
  lemma CollectedOutcomes(dims: seq<Dimension>, checked: map<nat, nat>, names: map<string, string>)
    requires SameDimensions(dims, names) && Scores(dims, checked) != []
    ensures Outcomes(Split(CollectRatings(dims, checked), ","), names) == ScoreOutcomes(Scores(dims, checked))
  {
    var scores := Scores(dims, checked);
    SplitCollected(dims, checked);
    var outs := Outcomes(Encodings(scores), names);
    forall k | 0 <= k < |scores|
      ensures outs[k] == Sets(scores[k].dimension.name, scores[k].stars)
    {
      ServerReadsEncoded(scores[k], names);
    }
  }

  /** The dictionary built from the collected pairs maps each checked
      dimension's name to its stars, and holds nothing else. */
  lemma DisplayOfScores(dims: seq<Dimension>, checked: map<nat, nat>)
    requires DistinctNames(dims)
    ensures
      var r := Display(ScoreOutcomes(Scores(dims, checked)));
      && r.Some?
      && (forall i :: 0 <= i < |dims| && dims[i].id in checked ==>
            dims[i].name in r.value && r.value[dims[i].name] == checked[dims[i].id])
      && (forall key :: key in r.value ==> exists i :: 0 <= i < |dims| && dims[i].id in checked && dims[i].name == key)
  {
    DisplayShowsScores(dims, checked);
    DisplayShowsOnlyScores(dims, checked);
  }

  lemma DisplayShowsScores(dims: seq<Dimension>, checked: map<nat, nat>)
    requires DistinctNames(dims)
    ensures
      var r := Display(ScoreOutcomes(Scores(dims, checked)));
      && r.Some?
      && (forall i :: 0 <= i < |dims| && dims[i].id in checked ==>
            dims[i].name in r.value && r.value[dims[i].name] == checked[dims[i].id])
  {
    var outs := ScoreOutcomes(Scores(dims, checked));
    assert Display(outs).Some? by {
      assert forall i :: 0 <= i < |outs| ==> outs[i].Sets?;
    }
    forall i | 0 <= i < |dims| && dims[i].id in checked
      ensures var r := Display(outs);
        dims[i].name in r.value && r.value[dims[i].name] == checked[dims[i].id]
    {
      ScoreShown(dims, checked, i);
    }
  }

  /** One checked dimension's name shows its stars. */
  lemma ScoreShown(dims: seq<Dimension>, checked: map<nat, nat>, i: int)
    requires DistinctNames(dims) && 0 <= i < |dims| && dims[i].id in checked
    ensures var r := Display(ScoreOutcomes(Scores(dims, checked)));
      r.Some? && dims[i].name in r.value && r.value[dims[i].name] == checked[dims[i].id]
  {
    var scores := Scores(dims, checked);
    var outs := ScoreOutcomes(scores);
    assert Display(outs).Some? by {
      assert forall j :: 0 <= j < |outs| ==> outs[j].Sets?;
    }
    var key, v := dims[i].name, checked[dims[i].id];
    var k :| 0 <= k < |scores| && scores[k] == Score(dims[i], v);
    forall j | 0 <= j < |outs| && outs[j].Sets? && outs[j].key == key
      ensures outs[j].value == v
    {
      var jj :| 0 <= jj < |dims| && dims[jj] == scores[j].dimension;
      assert dims[jj].name == key;
      assert jj == i;
    }
    AgreeingWritersShow(outs, key, v, k);
  }

  /** A key every writer gives the same value shows that value. */
  lemma AgreeingWritersShow(outs: seq<Outcome>, key: string, v: int, k: int)
    requires Display(outs).Some? && 0 <= k < |outs| && outs[k] == Sets(key, v)
    requires forall j :: 0 <= j < |outs| && outs[j].Sets? && outs[j].key == key ==> outs[j].value == v
    ensures key in Display(outs).value && Display(outs).value[key] == v
  {
    var r := Display(outs).value;
    DisplayHasEveryKey(outs);
    DisplayLaterWins(outs);
    var w :| Wins(outs, w, key, r[key]);
  }

  lemma DisplayShowsOnlyScores(dims: seq<Dimension>, checked: map<nat, nat>)
    ensures
      var r := Display(ScoreOutcomes(Scores(dims, checked)));
      r.Some? ==> forall key :: key in r.value ==> exists i :: 0 <= i < |dims| && dims[i].id in checked && dims[i].name == key
  {
    var scores := Scores(dims, checked);
    var outs := ScoreOutcomes(scores);
    DisplayLaterWins(outs);
    var r := Display(outs);
    if r.Some? {
      forall key | key in r.value
        ensures exists i :: 0 <= i < |dims| && dims[i].id in checked && dims[i].name == key
      {
        var w :| Wins(outs, w, key, r.value[key]);
        var j :| 0 <= j < |dims| && dims[j] == scores[w].dimension;
      }
    }
  }

  /** Whatever stars the form collects, the search route decodes them
      without error into exactly the checked dimensions' names, each with
      its star value. */
  lemma ServerRoundTrip(dims: seq<Dimension>, checked: map<nat, nat>, names: map<string, string>)
    requires DistinctNames(dims) && SameDimensions(dims, names)
    ensures
      var r := RatingsDisplay(Some(CollectRatings(dims, checked)), names);
      && r.Some?
      && (forall i :: 0 <= i < |dims| && dims[i].id in checked ==>
            dims[i].name in r.value && r.value[dims[i].name] == checked[dims[i].id])
      && (forall key :: key in r.value ==> exists i :: 0 <= i < |dims| && dims[i].id in checked && dims[i].name == key)
  {
    DisplayOfScores(dims, checked);
    var stored := CollectRatings(dims, checked);
    var outs := ScoreOutcomes(Scores(dims, checked));
    if Scores(dims, checked) == [] {
      assert stored == "";
      assert outs == [];
    } else {
      assert stored != "";
      CollectedOutcomes(dims, checked, names);
      assert RatingsDisplay(Some(stored), names) == Display(Outcomes(Split(stored, ","), names));
    }
    assert RatingsDisplay(Some(stored), names) == Display(outs);
  }

  /** The results table shows every collected star, as the dimension's id
      text and its value, in dimension order. */
  lemma ClientRoundTrip(dims: seq<Dimension>, checked: map<nat, nat>)
    requires forall id :: id in checked ==> 1 <= checked[id] <= Format.MaxStars
    ensures ClientRatings(Some(CollectRatings(dims, checked))) == Shown(Scores(dims, checked))
  {
    var scores := Scores(dims, checked);
    var stored := CollectRatings(dims, checked);
    if scores == [] {
      assert stored == "";
    } else {
      assert stored != "";
      SplitCollected(dims, checked);
      assert ClientRatings(Some(stored)) == Positive(ClientPairs(Encodings(scores)));
      forall k | 0 <= k < |scores|
        ensures scores[k].stars > 0
      {
        assert scores[k].dimension.id in checked;
      }
      ClientReadsEncodings(scores);
    }
  }

  /** Every star value the results table reads back from a saved form
      renders: the star inputs carry the values 1 to 5, and `renderStars`
      accepts exactly 0 to 5. */
  lemma CollectedStarsRender(dims: seq<Dimension>, checked: map<nat, nat>)
    requires forall id :: id in checked ==> 1 <= checked[id] <= Format.MaxStars
    ensures var shown := ClientRatings(Some(CollectRatings(dims, checked)));
      forall k :: 0 <= k < |shown| ==> Format.RenderStars(shown[k].1).Some?
  {
    ClientRoundTrip(dims, checked);
    var scores := Scores(dims, checked);
    forall k | 0 <= k < |scores|
      ensures 1 <= scores[k].stars <= Format.MaxStars
    {
      assert scores[k].dimension.id in checked;
    }
  }

  /** What the results table should show for some scores: the id text and
      the stars of each, in order. */
  function Shown(scores: seq<Score>): (r: seq<(string, int)>)
    ensures |r| == |scores|
    ensures forall k :: 0 <= k < |r| ==> r[k] == (NatToString(scores[k].dimension.id), scores[k].stars as int)
  {
    seq(|scores|, k requires 0 <= k < |scores| => (NatToString(scores[k].dimension.id), scores[k].stars as int))
  }

  /** The browser reads one encoded pair back. */
  lemma ClientReadsEncoded(s: Score)
    ensures ClientPair(Encode(s)) == (NatToString(s.dimension.id), Some(s.stars as int))
  {
    SplitEncoded(s);
    JsParseIntOfNumeral(s.stars);
  }

  /** The browser reads every encoded pair with a positive star value. */
  lemma ClientReadsEncodings(scores: seq<Score>)
    requires forall k :: 0 <= k < |scores| ==> scores[k].stars > 0
    ensures Positive(ClientPairs(Encodings(scores))) == Shown(scores)
  {
    var read := ClientPairs(Encodings(scores));
    forall k | 0 <= k < |scores|
      ensures read[k] == (Shown(scores)[k].0, Some(Shown(scores)[k].1))
    {
      ClientReadsEncoded(scores[k]);
    }
    PositiveKeepsAll(read, Shown(scores));
  }

  /** When every value read is positive, nothing is filtered out. */
  lemma {:induction false} PositiveKeepsAll(read: seq<(string, Option<int>)>, shown: seq<(string, int)>)
    requires |read| == |shown|
    requires forall k :: 0 <= k < |read| ==> shown[k].1 > 0 && read[k] == (shown[k].0, Some(shown[k].1))
    ensures Positive(read) == shown
  {
    if read != [] {
      PositiveKeepsAll(read[1..], shown[1..]);
    }
  }

  /** The two decoders disagree about a zero rating, which no form writes
      but the column can hold: the search route reports it, the results
      table hides it. */
  lemma DecodersDisagreeOnZero(d: Dimension, names: map<string, string>)
    requires NatToString(d.id) in names && names[NatToString(d.id)] == d.name
    ensures var stored := Encode(Score(d, 0));
      && RatingsDisplay(Some(stored), names) == Some(map[d.name := 0])
      && ClientRatings(Some(stored)) == []
  {
    var stored := Encode(Score(d, 0));
    SplitWithout(stored, ',');
    ServerShowsZero(d, names);
    ClientReadsEncoded(Score(d, 0));
  }

  /** The search route reports a stored zero rating under its dimension's
      name. */
  lemma ServerShowsZero(d: Dimension, names: map<string, string>)
    requires NatToString(d.id) in names && names[NatToString(d.id)] == d.name
    ensures RatingsDisplay(Some(Encode(Score(d, 0))), names) == Some(map[d.name := 0])
  {
    var stored := Encode(Score(d, 0));
    SplitWithout(stored, ',');
    ServerReadsEncoded(Score(d, 0), names);
    assert Outcomes([stored], names) == [Sets(d.name, 0)];
    assert Display([Sets(d.name, 0)]) == Some(map[d.name := 0]) by {
      assert [Sets(d.name, 0)][..0] == [];
    }
  }

  /** A pair with a second colon fails the whole search on the server,
      while the browser reads its first two fields and ignores the rest. */
  lemma DecodersDisagreeOnExtraColon(id: nat, stars: nat, extra: nat, names: map<string, string>)
    ensures var piece := NatToString(id) + ":" + NatToString(stars) + ":" + NatToString(extra);
      && PairOutcome(piece, names) == Fails
      && ClientPair(piece) == (NatToString(id), Some(stars as int))
  {
    var a, b, c := NatToString(id), NatToString(stars), NatToString(extra);
    var piece := a + ":" + b + ":" + c;
    SplitThreeNumerals(a, b, c);
    assert piece[|a|] == ':';
    ServerFailsOnThreeFields(piece, names);
    JsParseIntOfNumeral(stars);
    ClientReadsFirstTwo(piece, a, b);
  }

  /** A piece with a colon that does not split in two fails on the server. */
  lemma ServerFailsOnThreeFields(piece: string, names: map<string, string>)
    requires ':' in piece && |Split(piece, ":")| == 3
    ensures PairOutcome(piece, names) == Fails
  {
  }

  /** The browser reads the first two fields of a piece. */
  lemma ClientReadsFirstTwo(piece: string, a: string, b: string)
    requires |Split(piece, ":")| >= 2 && Split(piece, ":")[0] == a && Split(piece, ":")[1] == b
    ensures ClientPair(piece) == (a, JsParseInt(b))
  {
  }

  /** Three numerals joined by colons split back into three parts. */
  lemma SplitThreeNumerals(a: string, b: string, c: string)
    requires AllDigits(a) && AllDigits(b) && AllDigits(c)
    ensures Split(a + ":" + b + ":" + c, ":") == [a, b, c]
  {
    assert Join([a, b, c], ":") == a + ":" + b + ":" + c by {
      assert [a, b, c][1..] == [b, c];
      assert Join([b, c], ":") == b + ":" + c;
    }
    assert Separable([a, b, c], ":") by {
      forall k | 0 <= k < 3
        ensures ':' !in [a, b, c][k]
      {
        var x := [a, b, c][k];
        assert forall j :: 0 <= j < |x| ==> IsDigit(x[j]);
      }
    }
    SplitJoin([a, b, c], ":");
  }
}

=== FILE: search.dfy ===
/** The search page's filtering in the browser.  The server answers a
    search with every movie whose title or review matches; the browser then
    keeps those carrying every selected tag and, when a minimum rating is
    chosen, those rated at least that much on the chosen dimension (or on
    every dimension when none is chosen). */
module Search {
  import opened Options
  import opened Text
  import opened Seqs
  import Tags
  import Ratings

  /** What the filter reads of a movie the search route returns. */
  datatype Movie = Movie(title: string, tagNames: string, ratingsDisplay: Option<map<string, int>>)

  /** The filter controls: the selected tag buttons' texts, the dimension
      select's value (`""` for all dimensions) and the minimum-rating
      select's value (`""` for no minimum). */
  datatype Criteria = Criteria(selectedTags: seq<string>, ratingDimension: string, minRating: string)

  /** `movie.tag_names.split(', ').includes(tag)`. */
  predicate CarriesTag(m: Movie, tag: string) {
    tag in Split(m.tagNames, ", ")
  }

  /** `selectedTags.every(tag => ...)`. */
  predicate HasTags(m: Movie, selected: seq<string>) {
    forall k :: 0 <= k < |selected| ==> CarriesTag(m, selected[k])
  }

  /** The rating test for a parsed minimum; `None` is `NaN`, against which
      every comparison is false. */
  predicate MeetsMinimum(m: Movie, dimension: string, minimum: Option<int>) {
    var ratings := m.ratingsDisplay.GetOr(map[]);
    && minimum.Some?
    && if dimension != "" then dimension in ratings && ratings[dimension] >= minimum.value
       else |ratings| > 0 && forall key :: key in ratings ==> ratings[key] >= minimum.value
  }

  /** A movie passes both filters; a filter whose control is empty passes
      every movie. */
  predicate Matches(m: Movie, c: Criteria) {
    && (|c.selectedTags| > 0 ==> HasTags(m, c.selectedTags))
    && (c.minRating != "" ==> MeetsMinimum(m, c.ratingDimension, JsParseInt(c.minRating)))
  }

  /** The two filters of `searchMovies`, applied one after the other. */
  function FilterResults(movies: seq<Movie>, c: Criteria): (r: seq<Movie>)
    ensures |r| <= |movies|
    ensures forall i :: 0 <= i < |r| ==> r[i] in movies && Matches(r[i], c)
    ensures forall i :: 0 <= i < |movies| && Matches(movies[i], c) ==> movies[i] in r
  {
    var byTags := if |c.selectedTags| > 0 then Filter(movies, m => HasTags(m, c.selectedTags)) else movies;
    if c.minRating != "" then
      var minimum := JsParseInt(c.minRating);
      Filter(byTags, m => MeetsMinimum(m, c.ratingDimension, minimum))
    else byTags
  }

  // ---------------------------------------------------------------------------
  // Properties
  // ---------------------------------------------------------------------------

  /** The two filters together are one order-preserving filter by
      `Matches`. */
  lemma FilterResultsKeepsOrder(movies: seq<Movie>, c: Criteria)
    ensures FilterResults(movies, c) == Filter(movies, m => Matches(m, c))
  {
    var sel := c.selectedTags;
    var minimum := JsParseInt(c.minRating);
    var tagTest := m => HasTags(m, sel);
    var ratingTest := m => MeetsMinimum(m, c.ratingDimension, minimum);
    if |sel| > 0 && c.minRating != "" {
      FilterFilter(movies, tagTest, ratingTest, m => Matches(m, c));
    } else if |sel| > 0 {
      FilterSame(movies, tagTest, m => Matches(m, c));
    } else if c.minRating != "" {
      FilterSame(movies, ratingTest, m => Matches(m, c));
    } else {
      FilterAll(movies, m => Matches(m, c));
    }
  }

  /** With no tag selected and no minimum, every movie is shown. */
  lemma NoCriteriaKeepsAll(movies: seq<Movie>, dimension: string)
    ensures FilterResults(movies, Criteria([], dimension, "")) == movies
  {
  }

  /** A minimum that does not parse as a number hides every movie. */
  lemma UnreadableMinimumHidesAll(movies: seq<Movie>, c: Criteria)
    requires c.minRating != "" && JsParseInt(c.minRating).None?
    ensures FilterResults(movies, c) == []
  {
    var r := FilterResults(movies, c);
    assert r != [] ==> Matches(r[0], c);
  }

  /** Filtering the shown movies again with the same controls changes
      nothing. */
  lemma FilterResultsIdempotent(movies: seq<Movie>, c: Criteria)
    ensures FilterResults(FilterResults(movies, c), c) == FilterResults(movies, c)
  {
    var r := FilterResults(movies, c);
    FilterResultsKeepsOrder(r, c);
    FilterAll(r, m => Matches(m, c));
  }

  /** Selecting one more tag, the first one included, shows a subsequence
      of what was shown: the shown movies that also carry the new tag. */
  lemma MoreTagsNarrow(movies: seq<Movie>, c: Criteria, tag: string)
    ensures
      var c2 := c.(selectedTags := c.selectedTags + [tag]);
      FilterResults(movies, c2) == Filter(FilterResults(movies, c), (m: Movie) => CarriesTag(m, tag))
  {
    var c2 := c.(selectedTags := c.selectedTags + [tag]);
    var extra := (m: Movie) => CarriesTag(m, tag);
    FilterResultsKeepsOrder(movies, c);
    FilterResultsKeepsOrder(movies, c2);
    forall m: Movie
      ensures Matches(m, c2) == (Matches(m, c) && extra(m))
    {
      var sel := c.selectedTags;
      assert HasTags(m, sel + [tag]) == (HasTags(m, sel) && CarriesTag(m, tag)) by {
        if HasTags(m, sel) && CarriesTag(m, tag) {
          forall k | 0 <= k < |sel + [tag]|
            ensures CarriesTag(m, (sel + [tag])[k])
          {
            if k < |sel| {
              assert (sel + [tag])[k] == sel[k];
            }
          }
        }
        if HasTags(m, sel + [tag]) {
          assert (sel + [tag])[|sel|] == tag;
          forall k | 0 <= k < |sel|
            ensures CarriesTag(m, sel[k])
          {
            assert (sel + [tag])[k] == sel[k];
          }
        }
      }
    }
    FilterFilter(movies, m => Matches(m, c), extra, m => Matches(m, c2));
  }

  // ---------------------------------------------------------------------------
  // From the edit form to the result list
  // ---------------------------------------------------------------------------

  /** The movie the search route returns for one saved with the tag names
      `names` and the checked stars `checked`. */
  function Saved(title: string, names: seq<string>, rows: seq<Tags.Tag>,
                 dims: seq<Ratings.Dimension>, checked: map<nat, nat>,
                 dimNames: map<string, string>): (m: Movie)
    ensures m.title == title
  {
    Movie(title,
          Tags.TagNames(Some(Tags.StoredTags(Join(names, ","), rows)), Tags.TagTable(rows)),
          Ratings.RatingsDisplay(Some(Ratings.CollectRatings(dims, checked)), dimNames))
  }

  /** A saved movie passes the tag filter exactly when every selected tag
      was one of its names. */
  lemma SavedTagsFilter(names: seq<string>, rows: seq<Tags.Tag>, selected: seq<string>, m: Movie)
    requires Tags.DistinctIds(rows)
    requires forall k :: 0 <= k < |names| ==> Tags.Sendable(names[k], rows)
    requires forall k :: 0 <= k < |selected| ==> selected[k] != ""
    requires m.tagNames == Tags.TagNames(Some(Tags.StoredTags(Join(names, ","), rows)), Tags.TagTable(rows))
    ensures HasTags(m, selected) <==> forall k :: 0 <= k < |selected| ==> selected[k] in names
  {
    Tags.TagsRoundTrip(names, rows);
    if names == [] {
      assert Split("", ", ") == [""] by {
        SplitWithout("", ',');
        assert Join([], ", ") == "";
        assert [',', ' '] == ", ";
        assert IndexOf("", ", ").None?;
      }
    } else {
      assert Separable(names, ", ");
      SplitJoin(names, ", ");
    }
  }

  /** A saved movie passes the rating filter on a named dimension exactly
      when that dimension got at least the minimum. */
  lemma SavedRatingFilter(dims: seq<Ratings.Dimension>, checked: map<nat, nat>, ratings: map<string, int>,
                          d: int, minimum: nat, m: Movie)
    requires Ratings.DistinctNames(dims) && 0 <= d < |dims| && dims[d].name != ""
    requires m.ratingsDisplay == Some(ratings)
    requires forall i :: 0 <= i < |dims| && dims[i].id in checked ==>
      dims[i].name in ratings && ratings[dims[i].name] == checked[dims[i].id]
    requires forall key :: key in ratings ==> exists i :: 0 <= i < |dims| && dims[i].id in checked && dims[i].name == key
    ensures MeetsMinimum(m, dims[d].name, Some(minimum))
      <==> dims[d].id in checked && checked[dims[d].id] >= minimum
  {
    if dims[d].name in ratings {
      var i :| 0 <= i < |dims| && dims[i].id in checked && dims[i].name == dims[d].name;
      assert i == d;
    }
  }

  /** End to end: a movie saved from the form is found by a search on a
      dimension and a minimum exactly when it carries every selected tag
      and that dimension got at least the minimum. */
  lemma SavedMovieFound(title: string, names: seq<string>, rows: seq<Tags.Tag>,
                        dims: seq<Ratings.Dimension>, checked: map<nat, nat>, dimNames: map<string, string>,
                        selected: seq<string>, d: int, minimum: nat)
    requires Tags.DistinctIds(rows)
    requires forall k :: 0 <= k < |names| ==> Tags.Sendable(names[k], rows)
    requires forall k :: 0 <= k < |selected| ==> selected[k] != ""
    requires Ratings.DistinctNames(dims) && Ratings.SameDimensions(dims, dimNames)
    requires 0 <= d < |dims| && dims[d].name != ""
    ensures
      var m := Saved(title, names, rows, dims, checked, dimNames);
      (Matches(m, Criteria(selected, dims[d].name, NatToString(minimum)))
       <==> (forall k :: 0 <= k < |selected| ==> selected[k] in names)
            && dims[d].id in checked && checked[dims[d].id] >= minimum)
  {
    var m := Saved(title, names, rows, dims, checked, dimNames);
    SavedTagsFilter(names, rows, selected, m);
    Ratings.ServerRoundTrip(dims, checked, dimNames);
    SavedRatingFilter(dims, checked, m.ratingsDisplay.value, d, minimum, m);
    JsParseIntOfNumeral(minimum);
    assert NatToString(minimum) != "";
  }
}

=== FILE: search_query.dfy ===
/** The request the search page sends and the statement the search route
    builds from it.  The browser trims the title box and sends only the
    controls that have a value; the server strips the title again and
    matches it against titles and reviews.  The route reads the rating
    controls but never uses them, and never reads the tags: those filters
    run in the browser afterwards. */
module SearchQuery {
  import opened Text
  import Sql

  /** The query string, as `request.args` sees it. */
  type Args = map<string, string>

  /** `request.args.get(key, '')`. */
  function Get(args: Args, key: string): string {
    if key in args then args[key] else ""
  }

  /** The `URLSearchParams` `searchMovies` builds from the title box, the
      dimension and minimum selects, and the selected tag buttons. */
  function ClientArgs(titleInput: string, dimension: string, minRating: string, tags: seq<string>): (r: Args)
    ensures "title" in r <==> !IsBlank(Js, titleInput)
    ensures "title" in r ==> r["title"] == Trim(Js, titleInput)
    ensures "rating_dimension" in r <==> dimension != ""
    ensures "min_rating" in r <==> minRating != ""
    ensures "tags" in r <==> |tags| > 0
  {
    var a := if Trim(Js, titleInput) != "" then map["title" := Trim(Js, titleInput)] else map[];
    var b := if dimension != "" then a["rating_dimension" := dimension] else a;
    var c := if minRating != "" then b["min_rating" := minRating] else b;
    if |tags| > 0 then c["tags" := Join(tags, ",")] else c
  }

  /** A statement and the parameters the driver fills its markers with. */
  datatype Statement = Statement(pieces: seq<Sql.Piece>, params: seq<string>) {
    function Text(): string { Sql.Render(pieces) }
  }

  const Select: Sql.Piece := Sql.Plain("SELECT * FROM movies")
  const Order: Sql.Piece := Sql.Plain(" ORDER BY added_date DESC")

  /** `SELECT * FROM movies WHERE (title LIKE %s OR review LIKE %s) ORDER BY
      added_date DESC`. */
  const Filtered: seq<Sql.Piece> :=
    [Select, Sql.Plain(" WHERE (title LIKE "), Sql.Mark, Sql.Plain(" OR review LIKE "), Sql.Mark, Sql.Plain(")"), Order]

  /** `SELECT * FROM movies ORDER BY added_date DESC`. */
  const Unfiltered: seq<Sql.Piece> := [Select, Order]

  /** The search route's statement: every movie, newest first, narrowed to
      titles or reviews containing the stripped search term when there is
      one. */
  function SearchStatement(args: Args): (r: Statement)
    ensures r.params == [] <==> IsBlank(Py, Get(args, "title"))
    ensures r.params != [] ==>
      var pattern := "%" + Trim(Py, Get(args, "title")) + "%";
      r.params == [pattern, pattern]
  {
    var term := Trim(Py, Get(args, "title"));
    if term != "" then
      var pattern := "%" + term + "%";
      Statement(Filtered, [pattern, pattern])
    else Statement(Unfiltered, [])
  }

  // ---------------------------------------------------------------------------
  // Properties
  // ---------------------------------------------------------------------------

  /** The statement holds exactly as many markers as it has parameters. */
  lemma StatementMarkersMatch(args: Args)
    ensures Sql.Markers(SearchStatement(args).Text()) == |SearchStatement(args).params|
  {
    var s := SearchStatement(args);
    if s.params == [] {
      UnfilteredPieces();
    } else {
      FilteredPieces();
    }
    Sql.RenderedMarkers(s.pieces);
  }

  lemma FilteredPieces()
    ensures Sql.PlainIsPlain(Filtered) && Sql.MarkCount(Filtered) == 2
  {
    PlainTexts();
    FilteredMarks();
  }

  lemma FilteredMarks()
    ensures Sql.MarkCount(Filtered) == 2
  {
    var p := Filtered;
    Sql.MarkCountOne(p[0]);
    Sql.MarkCountOne(p[1]);
    Sql.MarkCountOne(p[2]);
    Sql.MarkCountOne(p[3]);
    Sql.MarkCountOne(p[4]);
    Sql.MarkCountOne(p[5]);
    Sql.MarkCountOne(p[6]);
    Sql.MarkCountAppend([p[5]], [p[6]]);
    Sql.MarkCountAppend([p[4]], [p[5], p[6]]);
    Sql.MarkCountAppend([p[3]], [p[4], p[5], p[6]]);
    Sql.MarkCountAppend([p[2]], [p[3], p[4], p[5], p[6]]);
    Sql.MarkCountAppend([p[1]], [p[2], p[3], p[4], p[5], p[6]]);
    Sql.MarkCountAppend([p[0]], p[1..]);
    assert p == [p[0]] + p[1..];
  }

  lemma UnfilteredPieces()
    ensures Sql.PlainIsPlain(Unfiltered) && Sql.MarkCount(Unfiltered) == 0
  {
    PlainTexts();
    Sql.MarkCountOne(Select);
    Sql.MarkCountOne(Order);
    Sql.MarkCountAppend([Select], [Order]);
    assert Unfiltered == [Select] + [Order];
  }

  /** None of the statements' plain texts has a `%`. */
  lemma PlainTexts()
    ensures '%' !in Select.text && '%' !in Order.text
    ensures '%' !in Filtered[1].text && '%' !in Filtered[3].text && '%' !in Filtered[5].text
  {
    NoPercent("SELECT * FROM movies");
    NoPercent(" ORDER BY added_date DESC");
    NoPercent(" WHERE (title LIKE ");
    NoPercent(" OR review LIKE ");
  }

  lemma NoPercent(s: string)
    requires forall k :: 0 <= k < |s| ==> s[k] != '%'
    ensures '%' !in s
  {
  }

  /** The term the database matches is the title box's text as the browser
      trimmed it, stripped again by the server.  The strip removes nothing
      more unless the trimmed text starts or ends with a character only
      Python counts as whitespace; in particular a blank box searches
      everything. */
  lemma SearchTermFromTitleBox(titleInput: string, dimension: string, minRating: string, tags: seq<string>)
    ensures var s := SearchStatement(ClientArgs(titleInput, dimension, minRating, tags));
      && (s.params == [] <==> IsBlank(Py, Trim(Js, titleInput)))
      && (s.params != [] ==> s.params[0] == "%" + Trim(Py, Trim(Js, titleInput)) + "%")
      && (IsBlank(Js, titleInput) ==> s.params == [])
      && (IsTrimmed(Py, Trim(Js, titleInput)) ==>
            && (s.params == [] <==> IsBlank(Js, titleInput))
            && (s.params != [] ==> s.params[0] == "%" + Trim(Js, titleInput) + "%"))
  {
    var args := ClientArgs(titleInput, dimension, minRating, tags);
    assert Get(args, "title") == Trim(Js, titleInput);
    StripAfterTrim(titleInput);
  }

  /** A title box holding only an information separator: the browser, whose
      `trim` keeps it, sends it as the title, and the server, whose `strip`
      removes it, searches every movie. */
  lemma SeparatorTitleSearchesAll()
    ensures "title" in ClientArgs("\U{1F}", "", "", [])
    ensures SearchStatement(ClientArgs("\U{1F}", "", "", [])).params == []
  {
    WhitespaceDiffers();
    assert !IsBlank(Js, "\U{1F}");
    assert Get(ClientArgs("\U{1F}", "", "", []), "title") == "\U{1F}";
  }

  /** The rating and tag controls do not change the statement: the database
      answers the same movies whatever they are set to. */
  lemma FiltersNotInStatement(titleInput: string, dimension: string, minRating: string, tags: seq<string>)
    ensures SearchStatement(ClientArgs(titleInput, dimension, minRating, tags))
         == SearchStatement(ClientArgs(titleInput, "", "", []))
  {
    var a1 := ClientArgs(titleInput, dimension, minRating, tags);
    var a2 := ClientArgs(titleInput, "", "", []);
    assert Get(a1, "title") == Get(a2, "title");
  }
}

=== FILE: seqs.dfy ===
/** The array operations the browser script uses on lists: `filter`,
    `slice`, `splice` with a delete count of one, and `includes`. */
module Seqs {

  /** `s.filter(p)`: the elements of `s` that satisfy `p`, in their order. */
  function Filter<T>(s: seq<T>, p: T -> bool): (r: seq<T>)
    ensures |r| <= |s|
    ensures forall i :: 0 <= i < |r| ==> r[i] in s && p(r[i])
    ensures forall i :: 0 <= i < |s| && p(s[i]) ==> s[i] in r
  {
    if s == [] then []
    else if p(s[0]) then [s[0]] + Filter(s[1..], p)
    else Filter(s[1..], p)
  }

  /** Filtering distributes over concatenation, so the kept elements keep
      their relative order. */
  lemma {:induction false} FilterAppend<T>(a: seq<T>, b: seq<T>, p: T -> bool)
    ensures Filter(a + b, p) == Filter(a, p) + Filter(b, p)
  {
    if a == [] {
      assert a + b == b;
    } else {
      assert (a + b)[1..] == a[1..] + b;
      FilterAppend(a[1..], b, p);
    }
  }

  /** A filter that keeps everything is the identity. */
  lemma {:induction false} FilterAll<T>(s: seq<T>, p: T -> bool)
    requires forall i :: 0 <= i < |s| ==> p(s[i])
    ensures Filter(s, p) == s
  {
    if s != [] {
      FilterAll(s[1..], p);
    }
  }

  /** A filter that keeps nothing gives the empty sequence. */
  lemma {:induction false} FilterNone<T>(s: seq<T>, p: T -> bool)
    requires forall i :: 0 <= i < |s| ==> !p(s[i])
    ensures Filter(s, p) == []
  {
    if s != [] {
      FilterNone(s[1..], p);
    }
  }

  /** Filtering by `p` and then by `q` is filtering by a predicate `both`
      that holds exactly where both do. */
  lemma {:induction false} FilterFilter<T>(s: seq<T>, p: T -> bool, q: T -> bool, both: T -> bool)
    requires forall x :: both(x) == (p(x) && q(x))
    ensures Filter(Filter(s, p), q) == Filter(s, both)
  {
    if s != [] {
      FilterFilter(s[1..], p, q, both);
    }
  }

  /** Filters whose predicates agree everywhere keep the same elements. */
  lemma {:induction false} FilterSame<T>(s: seq<T>, p: T -> bool, q: T -> bool)
    requires forall x :: p(x) == q(x)
    ensures Filter(s, p) == Filter(s, q)
  {
    if s != [] {
      FilterSame(s[1..], p, q);
    }
  }

  /** Filters whose predicates agree on every element of `s` keep the same
      elements of it. */
  lemma {:induction false} FilterAgree<T>(s: seq<T>, p: T -> bool, q: T -> bool)
    requires forall i :: 0 <= i < |s| ==> p(s[i]) == q(s[i])
    ensures Filter(s, p) == Filter(s, q)
  {
    if s != [] {
      FilterAgree(s[1..], p, q);
    }
  }

  /** `s` has no element twice. */
  predicate NoDuplicates<T(==)>(s: seq<T>) {
    forall i, j :: 0 <= i < j < |s| ==> s[i] != s[j]
  }

  /** Filtering never introduces a duplicate. */
  lemma {:induction false} FilterNoDuplicates<T>(s: seq<T>, p: T -> bool)
    requires NoDuplicates(s)
    ensures NoDuplicates(Filter(s, p))
  {
    if s != [] {
      FilterNoDuplicates(s[1..], p);
      assert s[0] !in s[1..];
    }
  }

  /** A sequence without repeats has as many elements as it has distinct
      elements. */
  lemma {:induction false} DistinctCount<T>(s: seq<T>)
    requires NoDuplicates(s)
    ensures |set x | x in s| == |s|
  {
    if s != [] {
      DistinctCount(s[1..]);
      assert s[0] !in s[1..];
      assert (set x | x in s) == {s[0]} + (set x | x in s[1..]);
    }
  }

  /** `s.map(f)`, for an `f` defined on every element. */
  function Map<T, U>(s: seq<T>, f: T --> U): (r: seq<U>)
    requires forall i :: 0 <= i < |s| ==> f.requires(s[i])
    ensures |r| == |s|
    ensures forall i :: 0 <= i < |s| ==> r[i] == f(s[i])
  {
    if s == [] then [] else [f(s[0])] + Map(s[1..], f)
  }

  /** `Math.min`, `Math.max` on integers. */
  function Min(a: int, b: int): int { if a <= b then a else b }
  function Max(a: int, b: int): int { if a >= b then a else b }

  /** Where `slice` and `splice` start for a requested `start`: a negative
      start counts back from the end, and the result is clamped to
      `[0, length]`. */
  function RelativeIndex(start: int, length: nat): (k: nat)
    ensures k <= length
    ensures 0 <= start <= length ==> k == start
    ensures start < 0 && length + start >= 0 ==> k == length + start
  {
    if start < 0 then Max(length + start, 0) else Min(start, length)
  }

  /** `s.slice(start, end)`. */
  function Slice<T>(s: seq<T>, start: int, end: int): (r: seq<T>)
    ensures 0 <= start <= end <= |s| ==> r == s[start..end]
    ensures |r| <= |s|
    ensures start >= |s| ==> r == []
  {
    var from := RelativeIndex(start, |s|);
    var to := RelativeIndex(end, |s|);
    if from < to then s[from..to] else []
  }

  /** `s.splice(start, 1)`, returning the array it leaves behind. */
  function SpliceOne<T>(s: seq<T>, start: int): (r: seq<T>)
    ensures 0 <= start < |s| ==> r == s[..start] + s[start + 1..]
    ensures start < 0 && |s| + start >= 0 ==> r == s[..|s| + start] + s[|s| + start + 1..]
    ensures start >= |s| ==> r == s
    ensures |r| == if s == [] || start >= |s| then |s| else |s| - 1
  {
    var k := RelativeIndex(start, |s|);
    if k < |s| then s[..k] + s[k + 1..] else s
  }
}

=== FILE: sql.dfy ===
/** The statements the server hands to the MySQL driver.  The driver fills
    each `%s` marker with one parameter, in order, so a statement is usable
    only when it holds exactly as many markers as it is given parameters. */
module Sql {
  const Marker: string := "%s"

  /** The number of `%s` markers in `s`. */
  function Markers(s: string): nat
    ensures Markers(s) <= |s|
  {
    if |s| < 2 then 0
    else (if s[0] == '%' && s[1] == 's' then 1 else 0) + Markers(s[1..])
  }

  /** Text without a `%` holds no marker. */
  lemma {:induction false} NoPercentNoMarkers(s: string)
    requires '%' !in s
    ensures Markers(s) == 0
  {
    if |s| >= 2 {
      assert s[1..][0] == s[1];
      NoPercentNoMarkers(s[1..]);
    }
  }

  lemma MarkerIsOne()
    ensures Markers(Marker) == 1
  {
    assert Marker[1..] == "s";
  }

  /** Markers add up over a concatenation, unless a `%` ending the first
      part makes one with an `s` opening the second. */
  lemma {:induction false} MarkersAppend(a: string, b: string)
    requires a == [] || a[|a| - 1] != '%'
    ensures Markers(a + b) == Markers(a) + Markers(b)
  {
    if a == [] {
      assert a + b == b;
    } else if |a| == 1 {
      assert (a + b)[1..] == b;
      if |b| >= 1 {
        assert (a + b)[0] == a[0] && (a + b)[1] == b[0];
      }
    } else {
      assert (a + b)[1..] == a[1..] + b;
      MarkersAppend(a[1..], b);
    }
  }

  /** Text without a `%` in front adds no marker. */
  lemma MarkersAfterPlain(plain: string, rest: string)
    requires '%' !in plain
    ensures Markers(plain + rest) == Markers(rest)
  {
    NoPercentNoMarkers(plain);
    if plain != [] {
      assert plain[|plain| - 1] in plain;
    }
    MarkersAppend(plain, rest);
  }

  /** A marker in front adds one. */
  lemma MarkersAfterMarker(rest: string)
    ensures Markers(Marker + rest) == 1 + Markers(rest)
  {
    MarkerIsOne();
    MarkersAppend(Marker, rest);
  }

  /** A statement as written in the source: plain text and markers. */
  datatype Piece = Plain(text: string) | Mark

  function Render(pieces: seq<Piece>): string {
    if pieces == [] then ""
    else (if pieces[0].Mark? then Marker else pieces[0].text) + Render(pieces[1..])
  }

  function MarkCount(pieces: seq<Piece>): nat {
    if pieces == [] then 0 else (if pieces[0].Mark? then 1 else 0) + MarkCount(pieces[1..])
  }

  lemma MarkCountOne(p: Piece)
    ensures MarkCount([p]) == if p.Mark? then 1 else 0
  {
    assert [p][1..] == [];
  }

  lemma {:induction false} MarkCountAppend(a: seq<Piece>, b: seq<Piece>)
    ensures MarkCount(a + b) == MarkCount(a) + MarkCount(b)
  {
    if a == [] {
      assert a + b == b;
    } else {
      assert (a + b)[1..] == a[1..] + b;
      MarkCountAppend(a[1..], b);
    }
  }

  /** No plain piece has a `%` that could start a marker. */
  predicate PlainIsPlain(pieces: seq<Piece>) {
    forall i :: 0 <= i < |pieces| && pieces[i].Plain? ==> '%' !in pieces[i].text
  }

  /** The rendered text holds a marker exactly where a marker piece stands. */
  lemma {:induction false} RenderedMarkers(pieces: seq<Piece>)
    requires PlainIsPlain(pieces)
    ensures Markers(Render(pieces)) == MarkCount(pieces)
  {
    if pieces != [] {
      RenderedMarkers(pieces[1..]);
      if pieces[0].Mark? {
        MarkersAfterMarker(Render(pieces[1..]));
      } else {
        MarkersAfterPlain(pieces[0].text, Render(pieces[1..]));
      }
    }
  }
}

=== FILE: tags.dfy ===
/** How a movie's tags travel through the server.  The add and edit routes
    receive the chosen tag names as one comma-separated string and store the
    matching tag ids, comma-separated; the search route turns the stored ids
    back into names joined by `", "`, which the browser splits again to
    filter on.  The `tags` table is a parameter: a sequence of rows in
    table order. */
module Tags {
  import opened Options
  import opened Text
  import opened Seqs

  datatype Tag = Tag(id: nat, name: string)

  /** The id column is the table's primary key. */
  predicate DistinctIds(rows: seq<Tag>) {
    forall i, j :: 0 <= i < j < |rows| ==> rows[i].id != rows[j].id
  }

  /** `SELECT id FROM tags WHERE name = %s` followed by `fetchone()`: the id
      of the first row with that exact name, if there is one. */
  function IdOf(rows: seq<Tag>, name: string): (r: Option<nat>)
    ensures r.None? <==> forall i :: 0 <= i < |rows| ==> rows[i].name != name
    ensures r.Some? ==> exists i :: 0 <= i < |rows| && rows[i] == Tag(r.value, name)
  {
    if rows == [] then None
    else if rows[0].name == name then Some(rows[0].id)
    else
      var r := IdOf(rows[1..], name);
      assert r.Some? ==> exists i :: 0 <= i < |rows| - 1 && rows[1..][i] == Tag(r.value, name);
      r
  }

  /** A piece of the request's `tags` string that gets stored: it is not
      blank, and once stripped it names a tag. */
  predicate Found(rows: seq<Tag>, piece: string) {
    !IsBlank(Py, piece) && IdOf(rows, Trim(Py, piece)).Some?
  }

  /** `Found` as the test a filter takes. */
  function FoundIn(rows: seq<Tag>): string -> bool {
    p => Found(rows, p)
  }

  /** `str(result[0])` for such a piece. */
  function IdNumeral(rows: seq<Tag>, piece: string): (r: string)
    requires Found(rows, piece)
    ensures exists i :: 0 <= i < |rows| && rows[i].name == Trim(Py, piece) && r == NatToString(rows[i].id)
    ensures |r| >= 1 && AllDigits(r)
  {
    NatToString(IdOf(rows, Trim(Py, piece)).value)
  }

  /** `IdNumeral` as a function a map takes. */
  function IdNumeralIn(rows: seq<Tag>): string --> string {
    p requires Found(rows, p) => IdNumeral(rows, p)
  }

  /** The loop over the comma-separated names: blank pieces are skipped,
      the others are stripped and looked up, and unknown names are dropped
      without a word. */
  function IdNumerals(pieces: seq<string>, rows: seq<Tag>): (r: seq<string>)
    ensures |r| <= |pieces|
    ensures forall k :: 0 <= k < |r| ==> exists i :: 0 <= i < |rows| && r[k] == NatToString(rows[i].id)
    ensures forall k :: 0 <= k < |r| ==> |r[k]| >= 1 && AllDigits(r[k])
  {
    if pieces == [] then []
    else
      var rest := IdNumerals(pieces[1..], rows);
      if Found(rows, pieces[0]) then [IdNumeral(rows, pieces[0])] + rest
      else rest
  }

  /** The `tags` column the add and edit routes store for the request's
      `tags` string. */
  function StoredTags(names: string, rows: seq<Tag>): (r: string)
    ensures forall k :: 0 <= k < |r| ==> IsDigit(r[k]) || r[k] == ','
  {
    var ids := IdNumerals(Split(names, ","), rows);
    JoinOfDigitsIsDigits(ids);
    Join(ids, ",")
  }

  /** `{str(tag['id']): tag['name'] for tag in rows}`: a later row with the
      same id would replace an earlier one. */
  function TagTable(rows: seq<Tag>): (t: map<string, string>)
    ensures forall key :: key in t <==> exists i :: 0 <= i < |rows| && key == NatToString(rows[i].id)
    ensures DistinctIds(rows) ==> forall i :: 0 <= i < |rows| ==> t[NatToString(rows[i].id)] == rows[i].name
  {
    if rows == [] then map[]
    else
      var init, last := rows[..|rows| - 1], rows[|rows| - 1];
      var t := TagTable(init);
      assert rows == init + [last];
      var t2 := t[NatToString(last.id) := last.name];
      TableKeys(t, t2, init, last);
      TableNames(t, t2, init, last);
      t2
  }

  /** Adding a row's entry adds its key. */
  lemma TableKeys(t: map<string, string>, t2: map<string, string>, init: seq<Tag>, last: Tag)
    requires forall key :: key in t <==> exists i :: 0 <= i < |init| && key == NatToString(init[i].id)
    requires t2 == t[NatToString(last.id) := last.name]
    ensures var rows := init + [last];
      forall key :: key in t2 <==> exists i :: 0 <= i < |rows| && key == NatToString(rows[i].id)
  {
    var rows := init + [last];
    forall key | key in t
      ensures exists i :: 0 <= i < |rows| && key == NatToString(rows[i].id)
    {
      var i :| 0 <= i < |init| && key == NatToString(init[i].id);
      assert rows[i] == init[i];
    }
    assert rows[|init|] == last;
    forall key | exists i :: 0 <= i < |rows| && key == NatToString(rows[i].id)
      ensures key in t || key == NatToString(last.id)
    {
      var i :| 0 <= i < |rows| && key == NatToString(rows[i].id);
      if i < |init| {
        assert rows[i] == init[i];
      }
    }
  }

  /** With distinct ids, adding a row's entry keeps the earlier rows'. */
  lemma TableNames(t: map<string, string>, t2: map<string, string>, init: seq<Tag>, last: Tag)
    requires forall key :: key in t <==> exists i :: 0 <= i < |init| && key == NatToString(init[i].id)
    requires DistinctIds(init) ==> forall i :: 0 <= i < |init| ==> t[NatToString(init[i].id)] == init[i].name
    requires t2 == t[NatToString(last.id) := last.name]
    ensures var rows := init + [last];
      DistinctIds(rows) ==> forall i :: 0 <= i < |rows| ==> t2[NatToString(rows[i].id)] == rows[i].name
  {
    var rows := init + [last];
    if DistinctIds(rows) {
      assert DistinctIds(init) by {
        forall i, j | 0 <= i < j < |init|
          ensures init[i].id != init[j].id
        {
          assert rows[i] == init[i] && rows[j] == init[j];
        }
      }
      forall i | 0 <= i < |rows|
        ensures t2[NatToString(rows[i].id)] == rows[i].name
      {
        if i < |init| {
          assert rows[i] == init[i] && rows[|init|] == last;
          NatToStringInjective(init[i].id, last.id);
        }
      }
    }
  }

  /** `all_tags.get(tag_id, '')` for every stored id, in order. */
  function NamesOf(ids: seq<string>, table: map<string, string>): (r: seq<string>)
    ensures |r| == |ids|
    ensures forall k :: 0 <= k < |ids| ==> r[k] == (if ids[k] in table then table[ids[k]] else "")
  {
    if ids == [] then []
    else [if ids[0] in table then table[ids[0]] else ""] + NamesOf(ids[1..], table)
  }

  /** The `tag_names` the search route sends for a stored `tags` column:
      one name per stored id, `''` for an id no tag has, and `''` altogether
      when the column is empty or NULL. */
  function TagNames(stored: Option<string>, table: map<string, string>): (r: string)
    ensures stored.None? || stored == Some("") ==> r == ""
  {
    if stored.None? || stored.value == "" then ""
    else Join(NamesOf(Split(stored.value, ","), table), ", ")
  }

  // ---------------------------------------------------------------------------
  // Properties
  // ---------------------------------------------------------------------------

  /** A join of digit strings has only digits and separators in it. */
  lemma {:induction false} JoinOfDigitsIsDigits(xs: seq<string>)
    requires forall k :: 0 <= k < |xs| ==> AllDigits(xs[k])
    ensures forall k :: 0 <= k < |Join(xs, ",")| ==> IsDigit(Join(xs, ",")[k]) || Join(xs, ",")[k] == ','
  {
    if |xs| > 1 {
      JoinOfDigitsIsDigits(xs[1..]);
      var rest := Join(xs[1..], ",");
      assert Join(xs, ",") == xs[0] + "," + rest;
      forall k | 0 <= k < |Join(xs, ",")|
        ensures IsDigit(Join(xs, ",")[k]) || Join(xs, ",")[k] == ','
      {
        if k > |xs[0]| {
          assert Join(xs, ",")[k] == rest[k - |xs[0]| - 1];
        }
      }
    }
  }

  /** A tag name the form can send: a known, non-blank name with no comma
      and no surrounding whitespace. */
  predicate Sendable(name: string, rows: seq<Tag>) {
    && !IsBlank(Py, name) && IsTrimmed(Py, name) && ',' !in name
    && exists i :: 0 <= i < |rows| && rows[i].name == name
  }

  /** When every name is known, each stored id is the id of the
      corresponding name. */
  lemma {:induction false} KnownNamesAllStored(names: seq<string>, rows: seq<Tag>)
    requires forall k :: 0 <= k < |names| ==> Sendable(names[k], rows)
    ensures |IdNumerals(names, rows)| == |names|
    ensures forall k :: 0 <= k < |names| ==>
      IdOf(rows, names[k]).Some? && IdNumerals(names, rows)[k] == NatToString(IdOf(rows, names[k]).value)
  {
    if names != [] {
      var first := names[0];
      KnownNamesAllStored(names[1..], rows);
      TrimIdempotent(Py, first);
      assert Trim(Py, first) == first;
      var id := IdOf(rows, first);
      assert id.Some?;
      var rest := IdNumerals(names[1..], rows);
      var all := IdNumerals(names, rows);
      assert all == [NatToString(id.value)] + rest;
      forall k | 0 <= k < |names|
        ensures IdOf(rows, names[k]).Some? && all[k] == NatToString(IdOf(rows, names[k]).value)
      {
        if k > 0 {
          assert names[k] == names[1..][k - 1] && all[k] == rest[k - 1];
        }
      }
    }
  }

  /** The stored ids are those of the found pieces, one each, in the
      order the pieces came in. */
  lemma {:induction false} IdNumeralsOfFoundPieces(pieces: seq<string>, rows: seq<Tag>)
    ensures IdNumerals(pieces, rows) == Map(Filter(pieces, FoundIn(rows)), IdNumeralIn(rows))
  {
    if pieces != [] {
      var x, rest := pieces[0], pieces[1..];
      IdNumeralsOfFoundPieces(rest, rows);
      assert pieces == [x] + rest;
      FirstPiece(x, rest, rows);
      if Found(rows, x) {
        var kept := Filter(rest, FoundIn(rows));
        assert ([x] + kept)[1..] == kept;
      }
    }
  }

  /** One more piece in front: a found one adds its id in front, any other
      adds nothing. */
  lemma FirstPiece(x: string, rest: seq<string>, rows: seq<Tag>)
    ensures Found(rows, x) ==>
      && Filter([x] + rest, FoundIn(rows)) == [x] + Filter(rest, FoundIn(rows))
      && IdNumerals([x] + rest, rows) == [IdNumeral(rows, x)] + IdNumerals(rest, rows)
    ensures !Found(rows, x) ==>
      && Filter([x] + rest, FoundIn(rows)) == Filter(rest, FoundIn(rows))
      && IdNumerals([x] + rest, rows) == IdNumerals(rest, rows)
  {
    assert ([x] + rest)[1..] == rest;
  }

  /** The pieces are looked up independently: the ids stored for two runs
      of pieces are the ids of the first run followed by those of the
      second. */
  lemma {:induction false} IdNumeralsAppend(a: seq<string>, b: seq<string>, rows: seq<Tag>)
    ensures IdNumerals(a + b, rows) == IdNumerals(a, rows) + IdNumerals(b, rows)
  {
    if a == [] {
      assert a + b == b;
    } else {
      assert (a + b)[1..] == a[1..] + b;
      IdNumeralsAppend(a[1..], b, rows);
    }
  }

  /** A blank piece, or a name the table does not know, is dropped wherever
      it stands: the stored ids are those of the other pieces. */
  lemma UnknownNameDropped(pieces: seq<string>, i: nat, rows: seq<Tag>)
    requires i < |pieces| && !Found(rows, pieces[i])
    ensures IdNumerals(pieces, rows) == IdNumerals(pieces[..i] + pieces[i + 1..], rows)
  {
    assert pieces == pieces[..i] + ([pieces[i]] + pieces[i + 1..]);
    IdNumeralsAppend(pieces[..i], [pieces[i]] + pieces[i + 1..], rows);
    IdNumeralsAppend([pieces[i]], pieces[i + 1..], rows);
    IdNumeralsAppend(pieces[..i], pieces[i + 1..], rows);
  }

  /** Saving a movie with some tag names and searching for it gives back
      the same names, joined by `", "`. */
  lemma TagsRoundTrip(names: seq<string>, rows: seq<Tag>)
    requires DistinctIds(rows)
    requires forall k :: 0 <= k < |names| ==> Sendable(names[k], rows)
    ensures TagNames(Some(StoredTags(Join(names, ","), rows)), TagTable(rows)) == Join(names, ", ")
  {
    if names == [] {
      NoTagsStoresNothing(rows);
    } else {
      var ids := IdNumerals(names, rows);
      var table := TagTable(rows);
      var stored := StoredTags(Join(names, ","), rows);
      StoredTagsOfNames(names, rows);
      assert stored == Join(ids, ",");
      KnownNamesAllStored(names, rows);
      assert |ids| >= 1;
      NamesOfStoredIds(ids, table);
      assert TagNames(Some(stored), table) == Join(NamesOf(ids, table), ", ");
      StoredIdsNameTheirTags(names, rows);
    }
  }

  /** A non-empty column of numerals is read back id by id. */
  lemma NamesOfStoredIds(ids: seq<string>, table: map<string, string>)
    requires |ids| >= 1 && forall k :: 0 <= k < |ids| ==> |ids[k]| >= 1 && AllDigits(ids[k])
    ensures TagNames(Some(Join(ids, ",")), table) == Join(NamesOf(ids, table), ", ")
  {
    NumeralsSeparable(ids);
    SplitJoin(ids, ",");
    JoinNonEmpty(ids, ",");
  }

  /** The names the form sends are stored as their ids, in order. */
  lemma StoredTagsOfNames(names: seq<string>, rows: seq<Tag>)
    requires |names| >= 1
    requires forall k :: 0 <= k < |names| ==> Sendable(names[k], rows)
    ensures StoredTags(Join(names, ","), rows) == Join(IdNumerals(names, rows), ",")
  {
    assert Separable(names, ",");
    SplitJoin(names, ",");
  }

  /** An empty tag list stores an empty column. */
  lemma NoTagsStoresNothing(rows: seq<Tag>)
    ensures StoredTags(Join([], ","), rows) == ""
  {
    assert IndexOf("", ",").None?;
    assert Split("", ",") == [""];
    assert IdNumerals([""], rows) == [];
  }

  /** Numerals have no comma in them. */
  lemma NumeralsSeparable(ids: seq<string>)
    requires forall k :: 0 <= k < |ids| ==> AllDigits(ids[k])
    ensures Separable(ids, ",")
  {
    forall k | 0 <= k < |ids|
      ensures ',' !in ids[k]
    {
      assert forall j :: 0 <= j < |ids[k]| ==> IsDigit(ids[k][j]);
    }
  }

  /** Looking the stored ids up in the search route's table gives the names
      they were stored for. */
  lemma StoredIdsNameTheirTags(names: seq<string>, rows: seq<Tag>)
    requires DistinctIds(rows)
    requires forall k :: 0 <= k < |names| ==> Sendable(names[k], rows)
    ensures NamesOf(IdNumerals(names, rows), TagTable(rows)) == names
  {
    KnownNamesAllStored(names, rows);
    var ids := IdNumerals(names, rows);
    var table := TagTable(rows);
    var found := NamesOf(ids, table);
    forall k | 0 <= k < |names|
      ensures found[k] == names[k]
    {
      TableNamesFound(rows, names[k]);
    }
  }

  /** The search route's table maps the id the add route found for a name
      back to that name. */
  lemma TableNamesFound(rows: seq<Tag>, name: string)
    requires DistinctIds(rows) && IdOf(rows, name).Some?
    ensures NatToString(IdOf(rows, name).value) in TagTable(rows)
    ensures TagTable(rows)[NatToString(IdOf(rows, name).value)] == name
  {
    var i :| 0 <= i < |rows| && rows[i] == Tag(IdOf(rows, name).value, name);
  }

  /** A join whose first piece is not empty is not empty. */
  lemma JoinNonEmpty(xs: seq<string>, sep: string)
    requires |xs| >= 1 && |xs[0]| >= 1
    ensures |Join(xs, sep)| >= 1
  {
    if |xs| > 1 {
      assert Join(xs, sep) == xs[0] + sep + Join(xs[1..], sep);
    }
  }
}

=== FILE: text.dfy ===
/** String helpers shared by the browser script and the server: whitespace
    trimming (`String.prototype.trim` / `str.strip`), splitting and joining on
    a separator (`split` / `join`, which behave alike in both languages for a
    non-empty separator), decimal rendering of integers (template literals,
    `str()`), and the two integer parsers the code relies on (`parseInt` in the
    browser, `int()` on the server). */
module Text {
  import opened Options

  // ---------------------------------------------------------------------------
  // Whitespace and trimming
  // ---------------------------------------------------------------------------

  /** Which language's notion of whitespace applies: JavaScript's (`trim`,
      and the whitespace `parseInt` skips) or Python's (`str.strip`,
      `str.isspace`, and the whitespace `int()` ignores). */
  datatype Lang = Js | Py

  /** Whitespace in `lang`.  Both languages count the ASCII spaces and
      controls, NO-BREAK SPACE, the Unicode space separators and the line
      and paragraph separators.  Only JavaScript counts the byte order mark
      U+FEFF; only Python counts the information separators U+001C to
      U+001F and NEXT LINE U+0085. */
  predicate IsSpace(lang: Lang, c: char) {
    || c == ' ' || c == '\t' || c == '\n' || c == '\r' || c == '\U{B}' || c == '\U{C}'
    || c == '\U{A0}' || c == '\U{1680}' || ('\U{2000}' <= c <= '\U{200A}')
    || c == '\U{2028}' || c == '\U{2029}' || c == '\U{202F}' || c == '\U{205F}' || c == '\U{3000}'
    || (lang == Js && c == '\U{FEFF}')
    || (lang == Py && (('\U{1C}' <= c <= '\U{1F}') || c == '\U{85}'))
  }

  predicate IsBlank(lang: Lang, s: string) {
    forall k :: 0 <= k < |s| ==> IsSpace(lang, s[k])
  }

  /** A string with no whitespace at either end: what trimming produces. */
  predicate IsTrimmed(lang: Lang, s: string) {
    s == [] || (!IsSpace(lang, s[0]) && !IsSpace(lang, s[|s| - 1]))
  }

  /** Number of whitespace characters that open `s`. */
  function LeadingSpaces(lang: Lang, s: string): (n: nat)
    ensures n <= |s|
    ensures forall k :: 0 <= k < n ==> IsSpace(lang, s[k])
    ensures n < |s| ==> !IsSpace(lang, s[n])
  {
    if |s| > 0 && IsSpace(lang, s[0]) then 1 + LeadingSpaces(lang, s[1..]) else 0
  }

  /** Number of whitespace characters that close `s`. */
  function TrailingSpaces(lang: Lang, s: string): (n: nat)
    ensures n <= |s|
    ensures forall k :: |s| - n <= k < |s| ==> IsSpace(lang, s[k])
    ensures n < |s| ==> !IsSpace(lang, s[|s| - n - 1])
  {
    if |s| > 0 && IsSpace(lang, s[|s| - 1]) then 1 + TrailingSpaces(lang, s[..|s| - 1]) else 0
  }

  /** `s.trim()` in the browser (`Js`) and `s.strip()` on the server (`Py`):
      `s` without its leading and trailing whitespace. */
  function Trim(lang: Lang, s: string): (r: string)
    ensures r == [] <==> IsBlank(lang, s)
    ensures IsTrimmed(lang, r)
    ensures |r| <= |s|
    ensures IsTrimmed(lang, s) ==> r == s
    ensures exists i, j :: 0 <= i <= j <= |s| && r == s[i..j] && IsBlank(lang, s[..i]) && IsBlank(lang, s[j..])
  {
    var lead := LeadingSpaces(lang, s);
    if lead == |s| then
      assert s == s[..|s|] && s[|s|..] == [];
      []
    else
      var trail := TrailingSpaces(lang, s);
      assert !IsSpace(lang, s[lead]);
      var r := s[lead..|s| - trail];
      assert IsBlank(lang, s[..lead]) && IsBlank(lang, s[|s| - trail..]);
      r
  }

  /** Trimming twice is trimming once. */
  lemma TrimIdempotent(lang: Lang, s: string)
    ensures Trim(lang, Trim(lang, s)) == Trim(lang, s)
  {
  }

  /** The server's `strip` finds nothing more to remove from text the
      browser trimmed, unless that text starts or ends with a character only
      Python counts as whitespace. */
  lemma StripAfterTrim(s: string)
    ensures IsTrimmed(Py, Trim(Js, s)) <==> Trim(Py, Trim(Js, s)) == Trim(Js, s)
  {
  }

  /** The two notions of whitespace differ both ways: the browser keeps an
      information separator that the server strips, and strips a byte order
      mark that the server keeps. */
  lemma WhitespaceDiffers()
    ensures Trim(Js, "\U{1F}") == "\U{1F}" && Trim(Py, "\U{1F}") == ""
    ensures Trim(Js, "\U{FEFF}") == "" && Trim(Py, "\U{FEFF}") == "\U{FEFF}"
  {
    assert IsTrimmed(Js, "\U{1F}") && IsBlank(Py, "\U{1F}");
    assert IsTrimmed(Py, "\U{FEFF}") && IsBlank(Js, "\U{FEFF}");
  }

  // ---------------------------------------------------------------------------
  // Splitting and joining
  // ---------------------------------------------------------------------------

  /** `sep` occurs in `s` starting at position `k`. */
  predicate OccursAt(s: string, sep: string, k: nat) {
    k + |sep| <= |s| && s[k..k + |sep|] == sep
  }

  /** First occurrence of `sep` in `s` at or after `from`. */
  function IndexOfFrom(s: string, sep: string, from: nat): (r: Option<nat>)
    requires from <= |s|
    ensures r.Some? ==> from <= r.value && OccursAt(s, sep, r.value)
    ensures forall k: nat :: from <= k && (r.None? || k < r.value) ==> !OccursAt(s, sep, k)
    decreases |s| - from
  {
    if from + |sep| > |s| then None
    else if s[from..from + |sep|] == sep then Some(from)
    else if from == |s| then None
    else IndexOfFrom(s, sep, from + 1)
  }

  /** `s.indexOf(sep)`: the first occurrence of `sep` in `s`, if any. */
  function IndexOf(s: string, sep: string): (r: Option<nat>)
    ensures r.Some? ==> OccursAt(s, sep, r.value)
    ensures forall k: nat :: (r.None? || k < r.value) ==> !OccursAt(s, sep, k)
  {
    IndexOfFrom(s, sep, 0)
  }

  /** `xs.join(sep)` / `sep.join(xs)`. */
  function Join(xs: seq<string>, sep: string): string
  {
    if |xs| == 0 then ""
    else if |xs| == 1 then xs[0]
    else xs[0] + sep + Join(xs[1..], sep)
  }

  /** `s.split(sep)` / `s.split(sep)` for a non-empty separator: the pieces of
      `s` between successive occurrences of `sep`, scanning left to right. */
  function Split(s: string, sep: string): (r: seq<string>)
    requires |sep| > 0
    ensures |r| >= 1
    ensures Join(r, sep) == s
    decreases |s|
  {
    match IndexOf(s, sep)
    case None => [s]
    case Some(i) =>
      var rest := Split(s[i + |sep|..], sep);
      assert s == s[..i] + sep + s[i + |sep|..];
      [s[..i]] + rest
  }

  /** No piece contains the first character of the separator. */
  predicate Separable(xs: seq<string>, sep: string)
    requires |sep| > 0
  {
    forall k :: 0 <= k < |xs| ==> sep[0] !in xs[k]
  }

  /** Splitting a join gives the pieces back, as long as no piece can be
      mistaken for the start of a separator. */
  lemma {:induction false} SplitJoin(xs: seq<string>, sep: string)
    requires |sep| > 0 && |xs| >= 1 && Separable(xs, sep)
    ensures Split(Join(xs, sep), sep) == xs
    decreases |xs|
  {
    var x := xs[0];
    var s := Join(xs, sep);
    forall k: nat | k < |x|
      ensures !OccursAt(s, sep, k)
    {
      assert x[k] in x;
      assert s[k] == x[k] != sep[0];
    }
    if |xs| == 1 {
      assert s == x;
      assert IndexOf(s, sep).None?;
    } else {
      assert s == x + sep + Join(xs[1..], sep);
      assert OccursAt(s, sep, |x|) by {
        assert s[|x|..|x| + |sep|] == sep;
      }
      assert IndexOf(s, sep) == Some(|x|);
      assert s[|x| + |sep|..] == Join(xs[1..], sep);
      SplitJoin(xs[1..], sep);
    }
  }

  /** A string without the separator's character splits into itself. */
  lemma SplitWithout(s: string, c: char)
    requires c !in s
    ensures Split(s, [c]) == [s]
  {
    forall k: nat | k + 1 <= |s|
      ensures !OccursAt(s, [c], k)
    {
      assert s[k..k + 1][0] == s[k];
    }
  }

  /** No piece of a split on one character holds that character. */
  lemma {:induction false} SplitAvoids(s: string, c: char)
    ensures forall k :: 0 <= k < |Split(s, [c])| ==> c !in Split(s, [c])[k]
    decreases |s|
  {
    match IndexOf(s, [c])
    case None =>
      forall j | 0 <= j < |s|
        ensures s[j] != c
      {
        assert !OccursAt(s, [c], j);
        assert s[j..j + 1] == [s[j]];
      }
    case Some(i) =>
      SplitAvoids(s[i + 1..], c);
      forall j | 0 <= j < i
        ensures s[j] != c
      {
        assert !OccursAt(s, [c], j);
        assert s[j..j + 1] == [s[j]];
      }
      assert Split(s, [c]) == [s[..i]] + Split(s[i + 1..], [c]);
  }

  /** `s.includes(sep)` on a string, `sep in s` in Python. */
  predicate Contains(s: string, sep: string) {
    exists k: nat :: k <= |s| && OccursAt(s, sep, k)
  }

  /** `s.startsWith(p)`. */
  predicate StartsWith(s: string, p: string) {
    p <= s
  }

  /** `c.repeat(n)` for a one-character string `c`. */
  function RepeatChar(c: char, n: nat): (r: string)
    ensures |r| == n
    ensures forall k :: 0 <= k < n ==> r[k] == c
  {
    if n == 0 then "" else [c] + RepeatChar(c, n - 1)
  }

  // ---------------------------------------------------------------------------
  // Decimal rendering and integer parsing
  // ---------------------------------------------------------------------------

  predicate IsDigit(c: char) {
    '0' <= c <= '9'
  }

  predicate AllDigits(s: string) {
    forall k :: 0 <= k < |s| ==> IsDigit(s[k])
  }

  /** The value of `c` as a digit of base `radix` (at most 36), letters of
      either case standing for 10 to 35; `None` when it is not such a digit. */
  function DigitIn(c: char, radix: nat): (r: Option<nat>)
    ensures r.Some? ==> r.value < radix
    ensures radix == 10 ==> (r.Some? <==> IsDigit(c))
  {
    var v := if '0' <= c <= '9' then c as int - '0' as int
             else if 'a' <= c <= 'z' then c as int - 'a' as int + 10
             else if 'A' <= c <= 'Z' then c as int - 'A' as int + 10
             else 36;
    if v < radix then Some(v) else None
  }

  predicate AllDigitsIn(s: string, radix: nat) {
    forall k :: 0 <= k < |s| ==> DigitIn(s[k], radix).Some?
  }

  /** Length of the longest prefix of `s` made of base-`radix` digits. */
  function RadixPrefix(s: string, radix: nat): (n: nat)
    ensures n <= |s|
    ensures AllDigitsIn(s[..n], radix)
    ensures n < |s| ==> DigitIn(s[n], radix).None?
  {
    if |s| > 0 && DigitIn(s[0], radix).Some? then
      var n := 1 + RadixPrefix(s[1..], radix);
      assert forall k :: 1 <= k < n ==> s[..n][k] == s[1..][..n - 1][k - 1];
      n
    else 0
  }

  /** The number written by the digits `s` in base `radix`. */
  function RadixValue(s: string, radix: nat): nat
    requires AllDigitsIn(s, radix)
  {
    if s == [] then 0
    else radix * RadixValue(s[..|s| - 1], radix) + DigitIn(s[|s| - 1], radix).value
  }

  function DigitChar(d: nat): (c: char)
    requires d < 10
    ensures IsDigit(c) && DigitIn(c, 10) == Some(d)
  {
    ('0' as int + d) as char
  }

  /** The decimal numeral of `n`, as a template literal or `str()` writes it. */
  function NatToString(n: nat): (r: string)
    ensures |r| >= 1 && AllDigits(r)
    ensures AllDigitsIn(r, 10) && RadixValue(r, 10) == n
    ensures |r| > 1 ==> r[0] != '0'
  {
    if n < 10 then [DigitChar(n)]
    else
      var r := NatToString(n / 10) + [DigitChar(n % 10)];
      assert r[..|r| - 1] == NatToString(n / 10);
      r
  }

  /** Distinct numbers have distinct numerals. */
  lemma NatToStringInjective(a: nat, b: nat)
    ensures NatToString(a) == NatToString(b) ==> a == b
  {
  }

  /** The decimal numeral of `i`, with a leading `-` when negative. */
  function IntToString(i: int): (r: string)
    ensures |r| >= 1
    ensures i >= 0 ==> r == NatToString(i)
    ensures i < 0 ==> r == "-" + NatToString(-i)
  {
    if i < 0 then "-" + NatToString(-i) else NatToString(i)
  }

  /** No decimal digit is whitespace in either language. */
  lemma DigitNotSpace(c: char)
    requires IsDigit(c)
    ensures !IsSpace(Js, c) && !IsSpace(Py, c)
  {
  }

  /** JavaScript's `parseInt(s)` without a radix argument: skip leading
      whitespace (as `trim` counts it), read an optional sign, read a `0x`/`0X` prefix as base 16
      and otherwise base 10, then take the longest run of digits; `None`
      stands for `NaN`, the result when that run is empty. Whatever follows
      the digits is ignored. */
  function JsParseInt(s: string): (r: Option<int>)
    ensures r.Some? ==> exists k :: 0 <= k < |s| && DigitIn(s[k], 16).Some?
  {
    var t := s[LeadingSpaces(Js, s)..];
    var negative := |t| > 0 && t[0] == '-';
    var u := if |t| > 0 && (t[0] == '-' || t[0] == '+') then t[1..] else t;
    match JsUnsigned(u)
    case None => None
    case Some(v) =>
      assert exists k :: 0 <= k < |s| && DigitIn(s[k], 16).Some? by {
        var k :| 0 <= k < |u| && DigitIn(u[k], 16).Some?;
        assert u[k] == s[|s| - |u| + k];
      }
      Some(if negative then -(v as int) else v)
  }

  /** The digits `parseInt` reads once whitespace and sign are gone: a
      `0x`/`0X` prefix selects base 16, and the longest run of digits in the
      base is the value; `None` when that run is empty. */
  function JsUnsigned(u: string): (r: Option<nat>)
    ensures r.Some? ==> exists k :: 0 <= k < |u| && DigitIn(u[k], 16).Some?
  {
    var hex := |u| >= 2 && u[0] == '0' && (u[1] == 'x' || u[1] == 'X');
    var radix := if hex then 16 else 10;
    var body := if hex then u[2..] else u;
    var n := RadixPrefix(body, radix);
    if n == 0 then None
    else
      assert DigitIn(body[0], radix).Some?;
      assert body[0] == u[|u| - |body|];
      Some(RadixValue(body[..n], radix))
  }

  /** A string made only of digits is its own longest digit prefix. */
  lemma RadixPrefixOfDigits(s: string, radix: nat)
    requires AllDigitsIn(s, radix)
    ensures RadixPrefix(s, radix) == |s|
  {
  }

  /** `parseInt` reads back every numeral `NatToString` writes. */
  lemma JsParseIntOfNumeral(n: nat)
    ensures JsParseInt(NatToString(n)) == Some(n)
  {
    JsParseIntOfDigits(NatToString(n));
  }

  /** `parseInt` reads a run of decimal digits as its value. */
  lemma JsParseIntOfDigits(s: string)
    requires |s| >= 1 && AllDigits(s) && AllDigitsIn(s, 10)
    ensures JsParseInt(s) == Some(RadixValue(s, 10))
  {
    DigitNotSpace(s[0]);
    assert LeadingSpaces(Js, s) == 0;
    assert s[0..] == s;
    assert s[0] != '-' && s[0] != '+';
    UnsignedOfDigits(s);
  }

  /** A run of decimal digits has no `0x` prefix and is read whole. */
  lemma UnsignedOfDigits(s: string)
    requires |s| >= 1 && AllDigits(s) && AllDigitsIn(s, 10)
    ensures JsUnsigned(s) == Some(RadixValue(s, 10))
  {
    assert !(|s| >= 2 && s[0] == '0' && (s[1] == 'x' || s[1] == 'X')) by {
      if |s| >= 2 {
        assert IsDigit(s[1]);
      }
    }
    RadixPrefixOfDigits(s, 10);
    assert s[..|s|] == s;
  }

  /** Python's `int(s)` on a string: surrounding whitespace is stripped, an
      optional sign is read, and everything else must be decimal digits; any
      other string raises `ValueError`, which is `None` here. */
  function PyInt(s: string): (r: Option<int>)
    ensures r.Some? ==> !IsBlank(Py, s)
  {
    var t := Trim(Py, s);
    var negative := |t| > 0 && t[0] == '-';
    var u := if |t| > 0 && (t[0] == '-' || t[0] == '+') then t[1..] else t;
    if |u| > 0 && AllDigits(u) then
      assert AllDigitsIn(u, 10);
      var v := RadixValue(u, 10);
      Some(if negative then -(v as int) else v)
    else None
  }

  /** `int()` reads back every numeral `str()` writes. */
  lemma PyIntOfNumeral(n: nat)
    ensures PyInt(NatToString(n)) == Some(n)
  {
    var s := NatToString(n);
    assert IsDigit(s[0]) && IsDigit(s[|s| - 1]);
    DigitNotSpace(s[0]);
    DigitNotSpace(s[|s| - 1]);
    assert IsTrimmed(Py, s);
    var t := Trim(Py, s);
    assert t == s;
    assert !(t[0] == '-' || t[0] == '+');
    assert AllDigitsIn(t, 10);
  }
}

=== FILE: uploads.dfy ===
/** The pending-upload queue of one image upload area (`initUploadArea`):
    the `uploadedFiles` list, what a file drop or file selection appends to
    it, what a click on a preview's delete button removes from it, and the
    reset the forms call after submitting. */
module Uploads {
  import opened Options
  import opened Text
  import opened Seqs

  /** What the code reads of a browser `File`; two files are the same file
      exactly when these three agree. */
  datatype File = File(name: string, size: nat, mimeType: string)

  /** The browser alerts that abort an addition. */
  datatype Alert =
    | NoImages          // none of the chosen files is an image
    | AlreadyQueued     // every chosen image is already queued

  /** The queue after an addition, and the alert raised instead, if any. */
  datatype Added = Added(queue: seq<File>, alert: Option<Alert>)

  /** `file.type.startsWith('image/')`. */
  predicate IsImage(f: File) {
    StartsWith(f.mimeType, "image/")
  }

  /** The file may still be appended to `queue`: an image that matches no
      queued file on name, size and type. */
  predicate Fresh(queue: seq<File>, f: File) {
    IsImage(f) && f !in queue
  }

  /** `handleNewFiles(incoming)`.  Non-images are dropped, then every image
      that matches an already queued file; duplicates inside the incoming
      batch itself are not looked for.  If nothing is left, an alert is
      raised and the queue is unchanged; otherwise the survivors are
      appended after the queue in their incoming order. */
  function HandleNewFiles(queue: seq<File>, incoming: seq<File>): (r: Added)
    ensures r.alert.Some? <==> r.queue == queue && Filter(incoming, f => Fresh(queue, f)) == []
    ensures r.alert == Some(NoImages) <==> Filter(incoming, IsImage) == []
    ensures r.alert.None? ==> r.queue == queue + Filter(incoming, f => Fresh(queue, f))
    ensures r.alert.None? ==> |r.queue| > |queue|
  {
    var valid := Filter(incoming, IsImage);
    var unique := Filter(valid, f => f !in queue);
    FilterFilter(incoming, IsImage, f => f !in queue, f => Fresh(queue, f));
    if |valid| == 0 then
      Added(queue, Some(NoImages))
    else if |unique| == 0 then
      Added(queue, Some(AlreadyQueued))
    else
      Added(queue + unique, None)
  }

  /** A click on the delete button of the preview at position `clicked`.
      The preview is detached before its position is looked up, so
      `indexOf` answers -1 and `splice(-1, 1)` removes the LAST queued file,
      whichever preview was clicked; on an empty queue nothing happens. */
  function RemoveClicked(queue: seq<File>, clicked: nat): (r: seq<File>)
    ensures queue == [] ==> r == []
    ensures queue != [] ==> r == queue[..|queue| - 1]
  {
    var index := -1;
    SpliceOne(queue, index)
  }

  /** The `reset` function the area publishes: the queue is emptied. */
  function Reset(queue: seq<File>): (r: seq<File>)
    ensures |r| == 0
  {
    []
  }

  // ---------------------------------------------------------------------------
  // Properties
  // ---------------------------------------------------------------------------

  predicate AllImages(queue: seq<File>) {
    forall i :: 0 <= i < |queue| ==> IsImage(queue[i])
  }

  /** The queue only ever holds images, and never shrinks when files are
      added. */
  lemma AddKeepsImagesOnly(queue: seq<File>, incoming: seq<File>)
    requires AllImages(queue)
    ensures AllImages(HandleNewFiles(queue, incoming).queue)
    ensures HandleNewFiles(queue, incoming).queue[..|queue|] == queue
  {
    var r := HandleNewFiles(queue, incoming);
    var added := Filter(incoming, f => Fresh(queue, f));
    if r.alert.None? {
      forall i | |queue| <= i < |r.queue|
        ensures IsImage(r.queue[i])
      {
        assert r.queue[i] == added[i - |queue|];
      }
    }
  }

  /** A file identical to a queued one is refused, and the queue keeps its
      length. */
  lemma DuplicateRefused(queue: seq<File>, f: File)
    requires f in queue && IsImage(f)
    ensures HandleNewFiles(queue, [f]) == Added(queue, Some(AlreadyQueued))
  {
    assert Filter([f], IsImage) == [f];
    assert Filter([f], g => Fresh(queue, g)) == [];
  }

  /** Two identical new images in one batch are both queued. */
  lemma SameBatchDuplicatesKept(queue: seq<File>, f: File)
    requires Fresh(queue, f)
    ensures HandleNewFiles(queue, [f, f]).queue == queue + [f, f]
  {
    assert Filter([f, f], g => Fresh(queue, g)) == [f, f] by {
      FilterAll([f, f], g => Fresh(queue, g));
    }
  }

  /** If neither the queue nor the batch repeats a file, neither does the
      queue after the addition. */
  lemma AddKeepsQueueDuplicateFree(queue: seq<File>, incoming: seq<File>)
    requires NoDuplicates(queue) && NoDuplicates(incoming)
    ensures NoDuplicates(HandleNewFiles(queue, incoming).queue)
  {
    var r := HandleNewFiles(queue, incoming);
    if r.alert.None? {
      var added := Filter(incoming, f => Fresh(queue, f));
      FilterNoDuplicates(incoming, f => Fresh(queue, f));
      forall i, j | 0 <= i < j < |r.queue|
        ensures r.queue[i] != r.queue[j]
      {
        if j >= |queue| {
          assert r.queue[j] == added[j - |queue|];
          assert r.queue[j] !in queue;
          if i >= |queue| {
            assert r.queue[i] == added[i - |queue|];
          }
        }
      }
    }
  }

  /** Deleting any preview but the last one's keeps the clicked file and
      throws away another: removal does not follow the click. */
  lemma RemovalIgnoresClick(queue: seq<File>, clicked: nat)
    requires clicked + 1 < |queue| && NoDuplicates(queue)
    ensures queue[clicked] in RemoveClicked(queue, clicked)
    ensures queue[|queue| - 1] !in RemoveClicked(queue, clicked)
  {
    var r := RemoveClicked(queue, clicked);
    assert r[clicked] == queue[clicked];
  }

  /** After a reset, an addition queues exactly the batch's images. */
  lemma ResetThenAdd(queue: seq<File>, incoming: seq<File>)
    requires Filter(incoming, IsImage) != []
    ensures HandleNewFiles(Reset(queue), incoming).queue == Filter(incoming, IsImage)
  {
    FilterSame(incoming, f => Fresh([], f), IsImage);
  }
}
